=== FILE: README.md ===
# Toolbox core in Dafny

This project models the logic of a desktop toolbox that has two tools.

**JSON formatter.**
- A persisted store of editor tabs, with a 30-minute cache of parsed values.
- The formatter screen:
  - parse status with line and column annotation;
  - format, compress and paste-to-format;
  - a font-size guard.
- The syntax-highlighting lexer that colours `JSON.stringify` output.
- Two prototypes:
  - a fold view that builds and flattens a line tree and hides folded lines;
  - a four-action tabbed formatter with its own add and close rules.

**QR-code tool.**
- The zustand store: configuration merges and batch-item operations.
- The generator screen:
  - splits input into content lines;
  - detects single or batch mode;
  - rebuilds the batch only when the lines changed;
  - applies style patches;
  - classifies decoded text as URL, e-mail, phone or plain text.
- The encoder front end (`generateQRCode` option defaults and the logo branch) and the batch loop.
- File operations:
  - text and spreadsheet import;
  - file-name patterns and extension rules;
  - the PDF grid and the collage layout.
- The decoder screen's records, copy text and success count.
- The export panel's single and batch dispatch.
- The post-build step that rewrites root-relative asset paths in `index.html`.

Foreign engines are parameters of the model:
- `JSON.parse`/`JSON.stringify` are the `Json.Engine` record.
- The QR encoder, the logo compositor and jsQR are functions passed in. The image decoder returns either the settled result or "never settles", because `decodeImage` has no error handler (see "## Findings").
- `Date.now()` readings and `Math.random()` ids are explicit arguments.

Every module is pure. Stores are immutable records, and each store action is a function from the old state to the new one.

Shared helpers:
- `JsText` holds the JavaScript string built-ins the code relies on:
  - `trim`, `split`, `join`;
  - `padStart`, `indexOf`;
  - string `replace` of the first occurrence;
  - decimal printing.
- `Lists` holds `filter` and `map` and key-distinctness facts.
- `Optional` is the optional-value type.

Where a description of the program and its code differ, the model follows the code:
- **Number run in the highlighter.** The highlighter starts and continues a number run on `-`, `.`, `e`, `E`, `+` and on every character for which `!isNaN(Number(c))` holds. That includes the digits and also every whitespace character, because `Number(" ")` is `0`. So a number run in the model swallows the spaces and line breaks that follow it (`JsonRenderer.NumberChar`). It is not limited to "digits, sign, point and exponent".
- **Strings in the highlighter.** The view's token list (`JsonRenderer.Tokens`, `JsonRenderer.Render`, `JsonRenderer.LexLoop`) follows the loop as written: a string ends at the first quote not preceded by a backslash, and it is tagged as a key exactly when the loop's `expectKey` flag is set. The two defects this causes are listed under "## Findings". The intended reading (`JsonRenderer.Corrected`) is kept beside it, and the corrected members there state what it does; the view does not use it.
- **Font-size limits.** The store-backed formatter accepts font sizes 10–24. The two prototypes accept 10–32.

## Model

| member | source | states |
|---|---|---|
| JsonStore.Initial | src/stores/useJsonStore.ts:38-40 | exactly one tab, with the given id, named `标签 1`, empty input, font size 13 and the given time stamp; no selected tab; an empty cache; the tab ids are distinct |
| JsonStore.AddTab | src/stores/useJsonStore.ts:42-55 | the old tabs are kept as a prefix; one new empty tab named after the new count is added; its font size is inherited from the first tab (13 when there is none); the new tab is selected |
| JsonStore.CloseTab | src/stores/useJsonStore.ts:57-70 | at most one tab: nothing changes; otherwise exactly the tabs with another id remain, the closed tab's cache entry is removed and the others are kept, and the selection moves to the first remaining tab (none when its id is empty) |
| JsonStore.SetActiveTab | src/stores/useJsonStore.ts:72-74 | only the selection changes |
| JsonStore.ApplyPatch | src/stores/useJsonStore.ts:80 | each field present in the patch overrides, absent fields are kept, and the time stamp is refreshed |
| JsonStore.UpdateTab | src/stores/useJsonStore.ts:76-83 | exactly the tabs with the given id are patched; position, selection and cache are unchanged |
| JsonStore.ClearCache | src/stores/useJsonStore.ts:85-90 | the cache loses exactly that key and keeps every other entry |
| JsonStore.ClearAllCache | src/stores/useJsonStore.ts:92-94 | the cache is empty; tabs and selection are unchanged |
| JsonStore.CleanupExpiredCache | src/stores/useJsonStore.ts:96-108 | an entry survives exactly when it is younger than 30 minutes; surviving entries are unchanged |
| JsonStore.CleanupLaterSubsumes | src/stores/useJsonStore.ts:96-108 | cleaning at t1 and then at a later t2 equals cleaning once at t2 |
| JsonStore.CleanupIdempotent | src/stores/useJsonStore.ts:96-108 | a second cleanup at the same time changes nothing |
| JsonStore.AddTabValid | src/stores/useJsonStore.ts:42-55 | adding under a fresh id keeps tab ids distinct and makes the id present |
| JsonStore.CloseTabValid | src/stores/useJsonStore.ts:57-70 | closing keeps ids distinct; with two or more tabs the id is gone and exactly one tab fewer remains |
| JsonStore.CloseUndoesAdd | src/stores/useJsonStore.ts:42-70 | closing the tab just added restores the old tab list |
| JsonStore.UpdateTabIdempotent | src/stores/useJsonStore.ts:76-83 | applying the same patch at the same time twice equals applying it once |
| JsonStore.UpdateTabValid | src/stores/useJsonStore.ts:76-83 | a patch that leaves ids alone keeps them distinct |
| JsonFormatter.FindPosition | src/components/json/JsonFormatter.tsx:20 | the result is the first index at which `position <digits>` occurs, and no earlier index matches |
| JsonFormatter.DigitRun | src/components/json/JsonFormatter.tsx:20-22 | the longest run of digits starting at the index |
| JsonFormatter.PrefixUpTo | src/components/json/JsonFormatter.tsx:23 | `substring(0, position)`: a prefix of the input, of length `position` or the whole input |
| JsonFormatter.LineColumnMeaning | src/components/json/JsonFormatter.tsx:23-25 | the line is one more than the number of line breaks before the position; the column counts from just after the last line break |
| JsonFormatter.Annotate | src/components/json/JsonFormatter.tsx:19-27 | the result starts with the message, and equals it exactly when the message reports no position |
| JsonFormatter.TryParseJson | src/components/json/JsonFormatter.tsx:9-31 | blank input fails with an empty message; a parsed value succeeds with that value; a parser error fails with exactly the annotated parser message |
| JsonFormatter.AnnotateSpec | src/components/json/JsonFormatter.tsx:19-27 | without `position <digit>` the message is unchanged; otherwise, for the leftmost match and the value of its whole digit run, ` (行 L, 列 C)` is appended, where L is one more than the line breaks in the input prefix of that length and C the column after its last line break |
| JsonFormatter.AnnotateAt | src/components/json/JsonFormatter.tsx:20-26 | for the leftmost `position <digit>` match, the appended line is one more than the line breaks before the reported position |
| JsonFormatter.StatusOf | src/components/json/JsonFormatter.tsx:201 | the status is valid exactly for a success and waiting exactly for a failure with an empty message |
| JsonFormatter.WaitingIffBlank | src/components/json/JsonFormatter.tsx:10 | when parser messages are non-empty, the waiting status is shown exactly for blank input |
| JsonFormatter.ActiveTab | src/components/json/JsonFormatter.tsx:41 | the selected tab when one has the selected id, else the first tab, none only for an empty list |
| JsonFormatter.Reformat | src/components/json/JsonFormatter.tsx:45-63 | no tab: nothing; blank input is cleared and unparsable input leaves the store unchanged; parsable input is replaced by its printed form; every change is `updateTab` of the active tab alone, time-stamped, so other tabs, the selection and the cache are kept |
| JsonFormatter.HandleFormat | src/components/json/JsonFormatter.tsx:45-53 | no tab: nothing; blank input is cleared; unparsable input changes nothing; a parsable one is replaced in the active tab alone by its two-space print |
| JsonFormatter.HandleCompress | src/components/json/JsonFormatter.tsx:55-63 | no tab: nothing; blank input is cleared; unparsable input changes nothing; a parsable one is replaced in the active tab alone by its compact print |
| JsonFormatter.HandleClear | src/components/json/JsonFormatter.tsx:71-75 | no tab: nothing; otherwise the active tab alone gets empty input by `updateTab` |
| JsonFormatter.HandleFontSizeChange | src/components/json/JsonFormatter.tsx:77-82 | sizes outside 10–24, a non-number or no tab change nothing; an accepted size is set on the active tab alone by `updateTab`, and nothing else changes |
| JsonFormatter.HandlePaste | src/components/json/JsonFormatter.tsx:96-110 | blank paste uses the default paste; otherwise the paste is taken over exactly when it parses, and then the active tab alone gets the pretty-printed value by `updateTab` (no tab: the store is unchanged) |
| JsonFormatter.ActiveAfterUpdate | src/components/json/JsonFormatter.tsx:41-80 | patching the active tab leaves it active, with the patch applied |
| JsonFormatter.ReformatIdempotent | src/components/json/JsonFormatter.tsx:45-63 | when the engine re-reads its own print of any value it parsed, formatting twice equals formatting once |
| JsonRenderer.RunEnd | src/components/json/JsonRenderer.tsx:25-28 | the end of the maximal run of characters satisfying the predicate |
| JsonRenderer.ScanAsWritten | src/components/json/JsonRenderer.tsx:73 | the scan stops at the first quote whose predecessor is not a backslash |
| JsonRenderer.ScanString | src/components/json/JsonRenderer.tsx:70-77 | the corrected scan, which skips escape pairs and stops only at a quote |
| JsonRenderer.Escape | src/components/json/JsonRenderer.tsx:12 | escaping a string never shortens it |
| JsonRenderer.EscapeIsEscapedBody | src/components/json/JsonRenderer.tsx:12 | what `JSON.stringify` writes inside quotes is a well-formed escaped string body |
| JsonRenderer.ScanClosesAtQuote | src/components/json/JsonRenderer.tsx:70-77 | the corrected scan over an escaped body ends exactly at its closing quote |
| JsonRenderer.ScansAtEscapedBackslash | src/components/json/JsonRenderer.tsx:73 | at `\\"` the written scan runs past the closing quote and the corrected one stops on it |
| JsonRenderer.EscapedBackslashMisread | src/components/json/JsonRenderer.tsx:73 | the mis-end holds for every text that contains `\\"` after its first character |
| JsonRenderer.StringLexeme | src/components/json/JsonRenderer.tsx:70-82 | a string token starts at the quote, covers exactly the source text it consumes and keeps the key flag |
| JsonRenderer.RunLexeme | src/components/json/JsonRenderer.tsx:23-29 | a space or number token is the maximal run of its character class |
| JsonRenderer.Step | src/components/json/JsonRenderer.tsx:18-86 | one turn of the loop: the token covers exactly the consumed source; it is a space run iff the text starts with a space, a line break iff a newline, a string iff a quote; a space run or number run is maximal; only punctuation and line breaks change the key flag |
| JsonRenderer.StepTransitions | src/components/json/JsonRenderer.tsx:18-86 | `{`, `[` and `,` set the key flag and `}`, `]`, `:` and a line break clear it; an as-written string is a key exactly when the flag is set; `true`, `false` and `null` are keywords only as whole words; a number starts on `-`, a digit or any blank other than space and newline; any other character is skipped alone |
| JsonRenderer.StringBranch | src/components/json/JsonRenderer.tsx:70-82 | a string ends at the end of its scan (the as-written or the corrected one), its body is the text between the quotes, it is closed exactly when a closing quote was found, and its key tag is the flag (as written) or a following colon (corrected) |
| JsonRenderer.Lex | src/components/json/JsonRenderer.tsx:18-86 | at most one token per character; the first token is the one the loop emits first |
| JsonRenderer.LexUnfold | src/components/json/JsonRenderer.tsx:18-86 | the token list is the first step's token followed by the tokens from where that step ended |
| JsonRenderer.SourceTextCons | src/components/json/JsonRenderer.tsx:14 | the source text of a token list is the concatenation of its tokens' source texts |
| JsonRenderer.LexCoversInput | src/components/json/JsonRenderer.tsx:18-86 | concatenating the tokens' source texts gives back the input from the start index |
| JsonRenderer.Tokens | src/components/json/JsonRenderer.tsx:14-86 | the token list of the loop as written, started with the key flag clear, covers the printed text exactly |
| JsonRenderer.Render | src/components/json/JsonRenderer.tsx:7-14 | no data shows `undefined`; data shows a token list whose source text is its two-space print |
| JsonRenderer.ShownIsSource | src/components/json/JsonRenderer.tsx:79-81 | when no character is skipped and every string is closed, the displayed text equals the source text |
| JsonRenderer.LayoutAfterRuns | src/components/json/JsonRenderer.tsx:23-45 | two space runs never follow each other, and a number run is never followed by a number, a space run or a line break |
| JsonRenderer.KeyBeforeColon | src/components/json/JsonRenderer.tsx:70-82 | in the corrected reading, a string is coloured as a key exactly when the next non-space character is `:` |
| JsonRenderer.KeyAfterLineBreak | src/components/json/JsonRenderer.tsx:19-22 | on `{` + line break + `"a":`, the string is a key only in the corrected reading |
| JsonRenderer.KeyShownAsValueAsWritten | src/components/json/JsonRenderer.tsx:19-22 | on the pretty-printed `{"a": 1}`, the key is coloured as a value by the code as written, and as a key by the corrected reading |
| JsonRenderer.LoopTurn | src/components/json/JsonRenderer.tsx:18-86 | one turn of the written loop emits the first token of the remaining token list and continues from where that token ends |
| JsonRenderer.LexLoop | src/components/json/JsonRenderer.tsx:14-86 | the loop as written (the source's string scan, keys tagged by `expectKey`) produces the view's token list, and the tokens cover the whole stringified text |
| FoldView.Build | write-json.js:43-135 | `buildTree`: at least one line; line numbers are consecutive from the base; the first line has the given indent |
| FoldView.BuildItems | write-json.js:84-89 | the lines of array items from index k: consecutive numbers, at least one line per item |
| FoldView.BuildEntries | write-json.js:113-131 | the lines of object entries from index k: consecutive numbers, at least one line per entry |
| FoldView.SingleNodeIffSingleLine | write-json.js:46-99 | a value yields a single line exactly when it is a scalar or an empty container |
| FoldView.SingleLineText | write-json.js:46-99 | the text of a one-line value: `null`, the boolean, the number, the quoted string, `[]` or `{}` |
| FoldView.ParseJsonToTree | write-json.js:32-41 | a tree is produced exactly when the engine parses, and it has at least one line |
| FoldView.ProcessNode | write-json.js:141-166 | the node comes first, renumbered; a container with a closing bracket ends with that bracket at its indent; a node without a key yields one or two lines |
| FoldView.ProcessChildren | write-json.js:150-152 | the children's lines are numbered consecutively, at least one per child |
| FoldView.ProcessList | write-json.js:168 | consecutive numbering, at least one line per tree node, the first node first |
| FoldView.FlattenTree | write-json.js:137-170 | line count equals the number of lines, and each line's number is its position |
| FoldView.ClosingFollowsOpening | write-json.js:66-166 | a multi-line value flattens to its opening line followed directly by its closing bracket |
| FoldView.ToggleFold | write-json.js:196-204 | exactly the toggled line changes membership |
| FoldView.ToggleTwice | write-json.js:196-204 | toggling the same line twice restores the fold set |
| FoldView.IsLineVisible | write-json.js:206-222 | a line is visible exactly when no folded earlier line has a smaller indent; line 0 and an empty fold set are always visible |
| FoldView.FoldHidesDeeper | write-json.js:196-222 | folding a line hides every later, deeper line; unfolding it again shows that line |
| FoldView.ActiveTab | write-json.js:178 | the selected tab when one has the selected id, else the first tab |
| FoldView.UpdateActive | write-json.js:180-184 | exactly the tabs with the selected id are updated |
| FoldView.HandleReformat | write-json.js:224-256 | the active tab's output becomes `Error: ` + the message, empty for blank input, or the stringified value; the other tabs are unchanged |
| FoldView.HandleToggleFold | write-json.js:196-204 | only the active tab's fold set changes, by toggling the line |
| FoldView.HandleClear | write-json.js:266-268 | the active tab's input, output and fold set are emptied, so no line of it is hidden any more; every other field, every other tab and the selection are unchanged |
| FoldView.HandleFontSizeChange | write-json.js:270-275 | sizes outside 10–32 change nothing; an accepted size is set on the active tab only; other tabs and the selection are unchanged |
| TabPrototype.Transform | write-json-formatter.js:23-60 | blank input fails with `Empty input`; otherwise the output is the stringified value or the parser's message |
| TabPrototype.FormatJson | write-json-formatter.js:23-31 | succeeds exactly for non-blank input that parses, with the two-space print; otherwise fails with `Empty input` or the parser's message |
| TabPrototype.CompressJson | write-json-formatter.js:33-41 | succeeds exactly for non-blank input that parses, with the compact print; otherwise fails with `Empty input` or the parser's message |
| TabPrototype.EscapeJson | write-json-formatter.js:43-50 | escaping gives the same result as compressing |
| TabPrototype.UnescapeJson | write-json-formatter.js:52-60 | unescaping gives the same result as compressing |
| TabPrototype.Initial | write-json-formatter.js:63-66 | one selected tab with the given id, named `标签 1`, with empty input and output and font size 14; the invariant holds |
| TabPrototype.ActiveTab | write-json-formatter.js:68 | the selected tab when one has the selected id, else the first tab |
| TabPrototype.UpdateActive | write-json-formatter.js:70-74 | exactly the tabs with the selected id are updated |
| TabPrototype.Handle | write-json-formatter.js:76-110 | only the active tab's output changes, to the result or to `Error: ` + message; blank input shows `Error: Empty input` |
| TabPrototype.HandleClear | write-json-formatter.js:120-122 | only the active tab's input and output are emptied |
| TabPrototype.HandleFontSizeChange | write-json-formatter.js:124-129 | sizes outside 10–32 change nothing; an accepted size is set on the active tab only |
| TabPrototype.AddTab | write-json-formatter.js:143-153 | an empty tab named after the new count, with the active tab's font size, is appended and selected |
| TabPrototype.CloseTab | write-json-formatter.js:155-163 | at most one tab: nothing; otherwise exactly the other ids remain, and the selection moves to the first tab only when the closed tab was selected |
| TabPrototype.AddTabInv | write-json-formatter.js:143-153 | adding under a fresh id keeps at least one tab, distinct ids and a valid selection |
| TabPrototype.CloseTabInv | write-json-formatter.js:155-163 | closing keeps the invariant |
| TabPrototype.SameIdsKeepInv | write-json-formatter.js:70-74 | an update that keeps ids in place keeps the invariant |
| TabPrototype.HandleKeepsInv | write-json-formatter.js:76-110 | the four actions keep the invariant |
| TabPrototype.ClearAndFontSizeKeepInv | write-json-formatter.js:120-129 | clearing and the font-size change keep the invariant |
| QrStore.MergeConfig | src/stores/useQRCodeStore.ts:46-48 | every field present in the patch overrides and absent fields are kept; the empty patch is the identity |
| QrStore.MergeWholeConfig | src/stores/useQRCodeStore.ts:46-48 | merging a complete configuration replaces the old one |
| QrStore.MergeConfigCompose | src/stores/useQRCodeStore.ts:46-48 | two merges equal one merge of the combined patch; merging a patch twice equals merging once |
| QrStore.MergeBatch | src/stores/useQRCodeStore.ts:52-54 | each batch field present in the patch overrides, absent ones are kept |
| QrStore.SetSingleConfig | src/stores/useQRCodeStore.ts:46-48 | only the single configuration changes |
| QrStore.SetBatchConfig | src/stores/useQRCodeStore.ts:52-54 | only the batch configuration changes |
| QrStore.AddBatchItem | src/stores/useQRCodeStore.ts:55-67 | one pending item with the fresh id and the content is appended; nothing else changes |
| QrStore.RemoveBatchItem | src/stores/useQRCodeStore.ts:68-73 | exactly the items with another id remain, and the id is gone |
| QrStore.ApplyItemPatch | src/stores/useQRCodeStore.ts:78 | every item field present in the patch overrides, absent ones are kept |
| QrStore.UpdateBatchItem | src/stores/useQRCodeStore.ts:74-81 | exactly the items with the id are patched, in place |
| QrStore.ClearBatchItems | src/stores/useQRCodeStore.ts:82-84 | the item list is empty; the batch settings are unchanged |
| QrStore.SetBatchData | src/stores/useQRCodeStore.ts:85-87 | the item list is replaced; the batch settings are unchanged |
| QrStore.SetGenerating | src/stores/useQRCodeStore.ts:92 | only the generating flag changes |
| QrStore.SetProgress | src/stores/useQRCodeStore.ts:93 | only the progress value changes |
| QrStore.RemoveUndoesAdd | src/stores/useQRCodeStore.ts:55-73 | removing the item just added under a fresh id restores the state |
| QrStore.RemoveAfterUpdate | src/stores/useQRCodeStore.ts:68-81 | removing an id after updating it equals removing it directly |
| QrStore.FilterUpdated | src/stores/useQRCodeStore.ts:71-79 | an id-preserving update is invisible to the filter that drops that id |
| QrStore.RemoveCount | src/stores/useQRCodeStore.ts:68-73 | with distinct ids, removing a present id removes exactly one item |
| QrLib.Resolve | src/lib/qrcode.ts:21-28 | each given option is used, and a missing one defaults to width 256, margin 2, level M, black on white |
| QrLib.PlanOf | src/lib/qrcode.ts:30-49 | without a logo the resolved options go to the encoder; with a logo the encoder width is 4 times the resolved width, and the logo and its width go to the compositor |
| QrLib.PlanKeepsWidth | src/lib/qrcode.ts:37-49 | the final image has the resolved width on both branches; margin, level and colours are unchanged |
| QrLib.PlainIsEncoderOutput | src/lib/qrcode.ts:38-40 | without a logo the result is the encoder's output at the resolved options, and it fails exactly when the encoder rejects |
| QrLib.GenerateQRCode | src/lib/qrcode.ts:30-49 | without a logo the encoder's outcome at the resolved options; with one, a rejection of the encoding at four times the resolved width is a rejection, and otherwise the compositor's outcome for that image, the logo, its width and the resolved width |
| QrLib.ConfigToOptions | src/lib/qrcode.ts:98-111 | width, margin and level are carried over; colours come from foreground and background; logo fields are copied |
| QrLib.WholeConfigOptions | src/lib/qrcode.ts:98-111 | a complete configuration resolves to exactly its own width, margin, level and colours |
| QrLib.EmptyOptionsDefaults | src/lib/qrcode.ts:21-40 | no options: plain encoding at 256, margin 2, level M, `#000000` on `#ffffff` |
| QrLib.GenerateBatch | src/lib/qrcode.ts:113-128 | the batch rejects exactly when some item's code rejects; the codes made are those of the items before the first rejection (all of them when none rejects), in order, and the progress (i + 1, total) is reported after each of them, ending at (total, total) when none rejects |
| Filenames.WithImageExtension | src/lib/utils.ts:22-24 | the name ends in `.png` or `.jpg`; it is unchanged if it already did, otherwise `.png` is appended |
| Filenames.WithImageExtensionIdempotent | src/lib/utils.ts:22-24 | adding the extension twice equals adding it once |
| Filenames.IndexTextSpec | src/lib/utils.ts:27 | the index text is at least 3 digits, reads back as the index, ends with its decimal form, and equals that form once it has 3 or more digits |
| Filenames.IndexText | src/lib/utils.ts:27 | `String(index)` left-padded with zeros to at least three characters; never truncated |
| Filenames.ContentText | src/lib/utils.ts:28 | the first 20 characters of the content, each non-alphanumeric one replaced by `_` |
| Filenames.Sanitize | src/lib/utils.ts:28 | a character-wise map of `[^a-zA-Z0-9]` to `_` that keeps the length |
| Filenames.ExtensionAddsNoField | src/lib/utils.ts:22-24 | adding the extension neither creates nor removes a `{…}` field |
| Filenames.NoFieldsNoChange | src/lib/utils.ts:21-30 | a pattern without fields yields the pattern plus extension; without the extension rule (src/lib/fileOperations.ts:70-79) it yields the pattern |
| Filenames.FillKeepsExtension | src/lib/utils.ts:26-29 | filling the fields keeps a `.png` or `.jpg` ending |
| Filenames.FillFields | src/lib/utils.ts:26-29 | a name without fields is returned unchanged |
| Filenames.FillSoleIndexField | src/lib/utils.ts:26-29 | a name whose only brace opens one `{index}` gets the padded index in its place and keeps the rest, whatever the content and the clock |
| Filenames.GenerateFilename | src/lib/utils.ts:21-30 | every generated name ends in `.png` or `.jpg` |
| Filenames.FullFilename | src/lib/fileOperations.ts:42-43 | the result ends in the format's extension, added only when it is missing |
| Filenames.FullFilenameIdempotent | src/lib/fileOperations.ts:42-43 | applying the extension rule twice equals applying it once |
| FileOps.ImportFromText | src/lib/fileOperations.ts:24-29 | at most one line more than there are line breaks |
| FileOps.KeepIsFilterOfMap | src/lib/fileOperations.ts:26-28 | the fused loop is `filter(nonEmpty)` after `map(trim)` |
| FileOps.ImportFromTextSpec | src/lib/fileOperations.ts:24-29 | the result is the trimmed non-empty pieces of `split('\n')`, in order; each is trimmed and free of line breaks |
| FileOps.ImportFromExcel | src/lib/fileOperations.ts:6-21 | at most one entry per row, and no entry is blank |
| FileOps.ImportFromExcelSpec | src/lib/fileOperations.ts:13-19 | the result is the first cells that are present and not blank, in row order |
| FileOps.CeilDiv | src/lib/fileOperations.ts:110 | `Math.ceil(a / b)`: the least r with r·b ≥ a |
| FileOps.CeilSqrt | src/lib/fileOperations.ts:109 | `Math.ceil(Math.sqrt(n))`: c² ≥ n > (c − 1)² |
| FileOps.CeilSqrtFrom | src/lib/fileOperations.ts:109 | the upward search ends at the ceiling square root |
| FileOps.CeilSqrtLeast | src/lib/fileOperations.ts:109 | no smaller number has a square of at least n |
| FileOps.PdfGrid | src/lib/fileOperations.ts:109-128 | columns are the ceiling square root; rows are the ceiling of items per page over columns; a page holds at least the requested count and fewer than one column more; the pages hold every code with less than a page to spare; a count ≤ 0 gives no pages. The default of 12 items per page is not modelled because the only caller always passes the page count (src/components/qrcode/ExportPanel.tsx:85) |
| FileOps.SlotInGrid | src/lib/fileOperations.ts:130-148 | every code lands on an existing page, column and row |
| FileOps.SlotOnPage | src/lib/fileOperations.ts:141-148 | the i-th code of a page sits at column i mod cols and row i div cols |
| FileOps.PlacePage | src/lib/fileOperations.ts:141-143 | one page of the loop places the next codes up to the page size or the end |
| FileOps.PlacePdf | src/lib/fileOperations.ts:130-148 | the nested loops place every code exactly once, in order, at its slot |
| FileOps.CollageLayout | src/lib/fileOperations.ts:188-221 | defaults of 3 columns, 300 px cells and 20 px gaps; rows are the ceiling of count over columns; the canvas is columns·cell + (columns − 1)·gap wide and rows·cell + (rows − 1)·gap + 50 high; code k sits at column k mod columns and row k div columns, one cell-plus-gap per step, below the 50 px title band; no collage for fewer than one column |
| FileOps.AxisInside | src/lib/fileOperations.ts:220-221 | the i-th cell along an axis lies within that axis's extent |
| FileOps.CellInside | src/lib/fileOperations.ts:197-221 | every cell lies inside the canvas, below the 50 px title band |
| FileOps.CollageCellsInside | src/lib/fileOperations.ts:188-221 | every placed code lies inside the canvas |
| FileOps.CellsApart | src/lib/fileOperations.ts:217-221 | two different cells are at least one cell-plus-gap apart on some axis |
| FileOps.CollageCellsDisjoint | src/lib/fileOperations.ts:214-221 | no two placed codes overlap |
| Generator.DetectMode | src/components/qrcode/QRCodeGenerator.tsx:103-107 | single mode exactly for at most one line |
| Generator.AddAll | src/components/qrcode/QRCodeGenerator.tsx:118 | the old items are kept; one pending item per line is appended, in order, with consecutive fresh ids |
| Generator.RebuildContents | src/components/qrcode/QRCodeGenerator.tsx:116-119 | after clearing and re-adding, the item contents are exactly the lines, all pending |
| Generator.Rebuild | src/components/qrcode/QRCodeGenerator.tsx:116-119 | the rebuilt batch holds exactly the lines and keeps the batch settings |
| Generator.ParseInput | src/components/qrcode/QRCodeGenerator.tsx:93-123 | the content lines are recomputed; the mode is detected only in auto mode; the batch is rebuilt only in batch mode when the input changed (or on first mount) and the contents differ, after which the contents equal the lines |
| Generator.ParseInputSettles | src/components/qrcode/QRCodeGenerator.tsx:93-123 | running the effect again on its own result changes nothing |
| Generator.SyncSingle | src/components/qrcode/QRCodeGenerator.tsx:126-133 | in single mode with lines, the single content becomes the first line; otherwise nothing changes |
| Generator.HandleStyleChange | src/components/qrcode/QRCodeGenerator.tsx:152-160 | the view is unchanged; single mode merges the style into the single configuration and changes nothing else; batch mode merges it into the global style but keeps its content, and changes nothing else |
| Generator.BatchStyleKeepsContent | src/components/qrcode/QRCodeGenerator.tsx:156-158 | a batch style change never alters the global content; without a content field it is a plain merge |
| Generator.IsUrl | src/components/qrcode/QRCodeGenerator.tsx:783-785 | every text taken for a link has at least four characters and starts with `h` or `w` |
| Generator.IsEmail | src/components/qrcode/QRCodeGenerator.tsx:787-789 | the direct test holds exactly when the text splits as `x@y.z` with `x`, `y`, `z` non-empty and no white space or `@` outside the one `@` |
| Generator.DirectIffShape | src/components/qrcode/QRCodeGenerator.tsx:787-789 | with the first `@` at the given index, the direct test agrees with the regular expression's shape |
| Generator.EmailHasOneAt | src/components/qrcode/QRCodeGenerator.tsx:787-789 | an e-mail has exactly one `@` and no whitespace |
| Generator.CountOne | src/components/qrcode/QRCodeGenerator.tsx:788 | a character present at exactly one index occurs once |
| Generator.CountNone | src/components/qrcode/QRCodeGenerator.tsx:788 | a character present at no index occurs zero times |
| Generator.IsPhone | src/components/qrcode/QRCodeGenerator.tsx:791-793 | a phone-shaped text (seven or more digits, `+`, `-`, brackets or blanks) is neither a link nor an e-mail address |
| Generator.Classify | src/components/qrcode/QRCodeGenerator.tsx:678-724 | the label is URL, e-mail, phone or plain text, following the branch order, and each label holds exactly under its test |
| Decoder.MakeRecord | src/components/qrcode/QRCodeDecoder.tsx:65-71 | a record has data exactly when the decoder returned non-empty text; otherwise it carries the not-found message |
| Decoder.DecodeFiles | src/components/qrcode/QRCodeDecoder.tsx:22-78 | an empty selection changes nothing; when some image never settles (no `onerror` handler), decoding stays on with no records; when every image settles, one record per file, in order, and decoding ends |
| Decoder.DecodeFilesSettling | src/components/qrcode/QRCodeDecoder.tsx:22-78 | with a load failure resolving as `null`, decoding always ends with one record per file, and a file that could not be loaded gets the not-found message |
| Decoder.DropFiles | src/components/qrcode/QRCodeDecoder.tsx:80-108 | only `image/` files are decoded: with none the screen is unchanged; when some image never settles, decoding stays on with no records; otherwise record k is the record of the k-th image file, and decoding ends |
| Decoder.SuccessCount | src/components/qrcode/QRCodeDecoder.tsx:220 | the success count never exceeds the record count, and it is 0 exactly when the bulk buttons are disabled |
| Decoder.NoneKeptIffDisabled | src/components/qrcode/QRCodeDecoder.tsx:204-220 | no record has data exactly when `every(item => !item.data)` holds |
| Decoder.DisabledIffNoSuccess | src/components/qrcode/QRCodeDecoder.tsx:110-220 | the bulk buttons are disabled exactly when the success count is 0, and then the text is empty |
| Decoder.LinesOfRecords | src/components/qrcode/QRCodeDecoder.tsx:111-113 | the lines of successful records are the lines of the files that decoded |
| Decoder.ResultText | src/components/qrcode/QRCodeDecoder.tsx:110-115 | the copied text is empty exactly when no record decoded |
| Decoder.DecodedText | src/components/qrcode/QRCodeDecoder.tsx:52-116 | once every image settles, the copied text has one `name: text` line per file that decoded, in file order; while one never settles, the text is empty |
| Decoder.RecordIdsDistinct | src/components/qrcode/QRCodeDecoder.tsx:66 | record ids with different counters differ |
| ExportPanel.HandleSingleExport | src/components/qrcode/ExportPanel.tsx:38-46 | nothing without a data URL; otherwise the file `qrcode.png` |
| ExportPanel.BatchOptions | src/components/qrcode/ExportPanel.tsx:64-72 | the per-item options never carry a logo |
| ExportPanel.HandleBatchExport | src/components/qrcode/ExportPanel.tsx:48-113 | an empty batch does nothing; otherwise generating goes up and then down, also when a code fails; an exporter is called exactly when every code was generated; PDF and collage get, for each item in order, its content and its code; PDF carries the page count, collage the columns and the configured width; ZIP entry k is the k-th generated name with the k-th code |
| ExportPanel.BatchCodesIgnoreLogo | src/components/qrcode/ExportPanel.tsx:62-79 | for every export kind, each exported code is the plain encoder output at the configured width, margin, level and colours, and an encoder rejection for any item means no export |
| ExportPanel.PngRuleOnImageName | src/lib/fileOperations.ts:59 | the `.png` rule keeps a `.png` name and appends to a `.jpg` name |
| ExportPanel.ZipNameOfPattern | src/components/qrcode/ExportPanel.tsx:95-104 | a ZIP entry is the generated name, except that a `.jpg` pattern gives `….jpg.png` |
| ExportPanel.ZipNameOfPlainPattern | src/components/qrcode/ExportPanel.tsx:95-104 | a pattern without fields gives the pattern plus the extension rules |
| FixPaths.ReplaceFirstMatch | fix-paths.js:7-9 | a global replace equals the text up to the first match, then the replacement, then the global replace of the rest |
| FixPaths.ReplaceWithoutMatch | fix-paths.js:7-9 | with no match the text is unchanged |
| FixPaths.Splice | fix-paths.js:7-9 | match-free text, then a replacement the pattern cannot cross, then match-free text contains no match |
| FixPaths.ReplaceLeavesNoMatch | fix-paths.js:7-9 | after a global replace there is no match of any pattern whose matches are matches of the replaced pattern and that no replacement text can help form |
| FixPaths.AssetSrcFixedBlocksAssetSrc | fix-paths.js:7 | `src="./assets/` cannot take part in a `src="/assets/` match |
| FixPaths.AssetHrefFixedBlocksAssetSrc | fix-paths.js:7-8 | `href="./assets/` cannot take part in a `src="/assets/` match |
| FixPaths.IconHrefFixedBlocksAssetSrc | fix-paths.js:7-9 | `href="./vite.svg"` cannot take part in a `src="/assets/` match |
| FixPaths.AssetHrefFixedBlocksAssetHref | fix-paths.js:8 | `href="./assets/` cannot take part in a `href="/assets/` match |
| FixPaths.IconHrefFixedBlocksAssetHref | fix-paths.js:8-9 | `href="./vite.svg"` cannot take part in a `href="/assets/` match |
| FixPaths.IconHrefFixedBlocksIconHref | fix-paths.js:9 | `href="./vite.svg"` cannot take part in a `href="/vite.svg"` match |
| FixPaths.ReplaceAll | fix-paths.js:7-9 | the global literal replace of the three rewrites; what it does is stated by FixPaths.ReplaceFirstMatch, FixPaths.ReplaceWithoutMatch and FixPaths.ReplaceLeavesNoMatch |
| FixPaths.FixHtml | fix-paths.js:6-9 | the fixed page has no root-relative asset or icon reference left |
| FixPaths.FixHtmlWithoutRootPath | fix-paths.js:6-9 | a page without such references is left unchanged |
| FixPaths.FixHtmlIdempotent | fix-paths.js:6-9 | fixing an already fixed page changes nothing |
| JsText.TrimEmptyIffBlank | src/components/json/JsonFormatter.tsx:10 | `!s.trim()` holds exactly for blank text |
| JsText.TrimIsInfix | src/lib/fileOperations.ts:27 | the trimmed text is the input with blank ends removed |
| JsText.TrimIdempotent | src/lib/fileOperations.ts:27 | trimming twice equals trimming once |
| JsText.Trim | src/lib/fileOperations.ts:27 | the trimmed text is empty or starts and ends with a non-blank character |
| JsText.JoinSplit | src/lib/fileOperations.ts:26 | joining the split pieces with the separator restores the text |
| JsText.SplitCount | src/lib/fileOperations.ts:26 | `split` gives one more piece than there are separators |
| JsText.Split | src/lib/fileOperations.ts:26 | at least one piece, and no piece holds the separator |
| JsText.SplitJoin | src/lib/fileOperations.ts:26 | splitting joined separator-free pieces restores the pieces |
| JsText.PadStart | src/lib/utils.ts:27 | `padStart`: the text, right-aligned to the width with the fill character |
| JsText.DecimalRoundTrip | src/lib/utils.ts:27 | `String(n)` reads back as n |
| JsText.ReplaceFirstSpec | src/lib/utils.ts:27-29 | a string `replace` changes only the first occurrence, or nothing when there is none |
| JsText.ReplaceFirst | src/lib/utils.ts:27-29 | without an occurrence the text is unchanged; with one, the length changes by the difference of the two texts and the replacement starts at the first occurrence |

## Left out

- I/O and platform:
  - persistence of the JSON store to `localStorage` (src/stores/useJsonStore.ts:110-118) and the generator's saved input;
  - the clipboard, file reading, `fetch`, `saveAs`, jsPDF, canvas and ZIP writing;
  - the read, write and log lines of fix-paths.js;
  - the Electron main process and all React rendering;
  - these are effects on the outside world, so they are described by the values handed to them.
- Engines and clocks:
  - `JSON.parse`/`JSON.stringify`, the QR encoder, the logo compositor (`embedLogo`) and jsQR are not modelled; they are parameters.
  - The QR encoder and the logo compositor return `None` where their promise would reject; the rejection reasons themselves are not modelled.
  - Ids from `Math.random()` are fresh-id arguments.
  - Each `Date.now()` reading is an argument.
- Progress percentages (`setProgress` with fractions of 50 or 100) and the asynchronous ordering of the awaited steps: only the order of results and the generating flag are stated. Whether the final `setProgress(100)` runs is therefore not stated either.
- ExportPanel.HandleBatchExport: a rejection inside the PDF, collage or ZIP exporter is caught by the same handler; the exporters are I/O, so the model describes the request handed to them and not whether they then fail.
- Floating point:
  - the PDF page geometry in millimetres (code size, positions, font sizes and the content preview, src/lib/fileOperations.ts:112-125, 151-172);
  - the logo size on the canvas;
  - `formatBytes`;
  - the grid, slot and collage layout are stated over integers.
- Degenerate grid settings:
  - an items-per-page count ≤ 0 gives an empty PDF plan;
  - a column count < 1 gives no collage;
  - the code divides by zero there and produces `NaN`/`Infinity`.
- Excel input: `XLSX.read` and `toString` of the first cell are not modelled; each row's first cell arrives as text or as missing.
- Array comparison: `JSON.stringify(lines) !== JSON.stringify(currentContents)` in the generator is modelled as inequality of the two string sequences.
- UTF-16: a JavaScript string's code units are modelled as characters. `substring(0, 20)` and `trim` work on those characters.
- `JsonRenderer.Escape` escapes only the quote and the backslash. Control characters, which `JSON.stringify` writes as `\n`, `\t` or `\uXXXX`, are not modelled. The escaped-body facts are stated for that subset.
- fix-paths.js replacements are global replacements of literal patterns in which `.` in `vite.svg` matches any character except a line terminator. The replacement texts contain no `$` substitutions, so none is modelled.
- write-json.js's tab add and close handlers are not modelled. Only the fold view, the handlers above and the tab selection are.
- `generateFilename` of src/lib/fileOperations.ts:70-79 is unused by the export panel, which imports the one from src/lib/utils.ts. It is modelled only as `Filenames.GenerateFilenameAsIs`, for the no-field comparison.
- Generator.IsUrl: its contract states only the length and first character of a link; the three-prefix test is the definition itself.
- Filenames.FillFields: its own contract states only the no-field case. Filenames.FillSoleIndexField states the single-`{index}` case. Patterns with several fields, or with a field that a replacement helps to form, are not stated.
- Filenames.GenerateFilename: its own contract states only the image extension. The contents are stated by Filenames.NoFieldsNoChange and Filenames.FillSoleIndexField.
- JsonFormatter.Annotate: its own contract gives only the prefix and the no-position case. The appended line and column are stated by JsonFormatter.AnnotateSpec.
- Decoder.ResultText: its own contract states only when the text is empty. The lines are stated by Decoder.LinesOfRecords and Decoder.DecodedText.
- JsText.Trim: its own contract states only the trimmed ends. The contents are stated by JsText.TrimIsInfix.
- JsText.Split: its own contract states only that the pieces are separator-free. The contents are stated by JsText.JoinSplit and JsText.SplitJoin.
- JsText.ReplaceFirst: its own contract gives the length and where the replacement starts. The full result is stated by JsText.ReplaceFirstSpec.
- JsonFormatter.HandleFormat: with no tab at all, `handleFormat` and `handleCompress` read `activeTab.id` of `undefined` and throw before any update. The model returns the store unchanged, which is the effect of that throw on the store.
- JsonStore.CloseTab: states which tabs remain (membership) but not their order, which the code keeps.
- TabPrototype.CloseTab: states membership of the remaining tabs, not their order.
- QrStore.RemoveBatchItem: states membership of the remaining items, not their order. Order is covered by QrStore.RemoveUndoesAdd and QrStore.RemoveAfterUpdate.
- FileOps.ImportFromText: its own contract gives only the length bound. The contents are stated by FileOps.ImportFromTextSpec.

## Findings

| source | as written | input that shows it | evidently intended | confidence | as-written member | corrected member |
|---|---|---|---|---|---|---|
| src/components/json/JsonRenderer.tsx:73 | a string ends at the first `"` whose predecessor is not `\` | the stringified value `"a\\"` (text ending in an escaped backslash): the closing quote follows a backslash, so the scan runs on into the next token | a string ends at the first quote that is not part of an escape pair | high (not executed) | JsonRenderer.EscapedBackslashMisread | JsonRenderer.ScanClosesAtQuote |
| src/components/json/JsonRenderer.tsx:19-22, 78-82 | a line break clears the key flag, so in pretty-printed output (every key begins a new line) no key is coloured as a key | `{"a": 1}` stringified with indent 2 is `{` + line break + `  "a": 1` + line break + `}`: the string `"a"` is coloured as a value | a string is coloured as a key when it is followed by `:` | high (not executed) | JsonRenderer.KeyShownAsValueAsWritten | JsonRenderer.KeyBeforeColon |
| src/components/qrcode/QRCodeDecoder.tsx:22-50 | `decodeImage` resolves only from `img.onload`; neither the reader nor the image has an error handler | a file of type `image/` that the browser cannot load (a truncated PNG): only `onerror` fires, the promise never settles, and the loop waits forever with decoding shown and no records | a load failure resolves with `null`, so the file gets the not-found record and decoding ends | high (not executed) | Decoder.DecodeFiles | Decoder.DecodeFilesSettling |

=== FILE: decoder.dfy ===
/**
 * The decoding screen (QRCodeDecoder.tsx): one record per chosen image, in
 * order, holding either the decoded text or the "no code found" message; the
 * text that "copy all" and "export" produce; and the success count.  The
 * image decoder (jsQR over a canvas) and the clock are parameters.
 */
module Decoder {
  import opened JsText
  import opened Optional
  import Lists

  const NotFound: string := "未检测到二维码"
  const ImagePrefix: string := "image/"
  const Separator: string := ": "

  datatype File = File(name: string, mimeType: string, bytes: seq<int>)

  /** `DecodeItem`. */
  datatype Record = Record(id: string, fileName: string, data: Option<string>,
                           error: Option<string>, timestamp: nat)

  /** `${Date.now()}-${completed}`. */
  function RecordId(time: nat, k: nat): string
  {
    Decimal(time) + "-" + Decimal(k)
  }

  /** `result || undefined` and `result ? undefined : '未检测到二维码'`: a
      missing and an empty result both count as nothing found. */
  function MakeRecord(k: nat, file: File, result: Option<string>, idTime: nat, stampTime: nat)
    : (r: Record)
    ensures r.fileName == file.name && r.id == RecordId(idTime, k)
    ensures r.data.Some? <==> result.Some? && result.value != ""
    ensures r.data.Some? ==> r.data == result && r.error.None?
    ensures r.data.None? ==> r.error == Some(NotFound)
  {
    var found := result.Some? && result.value != "";
    Record(RecordId(idTime, k), file.name, if found then result else None,
           if found then None else Some(NotFound), stampTime)
  }

  datatype Screen = Screen(decoding: bool, items: seq<Record>)

  /** What the promise of `decodeImage` does: it resolves with jsQR's text or
      `null`, or it never settles.  Neither the file reader nor the image has
      an error handler, so an image the browser cannot load (a truncated PNG,
      a format it does not support) fires only `onerror`, and nobody
      resolves the promise. */
  datatype Outcome = Settled(result: Option<string>) | NeverSettles

  /** Every file's decoding settles. */
  predicate AllSettle(files: seq<File>, decode: File -> Outcome)
  {
    forall k :: 0 <= k < |files| ==> decode(files[k]).Settled?
  }

  /** The loop of `handleFilesChange`: the decoder and the clock readings
      are parameters (`idTime(k)` and `stampTime(k)` are the two readings
      taken for the `k`-th file).  An empty selection leaves the screen
      alone.  When some file never settles, the `await` never returns, and
      the screen stays as `setDecoding(true)` and `setItems([])` left it. */
  method DecodeFiles(sc: Screen, files: seq<File>, decode: File -> Outcome,
                     idTime: nat -> nat, stampTime: nat -> nat)
    returns (r: Screen)
    ensures |files| == 0 ==> r == sc
    ensures |files| > 0 && !AllSettle(files, decode) ==> r == Screen(true, [])
    ensures |files| > 0 && AllSettle(files, decode) ==> !r.decoding && |r.items| == |files|
    ensures |files| > 0 && AllSettle(files, decode) ==>
              forall k :: 0 <= k < |files| ==>
                r.items[k] == MakeRecord(k, files[k], decode(files[k]).result, idTime(k), stampTime(k))
  {
    if |files| == 0 {
      return sc;
    }
    var results: seq<Record> := [];
    var completed := 0;
    while completed < |files|
      invariant 0 <= completed <= |files| && |results| == completed
      invariant forall k :: 0 <= k < completed ==> decode(files[k]).Settled?
      invariant forall k :: 0 <= k < completed ==>
                  results[k] == MakeRecord(k, files[k], decode(files[k]).result, idTime(k), stampTime(k))
    {
      var file := files[completed];
      var outcome := decode(file);
      if outcome.NeverSettles? {
        return Screen(true, []);
      }
      results := results + [MakeRecord(completed, file, outcome.result, idTime(completed), stampTime(completed))];
      completed := completed + 1;
    }
    r := Screen(false, results);
  }

  /** The text a decoding ends with when a load failure counts as "nothing
      found". */
  function ResultOf(o: Outcome): (r: Option<string>)
    ensures o.Settled? ==> r == o.result
    ensures o.NeverSettles? ==> r.None?
  {
    match o
    case Settled(result) => result
    case NeverSettles => None
  }

  /** The loop of `handleFilesChange` as evidently intended: an image that
      fails to load resolves with `null` (an `onerror` handler beside each
      `onload`), so decoding always ends, with one record per file, and a
      file that could not be loaded gets the not-found message. */
  method DecodeFilesSettling(sc: Screen, files: seq<File>, decode: File -> Outcome,
                             idTime: nat -> nat, stampTime: nat -> nat)
    returns (r: Screen)
    ensures |files| == 0 ==> r == sc
    ensures |files| > 0 ==> !r.decoding && |r.items| == |files|
    ensures |files| > 0 ==>
              forall k :: 0 <= k < |files| ==>
                r.items[k] == MakeRecord(k, files[k], ResultOf(decode(files[k])), idTime(k), stampTime(k))
    ensures |files| > 0 ==>
              forall k :: 0 <= k < |files| && decode(files[k]).NeverSettles? ==>
                r.items[k].data.None? && r.items[k].error == Some(NotFound)
  {
    var settling := (f: File) => Settled(ResultOf(decode(f)));
    assert AllSettle(files, settling);
    r := DecodeFiles(sc, files, settling, idTime, stampTime);
  }

  function IsImage(f: File): bool
  {
    StartsWith(f.mimeType, ImagePrefix)
  }

  /** `handleDrop`: only files whose type starts with `image/` are decoded,
      and an image that never settles leaves decoding on, as for
      `handleFilesChange`. */
  method DropFiles(sc: Screen, files: seq<File>, decode: File -> Outcome,
                   idTime: nat -> nat, stampTime: nat -> nat)
    returns (r: Screen)
    ensures var images := Lists.Filter(files, IsImage);
      (|images| == 0 ==> r == sc)
      && (|images| > 0 && !AllSettle(images, decode) ==> r == Screen(true, []))
      && (|images| > 0 && AllSettle(images, decode) ==>
            (!r.decoding && |r.items| == |images|
             && forall k :: 0 <= k < |images| ==>
                  r.items[k] == MakeRecord(k, images[k], decode(images[k]).result, idTime(k), stampTime(k))
                  && r.items[k].fileName == images[k].name && IsImage(images[k])))
    ensures (forall k :: 0 <= k < |files| ==> !IsImage(files[k])) ==> r == sc
  {
    var images := Lists.Filter(files, IsImage);
    if |images| > 0 {
      assert IsImage(images[0]);
    }
    r := DecodeFiles(sc, images, decode, idTime, stampTime);
  }

  /* ------------------------------------------------------------- results */

  function HasData(r: Record): bool { r.data.Some? }

  /** `${item.fileName}: ${item.data}`. */
  function Line(r: Record): string
  {
    r.fileName + Separator + r.data.GetOr("")
  }

  /** The text of `copyAll` and `exportResults`. */
  function ResultText(items: seq<Record>): (r: string)
    ensures r == "" <==> |Lists.Filter(items, HasData)| == 0
  {
    var lines := Lists.Map(Lists.Filter(items, HasData), Line);
    assert |lines| > 0 ==> |lines[0]| >= |Separator|;
    Join(lines, "\n")
  }

  /** The number shown as "成功". */
  function SuccessCount(items: seq<Record>): (n: nat)
    ensures n <= |items|
    ensures n == 0 <==> BulkDisabled(items)
  {
    NoneKeptIffDisabled(items);
    |Lists.Filter(items, HasData)|
  }

  lemma NoneKeptIffDisabled(items: seq<Record>)
    ensures |Lists.Filter(items, HasData)| == 0 <==> BulkDisabled(items)
  {
    var f := Lists.Filter(items, HasData);
    if !BulkDisabled(items) {
      var k :| 0 <= k < |items| && HasData(items[k]);
      assert items[k] in f;
    }
    if |f| > 0 {
      assert HasData(f[0]);
    }
  }

  /** `items.every(item => !item.data)`. */
  predicate BulkDisabled(items: seq<Record>)
  {
    forall k :: 0 <= k < |items| ==> !HasData(items[k])
  }

  /** The bulk buttons are disabled exactly when nothing was decoded, and then
      the text they would produce is empty. */
  lemma DisabledIffNoSuccess(items: seq<Record>)
    ensures BulkDisabled(items) <==> SuccessCount(items) == 0
    ensures BulkDisabled(items) ==> ResultText(items) == ""
  {
    NoneKeptIffDisabled(items);
  }

  function Decodes(decode: File -> Outcome, f: File): bool
  {
    ResultOf(decode(f)).Some? && ResultOf(decode(f)).value != ""
  }

  /** The line written for a file whose decoding succeeded. */
  function FileLine(decode: File -> Outcome, f: File): string
  {
    f.name + Separator + ResultOf(decode(f)).GetOr("")
  }

  lemma {:induction false} LinesOfRecords(items: seq<Record>, files: seq<File>, decode: File -> Outcome)
    requires |items| == |files|
    requires forall k :: 0 <= k < |items| ==>
               HasData(items[k]) == Decodes(decode, files[k])
               && (HasData(items[k]) ==> Line(items[k]) == FileLine(decode, files[k]))
    ensures Lists.Map(Lists.Filter(items, HasData), Line)
            == Lists.Map(Lists.Filter(files, (f: File) => Decodes(decode, f)), (f: File) => FileLine(decode, f))
  {
    if |items| > 0 {
      LinesOfRecords(items[1..], files[1..], decode);
      var keep := (f: File) => Decodes(decode, f);
      var line := (f: File) => FileLine(decode, f);
      var a := Lists.Filter(items[1..], HasData);
      var b := Lists.Filter(files[1..], keep);
      if HasData(items[0]) {
        assert Lists.Filter(items, HasData) == [items[0]] + a;
        assert Lists.Filter(files, keep) == [files[0]] + b;
        assert Lists.Map([items[0]] + a, Line) == [Line(items[0])] + Lists.Map(a, Line);
        assert Lists.Map([files[0]] + b, line) == [line(files[0])] + Lists.Map(b, line);
      } else {
        assert Lists.Filter(items, HasData) == a;
        assert Lists.Filter(files, keep) == b;
      }
    }
  }

  /** After every image settles, the copied text has one `name: text` line
      per file that decoded, in file order, and nothing for the others; while
      some image never settles there are no records and the text is empty. */
  method DecodedText(files: seq<File>, decode: File -> Outcome,
                     idTime: nat -> nat, stampTime: nat -> nat)
    returns (text: string)
    ensures AllSettle(files, decode) ==>
              text == Join(Lists.Map(Lists.Filter(files, (f: File) => Decodes(decode, f)),
                                     (f: File) => FileLine(decode, f)), "\n")
    ensures !AllSettle(files, decode) ==> text == ""
  {
    var sc := DecodeFiles(Screen(false, []), files, decode, idTime, stampTime);
    if AllSettle(files, decode) {
      LinesOfRecords(sc.items, files, decode);
    }
    text := ResultText(sc.items);
  }

  /** Record ids of one run never clash: the first `-` separates the two
      numbers, which neither holds. */
  lemma RecordIdsDistinct(t1: nat, k1: nat, t2: nat, k2: nat)
    requires k1 != k2
    ensures RecordId(t1, k1) != RecordId(t2, k2)
  {
    var a1, a2 := Decimal(t1), Decimal(t2);
    var s1, s2 := RecordId(t1, k1), RecordId(t2, k2);
    if s1 == s2 {
      assert s1[|a1|] == '-' && s2[|a2|] == '-';
      assert s1[|a1| + 1..] == Decimal(k1);
      assert s2[|a2| + 1..] == Decimal(k2);
      DecimalRoundTrip(k1);
      DecimalRoundTrip(k2);
    }
  }
}

=== FILE: export_panel.dfy ===
/**
 * The export handlers of ExportPanel.tsx: the single export, and the batch
 * export that encodes every item with the shared configuration (without a
 * logo) and hands the codes to the PDF, collage or ZIP exporter.  The
 * encoder, the compositor and the clock are parameters; what the exporters
 * then write is described by the request they receive.
 */
module ExportPanel {
  import opened Optional
  import opened JsText
  import QrStore
  import QrLib
  import Filenames

  const SingleName: string := "qrcode"

  /** `handleSingleExport`: nothing without a data URL, otherwise the file
      `qrcode.png`. */
  function HandleSingleExport(url: string): (r: Option<string>)
    ensures r.None? <==> url == ""
    ensures r.Some? ==> r.value == SingleName + Filenames.Png
  {
    if url == "" then None
    else
      assert !EndsWith(SingleName, Filenames.Png) by {
        assert SingleName[|SingleName| - 4] == 'c';
      }
      Some(Filenames.FullFilename(SingleName, Filenames.PngFormat))
  }

  datatype Kind = Pdf | Multiple | Collage

  /** One encoded code with the content it came from. */
  datatype Code = Code(dataUrl: string, content: string)

  /** What the chosen exporter is asked to do. */
  datatype Export =
    | NoExport
    | PdfExport(codes: seq<Code>, itemsPerPage: int)
    | CollageExport(codes: seq<Code>, columns: int, cellSize: int)
    | ZipExport(entries: seq<(string, string)>)

  /** The options built for each item: the configuration's width, margin,
      level and colours, and no logo. */
  function BatchOptions(config: QrStore.Config): (o: QrLib.Options)
    ensures !QrLib.HasLogo(o)
  {
    QrLib.Options(Some(config.width), Some(config.margin), Some(config.level),
                  Some(QrLib.Colors(Some(config.foregroundColor), Some(config.backgroundColor))),
                  None, None, None)
  }

  /** `batchConfig.filenamePattern || 'qr_{index}'`. */
  function PatternOf(b: QrStore.BatchConfig): string
  {
    if b.filenamePattern == "" then QrStore.DefaultPattern else b.filenamePattern
  }

  /** The ZIP entry name of the `k`-th code (0-based): the pattern filled with
      index `k + 1`, then the exporter's `.png` rule. */
  function ZipName(pattern: string, k: nat, content: string, now: nat): string
  {
    Filenames.FullFilename(Filenames.GenerateFilename(pattern, k + 1, content, now), Filenames.PngFormat)
  }

  datatype BatchRun = BatchRun(request: Export, generating: seq<bool>)

  /** The code of the `k`-th item, or `None` when generating it rejects. */
  function BatchCode(b: QrStore.BatchConfig, config: QrStore.Config, encode: QrLib.Encoder,
                     embed: QrLib.Compositor, k: nat): Option<string>
    requires k < |b.data|
  {
    QrLib.GenerateQRCode(b.data[k].content, BatchOptions(config), encode, embed)
  }

  predicate AllGenerated(b: QrStore.BatchConfig, config: QrStore.Config, encode: QrLib.Encoder,
                         embed: QrLib.Compositor)
  {
    forall k :: 0 <= k < |b.data| ==> BatchCode(b, config, encode, embed, k).Some?
  }

  /** `handleBatchExport`: nothing for an empty batch; otherwise `generating`
      goes up, every item is encoded in order, the codes go to the chosen
      exporter, and `generating` comes down again (`finally`).  A rejected
      code is caught: no exporter is called, and `generating` still comes
      down.  `now(k)` is the clock reading taken while naming the `k`-th
      entry. */
  function HandleBatchExport(b: QrStore.BatchConfig, config: QrStore.Config, kind: Kind,
                             pageCount: int, colCount: int,
                             encode: QrLib.Encoder, embed: QrLib.Compositor, now: nat -> nat)
    : (r: BatchRun)
    ensures |b.data| == 0 ==> r == BatchRun(NoExport, [])
    ensures |b.data| > 0 ==> r.generating == [true, false]
    ensures r.request != NoExport <==> |b.data| > 0 && AllGenerated(b, config, encode, embed)
    ensures (exists k :: 0 <= k < |b.data| && BatchCode(b, config, encode, embed, k).None?)
            ==> r.request == NoExport
    ensures r.request != NoExport && kind == Pdf ==> r.request.PdfExport? && r.request.itemsPerPage == pageCount
    ensures r.request != NoExport && kind == Collage ==>
              r.request.CollageExport? && r.request.columns == colCount && r.request.cellSize == config.width
    ensures r.request != NoExport && kind == Multiple ==>
              r.request.ZipExport? && |r.request.entries| == |b.data|
              && forall k :: 0 <= k < |b.data| ==>
                   r.request.entries[k].0 == ZipName(PatternOf(b), k, b.data[k].content, now(k))
                   && Some(r.request.entries[k].1) == BatchCode(b, config, encode, embed, k)
    ensures r.request.PdfExport? || r.request.CollageExport? ==>
              |r.request.codes| == |b.data|
              && forall k :: 0 <= k < |b.data| ==>
                   Some(r.request.codes[k].dataUrl) == BatchCode(b, config, encode, embed, k)
                   && r.request.codes[k].content == b.data[k].content
  {
    var n := |b.data|;
    if n == 0 then BatchRun(NoExport, [])
    else if !AllGenerated(b, config, encode, embed) then BatchRun(NoExport, [true, false])
    else
      var codes := seq(n, k requires 0 <= k < n =>
                         Code(BatchCode(b, config, encode, embed, k).value, b.data[k].content));
      var request :=
        match kind
        case Pdf => PdfExport(codes, pageCount)
        case Collage => CollageExport(codes, colCount, config.width)
        case Multiple =>
          ZipExport(seq(n, k requires 0 <= k < n =>
                          (ZipName(PatternOf(b), k, codes[k].content, now(k)), codes[k].dataUrl)));
      BatchRun(request, [true, false])
  }

  /** Every code of a batch export is the plain encoder output at the
      configured options: the configured logo is never drawn, and the export
      is dropped exactly when the encoder rejects some item. */
  lemma BatchCodesIgnoreLogo(b: QrStore.BatchConfig, config: QrStore.Config, kind: Kind,
                             pageCount: int, colCount: int,
                             encode: QrLib.Encoder, embed: QrLib.Compositor,
                             now: nat -> nat, k: nat)
    requires k < |b.data|
    ensures var r := HandleBatchExport(b, config, kind, pageCount, colCount, encode, embed, now);
      var plain := encode(b.data[k].content,
                          QrLib.EncodeOptions(config.width, config.margin, config.level,
                                              QrLib.Colors(Some(config.foregroundColor), Some(config.backgroundColor))));
      (plain.None? ==> r.request == NoExport)
      && (r.request != NoExport && kind != Multiple ==> Some(r.request.codes[k].dataUrl) == plain)
      && (r.request != NoExport && kind == Multiple ==> Some(r.request.entries[k].1) == plain)
  {
    QrLib.PlainIsEncoderOutput(b.data[k].content, BatchOptions(config), encode, embed);
  }

  /** The exporter's `.png` rule on a name that already ends in an image
      extension. */
  lemma PngRuleOnImageName(g: string)
    ensures EndsWith(g, Filenames.Png) ==> Filenames.FullFilename(g, Filenames.PngFormat) == g
    ensures EndsWith(g, Filenames.Jpg) ==>
              Filenames.FullFilename(g, Filenames.PngFormat) == g + Filenames.Png
              && EndsWith(g + Filenames.Png, Filenames.Jpg + Filenames.Png)
  {
    if EndsWith(g, Filenames.Jpg) {
      assert g[|g| - 3] == 'j';
      assert !EndsWith(g, Filenames.Png) by {
        assert Filenames.Png[1] == 'p';
      }
      var z := g + Filenames.Png;
      assert z[|z| - 8..] == g[|g| - 4..] + Filenames.Png;
    }
  }

  /** Every ZIP entry is the generated name, except that a pattern ending
      in `.jpg` yields a `.jpg` name to which the exporter adds `.png`. */
  lemma ZipNameOfPattern(pattern: string, k: nat, content: string, now: nat)
    ensures var g := Filenames.GenerateFilename(pattern, k + 1, content, now);
      EndsWith(pattern, Filenames.Jpg) ==>
        ZipName(pattern, k, content, now) == g + Filenames.Png
        && EndsWith(ZipName(pattern, k, content, now), Filenames.Jpg + Filenames.Png)
    ensures !EndsWith(pattern, Filenames.Jpg) ==>
              ZipName(pattern, k, content, now) == Filenames.GenerateFilename(pattern, k + 1, content, now)
  {
    var p := Filenames.WithImageExtension(pattern);
    var g := Filenames.GenerateFilename(pattern, k + 1, content, now);
    if EndsWith(pattern, Filenames.Jpg) {
      Filenames.FillKeepsExtension(p, k + 1, content, now, Filenames.Jpg);
    } else {
      Filenames.FillKeepsExtension(p, k + 1, content, now, Filenames.Png);
    }
    PngRuleOnImageName(g);
  }

  /** With a pattern free of fields the entry is the pattern with `.png`
      added once. */
  lemma ZipNameOfPlainPattern(pattern: string, k: nat, content: string, now: nat)
    requires Filenames.HasNoField(pattern)
    ensures ZipName(pattern, k, content, now)
            == Filenames.FullFilename(Filenames.WithImageExtension(pattern), Filenames.PngFormat)
  {
    Filenames.NoFieldsNoChange(pattern, k + 1, content, now);
  }
}

=== FILE: file_ops.dfy ===
/**
 * The pure parts of fileOperations.ts: the two importers, and the integer
 * grid arithmetic of the PDF and collage exporters.  Reading files, the
 * spreadsheet library, jsPDF, the canvas and the downloads are left to the
 * host; the importers receive the text (or the first cells of the rows)
 * those libraries produce.
 */
module FileOps {
  import opened JsText
  import opened Optional
  import Lists

  /* ------------------------------------------------------------- imports */

  function NonEmpty(line: string): bool { |line| > 0 }

  /** `importFromText`: the `'\n'`-separated lines, trimmed, empty ones
      dropped. */
  function ImportFromText(text: string): (r: seq<string>)
    ensures |r| <= Count(text, '\n') + 1
  {
    SplitCount(text, '\n');
    ContentLines(text)
  }

  /** Trimming then filtering out the empty lines, done one line at a time,
      is the `map(trim)` followed by `filter(l => l.length > 0)` the source
      chains. */
  lemma {:induction false} KeepIsFilterOfMap(raw: seq<string>)
    ensures KeepNonEmptyTrimmed(raw) == Lists.Filter(Lists.Map(raw, Trim), NonEmpty)
  {
    if |raw| > 0 {
      KeepIsFilterOfMap(raw[1..]);
      var m := Lists.Map(raw, Trim);
      assert m[1..] == Lists.Map(raw[1..], Trim);
      assert m[0] == Trim(raw[0]);
    }
  }

  /** The imported lines, in order, are exactly the trimmed non-empty pieces
      of the text: each is non-empty, has no white space at either end and
      holds no line break. */
  lemma ImportFromTextSpec(text: string)
    ensures ImportFromText(text) == Lists.Filter(Lists.Map(Split(text, '\n'), Trim), NonEmpty)
    ensures forall k :: 0 <= k < |ImportFromText(text)| ==> Trimmed(ImportFromText(text)[k])
    ensures forall k :: 0 <= k < |ImportFromText(text)| ==> '\n' !in ImportFromText(text)[k]
  {
    var raw := Split(text, '\n');
    KeepIsFilterOfMap(raw);
    var r := ImportFromText(text);
    forall k | 0 <= k < |r|
      ensures Trimmed(r[k]) && '\n' !in r[k]
    {
      var m := Lists.Map(raw, Trim);
      assert r[k] in m;
      var j :| 0 <= j < |m| && m[j] == r[k];
      TrimIsInfix(raw[j]);
      var a, b :| 0 <= a <= b <= |raw[j]| && Trim(raw[j]) == raw[j][a..b];
      assert '\n' !in raw[j];
    }
  }

  /** `content && content.trim()` on the first cell's string: an absent cell
      and a blank string are both falsy. */
  function KeepCell(cell: Option<string>): bool
  {
    cell.Some? && !IsBlank(cell.value)
  }

  function CellText(cell: Option<string>): string { cell.GetOr("") }

  /** The row filter of `importFromExcel` over each row's first cell, already
      converted by `toString` (`None` when the cell is missing). */
  function ImportFromExcel(firstCells: seq<Option<string>>): (r: seq<string>)
    ensures |r| <= |firstCells|
    ensures forall k :: 0 <= k < |r| ==> !IsBlank(r[k])
  {
    if |firstCells| == 0 then []
    else
      (if KeepCell(firstCells[0]) then [firstCells[0].value] else [])
      + ImportFromExcel(firstCells[1..])
  }

  /** The kept cells, in row order and untrimmed: the filter of the
      non-blank cells, read as text. */
  lemma {:induction false} ImportFromExcelSpec(firstCells: seq<Option<string>>)
    ensures ImportFromExcel(firstCells)
            == Lists.Map(Lists.Filter(firstCells, KeepCell), CellText)
  {
    if |firstCells| > 0 {
      ImportFromExcelSpec(firstCells[1..]);
      var f := Lists.Filter(firstCells, KeepCell);
      var rest := Lists.Filter(firstCells[1..], KeepCell);
      if KeepCell(firstCells[0]) {
        assert f == [firstCells[0]] + rest;
        assert Lists.Map(f, CellText) == [CellText(firstCells[0])] + Lists.Map(rest, CellText);
      } else {
        assert f == rest;
      }
    }
  }

  /* ------------------------------------------------------------ arithmetic */

  lemma MulMono(a: int, b: int, c: int)
    requires a <= b && c >= 0
    ensures a * c <= b * c
  {
    assert b * c - a * c == (b - a) * c;
  }

  /** `x < q * d` bounds the quotient: `x / d < q`. */
  lemma DivBelow(x: nat, d: nat, q: nat)
    requires d >= 1 && x < q * d
    ensures x / d < q
  {
    if x / d >= q {
      MulMono(q, x / d, d);
    }
  }

  /** Euclidean division recovers the page and the slot. */
  lemma DivModOf(page: nat, per: nat, i: nat)
    requires i < per
    ensures (page * per + i) / per == page && (page * per + i) % per == i
  {
    var x := page * per + i;
    var q := x / per;
    var m := x % per;
    assert x == q * per + m;
    if q > page {
      MulMono(page + 1, q, per);
      assert false;
    } else if q < page {
      MulMono(q + 1, page, per);
      assert false;
    }
  }

  /** `Math.ceil(a / b)` for whole numbers. */
  function CeilDiv(a: nat, b: nat): (r: nat)
    requires b >= 1
    ensures a <= r * b < a + b
  {
    var r := (a + b - 1) / b;
    assert a + b - 1 == r * b + (a + b - 1) % b;
    r
  }

  /** `Math.ceil(Math.sqrt(n))`: the least whole number whose square reaches
      `n`. */
  function CeilSqrt(n: nat): (c: nat)
    ensures c * c >= n
    ensures c == 0 || (c - 1) * (c - 1) < n
  {
    if n == 0 then 0 else CeilSqrtFrom(n, 1)
  }

  function CeilSqrtFrom(n: nat, c: nat): (r: nat)
    requires 1 <= c <= n && (c - 1) * (c - 1) < n
    ensures r * r >= n && (r - 1) * (r - 1) < n
    decreases n - c
  {
    if c * c >= n then c
    else
      MulMono(1, c, c);
      CeilSqrtFrom(n, c + 1)
  }

  /** No smaller number squares to `n` or more. */
  lemma CeilSqrtLeast(n: nat, d: nat)
    requires d * d >= n
    ensures CeilSqrt(n) <= d
  {
    var c := CeilSqrt(n);
    if d < c {
      MulMono(d, c - 1, d);
      MulMono(d, c - 1, c - 1);
    }
  }

  /* ------------------------------------------------------------- PDF grid */

  datatype Grid = Grid(cols: nat, rows: nat, perPage: nat, pages: nat)

  /** The layout `exportBatchAsPDF` derives from `itemsPerPage`.  A count
      below one makes the source's arithmetic `NaN`, and its page loop then
      runs zero times: here the grid is empty. */
  function PdfGrid(n: nat, itemsPerPage: int): (g: Grid)
    ensures itemsPerPage <= 0 ==> g.pages == 0
    ensures itemsPerPage >= 1 ==>
              g.cols >= 1 && g.rows >= 1
              && g.cols == CeilSqrt(itemsPerPage)
              && g.perPage == g.cols * g.rows
              && itemsPerPage <= g.perPage < itemsPerPage + g.cols
              && n <= g.pages * g.perPage < n + g.perPage
    ensures g.pages > 0 ==> g.cols >= 1 && g.perPage >= 1
  {
    if itemsPerPage <= 0 then Grid(0, 0, 0, 0)
    else
      var cols := CeilSqrt(itemsPerPage);
      var rows := CeilDiv(itemsPerPage, cols);
      MulMono(1, rows, cols);
      Grid(cols, rows, cols * rows, CeilDiv(n, cols * rows))
  }

  /** Where one QR code goes: its page, and the column and row on it. */
  datatype Slot = Slot(index: nat, page: nat, col: nat, row: nat)

  function SlotOf(k: nat, g: Grid): Slot
    requires g.cols >= 1 && g.perPage >= 1
  {
    var i := k % g.perPage;
    Slot(k, k / g.perPage, i % g.cols, i / g.cols)
  }

  /** Every index below `n` lands on an existing page, in an existing column
      and row of the grid. */
  lemma SlotInGrid(n: nat, itemsPerPage: int, k: nat)
    requires itemsPerPage >= 1 && k < n
    ensures var g := PdfGrid(n, itemsPerPage); var s := SlotOf(k, g);
      s.page < g.pages && s.col < g.cols && s.row < g.rows
  {
    var g := PdfGrid(n, itemsPerPage);
    DivBelow(k, g.perPage, g.pages);
    DivBelow(k % g.perPage, g.cols, g.rows);
  }

  function Min(a: int, b: int): int { if a <= b then a else b }

  /** The slot of the `i`-th code on page `page`. */
  lemma SlotOnPage(g: Grid, page: nat, i: nat)
    requires g.cols >= 1 && g.perPage >= 1 && i < g.perPage
    ensures SlotOf(page * g.perPage + i, g) == Slot(page * g.perPage + i, page, i % g.cols, i / g.cols)
  {
    DivModOf(page, g.perPage, i);
  }

  /** The inner loop of `exportBatchAsPDF`: the slots of one page, from the
      page's first index `start`, stopping at the last code. */
  method PlacePage(g: Grid, n: nat, page: nat, start: nat, slots: seq<Slot>) returns (out: seq<Slot>)
    requires g.cols >= 1 && g.perPage >= 1 && start == page * g.perPage
    requires |slots| == Min(start, n)
    requires forall k :: 0 <= k < |slots| ==> slots[k] == SlotOf(k, g)
    ensures |out| == Min(start + g.perPage, n)
    ensures forall k :: 0 <= k < |out| ==> out[k] == SlotOf(k, g)
  {
    out := slots;
    var i := 0;
    while i < g.perPage
      invariant 0 <= i <= g.perPage
      invariant |out| == Min(start + i, n)
      invariant forall k :: 0 <= k < |out| ==> out[k] == SlotOf(k, g)
    {
      var index := start + i;
      if index >= n {
        break;
      }
      SlotOnPage(g, page, i);
      out := out + [Slot(index, page, i % g.cols, i / g.cols)];
      i := i + 1;
    }
  }

  /** The two loops of `exportBatchAsPDF`: page by page, slot by slot,
      stopping at the last code.  Each index is placed once, in order. */
  method PlacePdf(n: nat, itemsPerPage: int) returns (slots: seq<Slot>)
    ensures itemsPerPage <= 0 ==> slots == []
    ensures itemsPerPage >= 1 ==> |slots| == n
    ensures itemsPerPage >= 1 ==>
              forall k :: 0 <= k < |slots| ==> slots[k] == SlotOf(k, PdfGrid(n, itemsPerPage))
  {
    var g := PdfGrid(n, itemsPerPage);
    slots := [];
    if g.pages == 0 {
      return;
    }
    var page := 0;
    var start := 0;
    while page < g.pages
      invariant 0 <= page <= g.pages && start == page * g.perPage
      invariant |slots| == Min(start, n)
      invariant forall k :: 0 <= k < |slots| ==> slots[k] == SlotOf(k, g)
    {
      slots := PlacePage(g, n, page, start, slots);
      assert (page + 1) * g.perPage == start + g.perPage;
      start := start + g.perPage;
      page := page + 1;
    }
    assert start >= n;
  }

  /* -------------------------------------------------------------- collage */

  const DefaultColumns: int := 3
  const DefaultCellSize: nat := 300
  const DefaultGap: nat := 20
  const TitleBand: nat := 50

  datatype Cell = Cell(x: int, y: int)

  datatype Collage = Collage(columns: nat, rows: nat, cellSize: nat, gap: nat,
                             width: int, height: int, cells: seq<Cell>)

  function CellOf(k: nat, columns: nat, cellSize: nat, gap: nat): Cell
    requires columns >= 1
  {
    Cell((k % columns) * (cellSize + gap), (k / columns) * (cellSize + gap) + TitleBand)
  }

  /** The canvas of `exportBatchAsCollage` for `n` codes.  Options left
      out take the defaults 3 columns, 300 pixel cells and a 20 pixel gap.  A
      column count below one gives the source `NaN` or negative geometry;
      here it gives no canvas. */
  function CollageLayout(n: nat, columns: Option<int>, cellSize: Option<nat>, gap: Option<nat>)
    : (r: Option<Collage>)
    ensures r.Some? <==> columns.GetOr(DefaultColumns) >= 1
    ensures r.Some? ==>
              r.value.columns == columns.GetOr(DefaultColumns)
              && r.value.cellSize == cellSize.GetOr(DefaultCellSize)
              && r.value.gap == gap.GetOr(DefaultGap)
              && r.value.rows * r.value.columns >= n
              && (r.value.rows == 0 || (r.value.rows - 1) * r.value.columns < n)
              && |r.value.cells| == n
    ensures r.Some? ==>
              var c := r.value; var step := c.cellSize + c.gap;
              c.width == c.columns * c.cellSize + (c.columns - 1) * c.gap
              && c.height == c.rows * c.cellSize + (c.rows - 1) * c.gap + TitleBand
              && forall k :: 0 <= k < n ==>
                   c.cells[k] == Cell((k % c.columns) * step, (k / c.columns) * step + TitleBand)
  {
    var cols := columns.GetOr(DefaultColumns);
    if cols < 1 then None
    else
      var cell := cellSize.GetOr(DefaultCellSize);
      var g := gap.GetOr(DefaultGap);
      var rows := CeilDiv(n, cols);
      Some(Collage(cols, rows, cell, g,
                   cols * cell + (cols - 1) * g,
                   rows * cell + (rows - 1) * g + TitleBand,
                   seq(n, k requires 0 <= k < n => CellOf(k, cols, cell, g))))
  }

  /** The `i`-th of `count` cells along one axis ends inside the
      `count * cellSize + (count - 1) * gap` extent. */
  lemma AxisInside(i: nat, count: nat, cellSize: nat, gap: nat)
    requires i < count
    ensures 0 <= i * (cellSize + gap)
    ensures i * (cellSize + gap) + cellSize <= count * cellSize + (count - 1) * gap
  {
    var step := cellSize + gap;
    MulMono(0, i, step);
    MulMono(i, count - 1, step);
    assert (count - 1) * step == (count - 1) * cellSize + (count - 1) * gap;
    assert (count - 1) * cellSize + cellSize == count * cellSize;
  }

  /** A cell of a grid of `rows` by `columns` ends inside the canvas. */
  lemma CellInside(k: nat, columns: nat, rows: nat, cellSize: nat, gap: nat)
    requires columns >= 1 && k < rows * columns
    ensures var c := CellOf(k, columns, cellSize, gap);
      0 <= c.x && c.x + cellSize <= columns * cellSize + (columns - 1) * gap
      && TitleBand <= c.y && c.y + cellSize <= rows * cellSize + (rows - 1) * gap + TitleBand
  {
    DivBelow(k, columns, rows);
    AxisInside(k % columns, columns, cellSize, gap);
    AxisInside(k / columns, rows, cellSize, gap);
  }

  /** Every cell lies inside the canvas, below the title band. */
  lemma CollageCellsInside(n: nat, columns: Option<int>, cellSize: Option<nat>, gap: Option<nat>, k: nat)
    requires CollageLayout(n, columns, cellSize, gap).Some? && k < n
    ensures var c := CollageLayout(n, columns, cellSize, gap).value;
      0 <= c.cells[k].x && c.cells[k].x + c.cellSize <= c.width
      && TitleBand <= c.cells[k].y && c.cells[k].y + c.cellSize <= c.height
  {
    var c := CollageLayout(n, columns, cellSize, gap).value;
    assert c.cells[k] == CellOf(k, c.columns, c.cellSize, c.gap);
    CellInside(k, c.columns, c.rows, c.cellSize, c.gap);
  }

  lemma MulAtLeast(a: int, b: int)
    requires b >= 0 && (a >= 1 || a <= -1)
    ensures a * b >= b || a * b <= -b
  {
    if a >= 1 {
      MulMono(1, a, b);
    } else {
      MulMono(a, -1, b);
    }
  }

  /** Two different indices get cells a full step apart across or down. */
  lemma CellsApart(j: nat, k: nat, columns: nat, cellSize: nat, gap: nat)
    requires columns >= 1 && j != k
    ensures var a := CellOf(j, columns, cellSize, gap); var b := CellOf(k, columns, cellSize, gap);
      var step := cellSize + gap;
      a.x - b.x >= step || b.x - a.x >= step || a.y - b.y >= step || b.y - a.y >= step
  {
    var step := cellSize + gap;
    var w := columns;
    assert j == (j / w) * w + j % w;
    assert k == (k / w) * w + k % w;
    if j % w != k % w {
      MulAtLeast(j % w - k % w, step);
      assert (j % w) * step - (k % w) * step == (j % w - k % w) * step;
    } else {
      assert j / w != k / w;
      MulAtLeast(j / w - k / w, step);
      assert (j / w) * step - (k / w) * step == (j / w - k / w) * step;
    }
  }

  /** Two different codes never overlap: their cells are a full cell and gap
      apart across or down. */
  lemma CollageCellsDisjoint(n: nat, columns: Option<int>, cellSize: Option<nat>, gap: Option<nat>,
                             j: nat, k: nat)
    requires CollageLayout(n, columns, cellSize, gap).Some? && j < n && k < n && j != k
    ensures var c := CollageLayout(n, columns, cellSize, gap).value;
      var step := c.cellSize + c.gap;
      c.cells[j].x - c.cells[k].x >= step || c.cells[k].x - c.cells[j].x >= step
      || c.cells[j].y - c.cells[k].y >= step || c.cells[k].y - c.cells[j].y >= step
  {
    var c := CollageLayout(n, columns, cellSize, gap).value;
    assert c.cells[j] == CellOf(j, c.columns, c.cellSize, c.gap);
    assert c.cells[k] == CellOf(k, c.columns, c.cellSize, c.gap);
    CellsApart(j, k, c.columns, c.cellSize, c.gap);
  }
}

=== FILE: filenames.dfy ===
/**
 * File names for exported QR codes: the pattern templating of
 * `generateFilename` in utils.ts (which first makes sure the pattern ends in
 * an image extension), its copy in fileOperations.ts (whose extension step
 * returns the pattern on both branches), and the extension rule of the
 * export functions.  The clock (`Date.now()`) is an argument.
 */
module Filenames {
  import opened JsText

  const IndexField: string := "{index}"
  const ContentField: string := "{content}"
  const TimestampField: string := "{timestamp}"
  const Png: string := ".png"
  const Jpg: string := ".jpg"
  const ContentPrefixLength: nat := 20

  /** `pattern.endsWith('.png') || pattern.endsWith('.jpg')`. */
  predicate HasImageExtension(name: string)
  {
    EndsWith(name, Png) || EndsWith(name, Jpg)
  }

  /** The extension step of utils.ts: append `.png` unless the pattern already
      ends in `.png` or `.jpg`. */
  function WithImageExtension(pattern: string): (r: string)
    ensures HasImageExtension(r)
    ensures HasImageExtension(pattern) ==> r == pattern
    ensures !HasImageExtension(pattern) ==> r == pattern + Png
  {
    if HasImageExtension(pattern) then pattern
    else
      EndsWithAppend(pattern, Png);
      pattern + Png
  }

  lemma WithImageExtensionIdempotent(pattern: string)
    ensures WithImageExtension(WithImageExtension(pattern)) == WithImageExtension(pattern)
  {
  }

  /** `String(index).padStart(3, '0')`. */
  function IndexText(index: int): (r: string)
    ensures |r| >= 3 && EndsWith(r, IntString(index))
    ensures |IntString(index)| >= 3 ==> r == IntString(index)
    ensures forall i :: 0 <= i < |r| - |IntString(index)| ==> r[i] == '0'
  {
    PadStart(IntString(index), 3, '0')
  }

  /** For a non-negative index the field is at least three digits long, is
      never truncated, and reads back as the index. */
  lemma IndexTextSpec(index: nat)
    ensures var t := IndexText(index);
      |t| >= 3 && EndsWith(t, Decimal(index)) && AllDigits(t) && DigitsValue(t) == index
      && (|Decimal(index)| >= 3 ==> t == Decimal(index))
  {
    var d := Decimal(index);
    var t := IndexText(index);
    var z := t[..|t| - |d|];
    assert t == z + d;
    LeadingZeros(z, d);
    DecimalRoundTrip(index);
  }

  /** `.replace(/[^a-zA-Z0-9]/g, '_')` on one character. */
  function SafeChar(c: char): char
  {
    if IsAsciiAlnum(c) then c else '_'
  }

  predicate SafeName(s: string)
  {
    forall i :: 0 <= i < |s| ==> IsAsciiAlnum(s[i]) || s[i] == '_'
  }

  /** `content.substring(0, 20).replace(/[^a-zA-Z0-9]/g, '_')`. */
  function ContentText(content: string): (r: string)
    ensures |r| == if |content| < ContentPrefixLength then |content| else ContentPrefixLength
    ensures forall i :: 0 <= i < |r| ==> r[i] == SafeChar(content[i])
    ensures SafeName(r)
  {
    var prefix := if |content| < ContentPrefixLength then content else content[..ContentPrefixLength];
    Sanitize(prefix)
  }

  function Sanitize(s: string): (r: string)
    ensures |r| == |s| && forall i :: 0 <= i < |s| ==> r[i] == SafeChar(s[i])
  {
    if |s| == 0 then "" else [SafeChar(s[0])] + Sanitize(s[1..])
  }

  /** The three field replacements, first occurrence of each, in order. */
  function FillFields(name: string, index: int, content: string, now: nat): (r: string)
    ensures HasNoField(name) ==> r == name
  {
    ReplaceFirstSpec(name, IndexField, IndexText(index));
    ReplaceFirstSpec(name, ContentField, ContentText(content));
    ReplaceFirstSpec(name, TimestampField, Decimal(now));
    ReplaceFirst(ReplaceFirst(ReplaceFirst(name, IndexField, IndexText(index)),
                              ContentField, ContentText(content)),
                 TimestampField, Decimal(now))
  }

  /** `generateFilename` of utils.ts: every name it generates ends in an
      image extension. */
  function GenerateFilename(pattern: string, index: int, content: string, now: nat): (r: string)
    ensures HasImageExtension(r)
  {
    var p := WithImageExtension(pattern);
    if EndsWith(p, Png) then
      FillKeepsExtension(p, index, content, now, Png);
      FillFields(p, index, content, now)
    else
      FillKeepsExtension(p, index, content, now, Jpg);
      FillFields(p, index, content, now)
  }

  /** `generateFilename` of fileOperations.ts: both branches of its extension
      step give the pattern back, so no extension is ever added. */
  function GenerateFilenameAsIs(pattern: string, index: int, content: string, now: nat): string
  {
    var ext := if EndsWith(pattern, Png) || EndsWith(pattern, Jpg) then pattern else pattern;
    FillFields(ext, index, content, now)
  }

  predicate HasNoField(s: string)
  {
    !Occurs(s, IndexField) && !Occurs(s, ContentField) && !Occurs(s, TimestampField)
  }

  /** The fields all end in `}`, which no image extension contains. */
  lemma ExtensionAddsNoField(pattern: string)
    ensures HasNoField(WithImageExtension(pattern)) <==> HasNoField(pattern)
  {
    if !HasImageExtension(pattern) {
      assert IndexField[|IndexField| - 1] !in Png;
      assert ContentField[|ContentField| - 1] !in Png;
      assert TimestampField[|TimestampField| - 1] !in Png;
      OccursAppend(pattern, Png, IndexField);
      OccursAppend(pattern, Png, ContentField);
      OccursAppend(pattern, Png, TimestampField);
    }
  }

  /** A pattern without fields comes back as it is, plus `.png` when it had
      no image extension; the copy in fileOperations.ts gives it back
      unchanged. */
  lemma NoFieldsNoChange(pattern: string, index: int, content: string, now: nat)
    requires HasNoField(pattern)
    ensures GenerateFilename(pattern, index, content, now) == WithImageExtension(pattern)
    ensures GenerateFilenameAsIs(pattern, index, content, now) == pattern
  {
    ExtensionAddsNoField(pattern);
  }

  /** Filling the fields never disturbs a final `.png` or `.jpg`: no field
      can reach into it, since the extensions hold no `}`. */
  lemma FillKeepsExtension(name: string, index: int, content: string, now: nat, ext: string)
    requires ext == Png || ext == Jpg
    requires EndsWith(name, ext)
    ensures EndsWith(FillFields(name, index, content, now), ext)
  {
    assert '}' !in ext;
    var a := ReplaceFirst(name, IndexField, IndexText(index));
    ReplaceFirstKeepsSuffix(name, IndexField, IndexText(index), ext);
    var b := ReplaceFirst(a, ContentField, ContentText(content));
    ReplaceFirstKeepsSuffix(a, ContentField, ContentText(content), ext);
    ReplaceFirstKeepsSuffix(b, TimestampField, Decimal(now), ext);
  }

  /** Every field opens with `{`, so a text without `{` holds none. */
  lemma NoBraceNoField(s: string)
    requires '{' !in s
    ensures HasNoField(s)
  {
    forall f | f == IndexField || f == ContentField || f == TimestampField
      ensures !Occurs(s, f)
    {
      forall i | 0 <= i <= |s| ensures !OccursAt(s, f, i) {
        if i < |s| {
          assert s[i] in s;
        }
      }
    }
  }

  /** The padded index is digits and at most a leading `-`, never a `{`. */
  lemma IndexTextHasNoBrace(index: int)
    ensures '{' !in IndexText(index)
  {
    var d := IntString(index);
    assert '{' !in d by {
      if index < 0 {
        assert d == "-" + Decimal(-index);
        assert '{' !in Decimal(-index);
      } else {
        assert '{' !in Decimal(index);
      }
    }
    var t := IndexText(index);
    var z := t[..|t| - |d|];
    assert t == z + d;
    assert '{' !in z;
  }

  /** A name whose only brace opens one `{index}` field: the field is
      replaced by the padded index and the rest is kept, whatever the
      content and the clock say. */
  lemma FillSoleIndexField(pre: string, post: string, index: int, content: string, now: nat)
    requires '{' !in pre && '{' !in post
    ensures FillFields(pre + IndexField + post, index, content, now) == pre + IndexText(index) + post
  {
    var t := IndexText(index);
    ReplaceSoleField(pre, post, IndexField, t);
    IndexTextHasNoBrace(index);
    var a := pre + t + post;
    NoBraceNoField(a);
    assert ReplaceFirst(a, ContentField, ContentText(content)) == a;
  }

  /** With no `{` before it, a field is first found right after `pre`. */
  lemma ReplaceSoleField(pre: string, post: string, field: string, rep: string)
    requires '{' !in pre && |field| > 0 && field[0] == '{'
    ensures ReplaceFirst(pre + field + post, field, rep) == pre + rep + post
  {
    var name := pre + field + post;
    assert name[|pre|..|pre| + |field|] == field;
    assert OccursAt(name, field, |pre|);
    forall j | 0 <= j < |pre| ensures !OccursAt(name, field, j) {
      assert name[j] == pre[j] && pre[j] in pre;
    }
    var k := IndexOf(name, field);
    assert name[..k] == pre && name[k + |field|..] == post;
  }

  /* ---------------------------------------------------- export extension */

  datatype ImageFormat = PngFormat | JpegFormat

  /** `format === 'png' ? 'png' : 'jpg'`. */
  function ExtensionOf(format: ImageFormat): string
  {
    if format == PngFormat then Png else Jpg
  }

  /** The extension rule of `exportQRCode` and `exportBatchQRCode`. */
  function FullFilename(filename: string, format: ImageFormat): (r: string)
    ensures EndsWith(r, ExtensionOf(format))
    ensures EndsWith(filename, ExtensionOf(format)) ==> r == filename
    ensures !EndsWith(filename, ExtensionOf(format)) ==> r == filename + ExtensionOf(format)
  {
    var ext := ExtensionOf(format);
    if EndsWith(filename, ext) then filename
    else
      EndsWithAppend(filename, ext);
      filename + ext
  }

  /** Applying the rule twice is applying it once. */
  lemma FullFilenameIdempotent(filename: string, format: ImageFormat)
    ensures FullFilename(FullFilename(filename, format), format) == FullFilename(filename, format)
  {
  }
}

=== FILE: fix_paths.dfy ===
/**
 * The build step of fix-paths.js: three global regular-expression
 * replacements that turn root-absolute asset references of the built
 * index.html into relative ones, so the page loads from a file URL.  Reading
 * and writing the file is left out; the rewrite is a function on its text.
 *
 * A pattern is a sequence of atoms: a literal character, or the regular
 * expression `.`, which matches any character except a line terminator.
 * A global replacement scans left to right; where the pattern matches it
 * emits the replacement and resumes after the match, elsewhere it copies one
 * character.
 */
module FixPaths {

  datatype Atom = Lit(c: char) | AnyButLineEnd

  type Pattern = seq<Atom>

  /** The line terminators of ECMAScript regular expressions. */
  predicate LineEnd(c: char)
  {
    c == '\n' || c == '\r' || c == '\U{2028}' || c == '\U{2029}'
  }

  predicate AtomMatches(a: Atom, x: char)
  {
    match a
    case Lit(c) => x == c
    case AnyButLineEnd => !LineEnd(x)
  }

  predicate MatchesAt(s: string, pat: Pattern, i: int)
  {
    0 <= i && i + |pat| <= |s| && forall k :: 0 <= k < |pat| ==> AtomMatches(pat[k], s[i + k])
  }

  predicate NoMatch(s: string, pat: Pattern)
  {
    forall i :: 0 <= i <= |s| ==> !MatchesAt(s, pat, i)
  }

  /** `s.replace(/pat/g, rep)` for a pattern that cannot match the empty
      string and a replacement without `$` substitutions. */
  function ReplaceAll(s: string, pat: Pattern, rep: string): string
    requires |pat| > 0
    decreases |s|
  {
    if |s| == 0 then ""
    else if MatchesAt(s, pat, 0) then rep + ReplaceAll(s[|pat|..], pat, rep)
    else [s[0]] + ReplaceAll(s[1..], pat, rep)
  }

  /* ------------------------------------------------------ the three rules */

  /** `/src="\/assets\//g` and its replacement. */
  const AssetSrc: Pattern :=
    [Lit('s'), Lit('r'), Lit('c'), Lit('='), Lit('"'), Lit('/'),
     Lit('a'), Lit('s'), Lit('s'), Lit('e'), Lit('t'), Lit('s'), Lit('/')]
  const AssetSrcFixed: string := "src=\"./assets/"

  /** `/href="\/assets\//g` and its replacement. */
  const AssetHref: Pattern :=
    [Lit('h'), Lit('r'), Lit('e'), Lit('f'), Lit('='), Lit('"'), Lit('/'),
     Lit('a'), Lit('s'), Lit('s'), Lit('e'), Lit('t'), Lit('s'), Lit('/')]
  const AssetHrefFixed: string := "href=\"./assets/"

  /** `/href="\/vite.svg"/g`: the dot is not escaped, so it stands for any
      character but a line terminator. */
  const IconHref: Pattern :=
    [Lit('h'), Lit('r'), Lit('e'), Lit('f'), Lit('='), Lit('"'), Lit('/'),
     Lit('v'), Lit('i'), Lit('t'), Lit('e'), AnyButLineEnd, Lit('s'), Lit('v'), Lit('g'), Lit('"')]
  const IconHrefFixed: string := "href=\"./vite.svg\""

  /** The rewrite of fix-paths.js, in its order.  Afterwards no
      root-absolute asset or icon reference is left. */
  function FixHtml(html: string): (r: string)
    ensures NoMatch(r, AssetSrc) && NoMatch(r, AssetHref) && NoMatch(r, IconHref)
  {
    AssetSrcFixedBlocksAssetSrc();
    AssetHrefFixedBlocksAssetSrc();
    IconHrefFixedBlocksAssetSrc();
    AssetHrefFixedBlocksAssetHref();
    IconHrefFixedBlocksAssetHref();
    IconHrefFixedBlocksIconHref();
    var a := ReplaceAll(html, AssetSrc, AssetSrcFixed);
    var b := ReplaceAll(a, AssetHref, AssetHrefFixed);
    ReplaceLeavesNoMatch(html, AssetSrc, AssetSrcFixed, AssetSrc);
    ReplaceLeavesNoMatch(a, AssetHref, AssetHrefFixed, AssetSrc);
    ReplaceLeavesNoMatch(a, AssetHref, AssetHrefFixed, AssetHref);
    ReplaceLeavesNoMatch(b, IconHref, IconHrefFixed, AssetSrc);
    ReplaceLeavesNoMatch(b, IconHref, IconHrefFixed, AssetHref);
    ReplaceLeavesNoMatch(b, IconHref, IconHrefFixed, IconHref);
    ReplaceAll(b, IconHref, IconHrefFixed)
  }

  /* ------------------------------------------------ replacement, in general */

  lemma MatchShift(s: string, pat: Pattern, d: nat, p: int)
    requires d <= |s|
    ensures MatchesAt(s[d..], pat, p) <==> p >= 0 && MatchesAt(s, pat, p + d)
  {
    if p >= 0 && p + |pat| <= |s| - d {
    }
  }

  /** Among the matches at or before `f` there is a first one. */
  lemma LeastMatch(s: string, pat: Pattern, f: nat) returns (g: nat)
    requires MatchesAt(s, pat, f)
    ensures g <= f && MatchesAt(s, pat, g)
    ensures forall p :: 0 <= p < g ==> !MatchesAt(s, pat, p)
    decreases f
  {
    if exists p :: 0 <= p < f && MatchesAt(s, pat, p) {
      var p :| 0 <= p < f && MatchesAt(s, pat, p);
      g := LeastMatch(s, pat, p);
    } else {
      g := f;
    }
  }

  /** Text before the first match is copied unchanged and the first match is
      replaced; the scan then starts over after it. */
  lemma {:induction false} ReplaceFirstMatch(s: string, pat: Pattern, rep: string, f: nat)
    requires |pat| > 0
    requires MatchesAt(s, pat, f)
    requires forall p :: 0 <= p < f ==> !MatchesAt(s, pat, p)
    ensures ReplaceAll(s, pat, rep) == s[..f] + rep + ReplaceAll(s[f + |pat|..], pat, rep)
    decreases f
  {
    if f > 0 {
      var t := s[1..];
      MatchShift(s, pat, 1, f - 1);
      forall p | 0 <= p < f - 1
        ensures !MatchesAt(t, pat, p)
      {
        MatchShift(s, pat, 1, p);
      }
      ReplaceFirstMatch(t, pat, rep, f - 1);
      assert t[f - 1 + |pat|..] == s[f + |pat|..];
      assert s[..f] == [s[0]] + t[..f - 1];
    }
  }

  /** Text without a match comes back unchanged. */
  lemma {:induction false} ReplaceWithoutMatch(s: string, pat: Pattern, rep: string)
    requires |pat| > 0
    requires NoMatch(s, pat)
    ensures ReplaceAll(s, pat, rep) == s
    decreases |s|
  {
    if |s| > 0 {
      assert !MatchesAt(s, pat, 0);
      forall p
        ensures !MatchesAt(s[1..], pat, p)
      {
        MatchShift(s, pat, 1, p);
      }
      ReplaceWithoutMatch(s[1..], pat, rep);
    }
  }

  /* ------------------------------------------------- replacements that block */

  /** Some atom of `q`, placed with its first atom at offset `o` of `rep`,
      from the `k`-th on, lands on a character of `rep` it does not match. */
  predicate ClashFrom(q: Pattern, rep: string, o: int, k: nat)
    decreases |q| - k
  {
    k < |q| && o + k < |rep|
    && ((0 <= o + k && !AtomMatches(q[k], rep[o + k])) || ClashFrom(q, rep, o, k + 1))
  }

  /** The first atom of a placement at offset `o` that can land on `rep`. */
  function FirstOnRep(o: int): nat
  {
    if o < 0 then -o else 0
  }

  predicate ClashesFrom(q: Pattern, rep: string, o: int)
    decreases |rep| - o
  {
    o >= |rep| || (ClashFrom(q, rep, o, FirstOnRep(o)) && ClashesFrom(q, rep, o + 1))
  }

  /** Every placement of `q` that overlaps `rep` clashes inside `rep`: no
      match of `q` can use a character of an inserted `rep`. */
  predicate Blocks(q: Pattern, rep: string)
  {
    ClashesFrom(q, rep, 1 - |q|)
  }

  lemma {:induction false} ClashWitness(q: Pattern, rep: string, o: int, k: nat) returns (m: nat)
    requires ClashFrom(q, rep, o, k)
    ensures k <= m < |q| && 0 <= o + m < |rep| && !AtomMatches(q[m], rep[o + m])
    decreases |q| - k
  {
    if 0 <= o + k && !AtomMatches(q[k], rep[o + k]) {
      m := k;
    } else {
      m := ClashWitness(q, rep, o, k + 1);
    }
  }

  lemma {:induction false} ClashesAt(q: Pattern, rep: string, o: int, p: int)
    requires ClashesFrom(q, rep, o)
    requires o <= p < |rep|
    ensures ClashFrom(q, rep, p, FirstOnRep(p))
    decreases p - o
  {
    if o < p {
      ClashesAt(q, rep, o + 1, p);
    }
  }

  /** The placement of `q` at offset `o` of `rep` (overlapping it) fails at
      some atom that lies on `rep`. */
  lemma BlockedAt(q: Pattern, rep: string, o: int) returns (m: nat)
    requires Blocks(q, rep)
    requires 1 - |q| <= o < |rep|
    ensures m < |q| && 0 <= o + m < |rep| && !AtomMatches(q[m], rep[o + m])
  {
    ClashesAt(q, rep, 1 - |q|, o);
    m := ClashWitness(q, rep, o, FirstOnRep(o));
  }

  /** A match inside a prefix is a match of the whole text. */
  lemma MatchInPrefix(s: string, q: Pattern, g: nat, p: int)
    requires g <= |s|
    requires MatchesAt(s[..g], q, p)
    ensures MatchesAt(s, q, p)
  {
  }

  /** Gluing match-free text around a blocking `rep` gives match-free text. */
  lemma Splice(a: string, rep: string, t: string, q: Pattern)
    requires |q| > 0 && Blocks(q, rep)
    requires NoMatch(a, q) && NoMatch(t, q)
    ensures NoMatch(a + rep + t, q)
  {
    var out := a + rep + t;
    var g := |a|;
    forall p | 0 <= p <= |out|
      ensures !MatchesAt(out, q, p)
    {
      if MatchesAt(out, q, p) {
        if p >= g + |rep| {
          assert out[g + |rep|..] == t;
          MatchShift(out, q, g + |rep|, p - g - |rep|);
        } else if p + |q| <= g {
          assert out[..g] == a;
          MatchShift(out[..g], q, 0, p);
        } else {
          var m := BlockedAt(q, rep, p - g);
        }
      }
    }
  }

  /** Replacing `pat` by a `rep` that blocks `q` creates no match of `q`:
      when every match of `q` in the text is a match of `pat` (for `q` the
      pattern itself, always; for another pattern, when it has none), the
      result has no match of `q`. */
  lemma {:induction false} ReplaceLeavesNoMatch(s: string, pat: Pattern, rep: string, q: Pattern)
    requires |pat| > 0 && |q| > 0
    requires Blocks(q, rep)
    requires forall p :: MatchesAt(s, q, p) ==> MatchesAt(s, pat, p)
    ensures NoMatch(ReplaceAll(s, pat, rep), q)
    decreases |s|
  {
    if NoMatch(s, pat) {
      ReplaceWithoutMatch(s, pat, rep);
    } else {
      var f: nat :| MatchesAt(s, pat, f);
      var g := LeastMatch(s, pat, f);
      ReplaceFirstMatch(s, pat, rep, g);
      var rest := s[g + |pat|..];
      forall p | MatchesAt(rest, q, p)
        ensures MatchesAt(rest, pat, p)
      {
        MatchShift(s, q, g + |pat|, p);
        MatchShift(s, pat, g + |pat|, p);
      }
      ReplaceLeavesNoMatch(rest, pat, rep, q);
      forall p | 0 <= p <= g
        ensures !MatchesAt(s[..g], q, p)
      {
        if MatchesAt(s[..g], q, p) {
          MatchInPrefix(s, q, g, p);
        }
      }
      Splice(s[..g], rep, ReplaceAll(rest, pat, rep), q);
    }
  }

  /* ----------------------------------------------------------- the rewrite */

  /* Each replacement blocks the patterns it must not bring back: its own
     and those applied before it.  Each is checked offset by offset. */

  lemma AssetSrcFixedBlocksAssetSrc()
    ensures Blocks(AssetSrc, AssetSrcFixed)
  {
    assert ClashesFrom(AssetSrc, AssetSrcFixed, 10);
    assert ClashesFrom(AssetSrc, AssetSrcFixed, 6);
    assert ClashesFrom(AssetSrc, AssetSrcFixed, 2);
    assert ClashesFrom(AssetSrc, AssetSrcFixed, -2);
    assert ClashesFrom(AssetSrc, AssetSrcFixed, -6);
    assert ClashesFrom(AssetSrc, AssetSrcFixed, -10);
    assert ClashesFrom(AssetSrc, AssetSrcFixed, -12);
  }

  lemma AssetHrefFixedBlocksAssetSrc()
    ensures Blocks(AssetSrc, AssetHrefFixed)
  {
    assert ClashesFrom(AssetSrc, AssetHrefFixed, 11);
    assert ClashesFrom(AssetSrc, AssetHrefFixed, 7);
    assert ClashesFrom(AssetSrc, AssetHrefFixed, 3);
    assert ClashesFrom(AssetSrc, AssetHrefFixed, -1);
    assert ClashesFrom(AssetSrc, AssetHrefFixed, -5);
    assert ClashesFrom(AssetSrc, AssetHrefFixed, -9);
    assert ClashesFrom(AssetSrc, AssetHrefFixed, -12);
  }

  lemma IconHrefFixedBlocksAssetSrc()
    ensures Blocks(AssetSrc, IconHrefFixed)
  {
    assert ClashesFrom(AssetSrc, IconHrefFixed, 13);
    assert ClashesFrom(AssetSrc, IconHrefFixed, 9);
    assert ClashesFrom(AssetSrc, IconHrefFixed, 5);
    assert ClashesFrom(AssetSrc, IconHrefFixed, 1);
    assert ClashesFrom(AssetSrc, IconHrefFixed, -3);
    assert ClashesFrom(AssetSrc, IconHrefFixed, -7);
    assert ClashesFrom(AssetSrc, IconHrefFixed, -11);
    assert ClashesFrom(AssetSrc, IconHrefFixed, -12);
  }

  lemma AssetHrefFixedBlocksAssetHref()
    ensures Blocks(AssetHref, AssetHrefFixed)
  {
    assert ClashesFrom(AssetHref, AssetHrefFixed, 11);
    assert ClashesFrom(AssetHref, AssetHrefFixed, 7);
    assert ClashesFrom(AssetHref, AssetHrefFixed, 3);
    assert ClashesFrom(AssetHref, AssetHrefFixed, -1);
    assert ClashesFrom(AssetHref, AssetHrefFixed, -5);
    assert ClashesFrom(AssetHref, AssetHrefFixed, -9);
    assert ClashesFrom(AssetHref, AssetHrefFixed, -13);
  }

  lemma IconHrefFixedBlocksAssetHref()
    ensures Blocks(AssetHref, IconHrefFixed)
  {
    assert ClashesFrom(AssetHref, IconHrefFixed, 13);
    assert ClashesFrom(AssetHref, IconHrefFixed, 9);
    assert ClashesFrom(AssetHref, IconHrefFixed, 5);
    assert ClashesFrom(AssetHref, IconHrefFixed, 1);
    assert ClashesFrom(AssetHref, IconHrefFixed, -3);
    assert ClashesFrom(AssetHref, IconHrefFixed, -7);
    assert ClashesFrom(AssetHref, IconHrefFixed, -11);
    assert ClashesFrom(AssetHref, IconHrefFixed, -13);
  }

  lemma IconHrefFixedBlocksIconHref()
    ensures Blocks(IconHref, IconHrefFixed)
  {
    assert ClashesFrom(IconHref, IconHrefFixed, 13);
    assert ClashesFrom(IconHref, IconHrefFixed, 9);
    assert ClashesFrom(IconHref, IconHrefFixed, 5);
    assert ClashesFrom(IconHref, IconHrefFixed, 1);
    assert ClashesFrom(IconHref, IconHrefFixed, -3);
    assert ClashesFrom(IconHref, IconHrefFixed, -7);
    assert ClashesFrom(IconHref, IconHrefFixed, -11);
    assert ClashesFrom(IconHref, IconHrefFixed, -15);
  }

  /** A page without such references is left exactly as it is. */
  lemma FixHtmlWithoutRootPath(html: string)
    requires NoMatch(html, AssetSrc) && NoMatch(html, AssetHref) && NoMatch(html, IconHref)
    ensures FixHtml(html) == html
  {
    ReplaceWithoutMatch(html, AssetSrc, AssetSrcFixed);
    ReplaceWithoutMatch(html, AssetHref, AssetHrefFixed);
    ReplaceWithoutMatch(html, IconHref, IconHrefFixed);
  }

  /** Running the script a second time changes nothing. */
  lemma FixHtmlIdempotent(html: string)
    ensures FixHtml(FixHtml(html)) == FixHtml(html)
  {
    FixHtmlWithoutRootPath(FixHtml(html));
  }
}

=== FILE: fold_view.dfy ===
/**
 * The foldable JSON view of the `write-json.js` prototype: a parsed value is
 * turned into a list of display nodes (`buildTree`), the nodes are numbered
 * line by line (`flattenTree`), and a set of folded line numbers hides every
 * later line indented deeper than a folded one (`isLineVisible`).  The tab
 * list of the prototype carries an output pane and the fold set per tab.
 *
 * The source pushes the elements of an array, and the key nodes of an
 * object, into the same list as the bracket node itself, so the closing
 * bracket line comes straight after the opening one; the model keeps that
 * order (see `ClosingFollowsOpening`).
 */
module FoldView {
  import opened Optional
  import opened JsText
  import Json
  import Lists

  /** A display node.  An absent bracket is `""` and absent children are
      `[]`: the source only ever tests them for truthiness. */
  datatype Node = Node(
    key: Option<string>,
    value: string,
    indent: nat,
    lineNumber: nat,
    isContainer: bool,
    startBracket: string,
    endBracket: string,
    children: seq<Node>)

  function Leaf(value: string, indent: nat, line: nat): Node
  {
    Node(None, value, indent, line, false, "", "", [])
  }

  function Opening(start: string, end: string, indent: nat, line: nat): Node
  {
    Node(None, "", indent, line, true, start, end, [])
  }

  predicate HasKey(n: Node)
  {
    n.key.Some? && n.key.value != ""
  }

  /** A value that `buildTree` shows on a single line. */
  predicate SingleLine(v: Json.Value)
  {
    !(v.Array? && |v.items| > 0) && !(v.Object? && |v.entries| > 0)
  }

  /* ------------------------------------------------------------ buildTree */

  /** The nodes `buildTree(v, parent, indent)` pushes onto a list that already
      holds `base` nodes; each node's line number is the list length at the
      moment it is pushed. */
  function Build(v: Json.Value, base: nat, indent: nat): (r: seq<Node>)
    ensures |r| >= 1
    ensures forall j :: 0 <= j < |r| ==> r[j].lineNumber == base + j
    ensures r[0].indent == indent
    decreases v, 1
  {
    match v
    case Null => [Leaf("null", indent, base)]
    case Str(s) => [Leaf("\"" + s + "\"", indent, base)]
    case Number(text) => [Leaf(text, indent, base)]
    case Bool(b) => [Leaf(if b then "true" else "false", indent, base)]
    case Array(items) =>
      if |items| == 0 then [Leaf("[]", indent, base)]
      else [Opening("[", "]", indent, base)] + BuildItems(v, 0, base + 1, indent + 1)
    case Object(entries) =>
      if |entries| == 0 then [Leaf("{}", indent, base)]
      else [Opening("{", "}", indent, base)] + BuildEntries(v, 0, base + 1, indent + 1)
  }

  /** The array branch from element `k` on: a comma before every element but
      the last, then the element's own nodes, all in the parent's list. */
  function BuildItems(v: Json.Value, k: nat, base: nat, indent: nat): (r: seq<Node>)
    requires v.Array? && k <= |v.items|
    ensures forall j :: 0 <= j < |r| ==> r[j].lineNumber == base + j
    ensures k < |v.items| ==> |r| >= |v.items| - k
    decreases v, 0, |v.items| - k
  {
    if k == |v.items| then []
    else
      var comma := if k < |v.items| - 1 then [Leaf(",", indent, base)] else [];
      var item := Build(v.items[k], base + |comma|, indent);
      comma + item + BuildItems(v, k + 1, base + |comma| + |item|, indent)
  }

  /** The object branch from key `k` on: a key node whose children are the
      value's nodes (numbered from 0 in their own list), then a comma after
      every key but the last. */
  function BuildEntries(v: Json.Value, k: nat, base: nat, indent: nat): (r: seq<Node>)
    requires v.Object? && k <= |v.entries|
    ensures forall j :: 0 <= j < |r| ==> r[j].lineNumber == base + j
    ensures k < |v.entries| ==> |r| >= |v.entries| - k
    decreases v, 0, |v.entries| - k
  {
    if k == |v.entries| then []
    else
      var keyNode := Node(Some(v.entries[k].0), "", indent, base, true, "", "",
                          Build(v.entries[k].1, 0, indent));
      var comma := if k < |v.entries| - 1 then [Leaf(",", indent, base + 1)] else [];
      [keyNode] + comma + BuildEntries(v, k + 1, base + 1 + |comma|, indent)
  }

  /** `buildTree` gives a single node exactly for scalars and empty
      containers. */
  lemma SingleNodeIffSingleLine(v: Json.Value, base: nat, indent: nat)
    ensures |Build(v, base, indent)| == 1 <==> SingleLine(v)
  {
  }

  /** The text of the single node of a one-line value. */
  lemma SingleLineText(v: Json.Value, base: nat, indent: nat)
    requires SingleLine(v)
    ensures var n := Build(v, base, indent)[0];
      !n.isContainer && n.key == None && n.lineNumber == base
      && n.value == match v
                    case Null => "null"
                    case Bool(b) => if b then "true" else "false"
                    case Number(text) => text
                    case Str(s) => "\"" + s + "\""
                    case Array(_) => "[]"
                    case Object(_) => "{}"
  {
  }

  datatype TreeResult = Tree(tree: seq<Node>) | TreeError(message: string)

  /** `parseJsonToTree`. */
  function ParseJsonToTree(json: string, engine: Json.Engine): (r: TreeResult)
    ensures r.Tree? <==> engine.parse(json).Parsed?
    ensures r.Tree? ==> |r.tree| >= 1
  {
    match engine.parse(json)
    case Parsed(v) => Tree(Build(v, 0, 0))
    case Thrown(m) => TreeError(m)
  }

  /* ---------------------------------------------------------- flattenTree */

  /** `processNode` with the line counter at `count`: the node itself, its
      children when it has a non-empty key, and a closing line for a
      container with a closing bracket. */
  function ProcessNode(n: Node, count: nat): (r: seq<Node>)
    ensures |r| >= 1 && r[0] == n.(lineNumber := count)
    ensures forall j :: 0 <= j < |r| ==> r[j].lineNumber == count + j
    ensures n.isContainer && n.endBracket != "" ==>
              r[|r| - 1] == Leaf(n.endBracket, n.indent, count + |r| - 1)
    ensures !HasKey(n) ==> |r| == if n.isContainer && n.endBracket != "" then 2 else 1
    decreases n, 1
  {
    var inner := if HasKey(n) then ProcessChildren(n, 0, count + 1) else [];
    var close := if n.isContainer && n.endBracket != "" then [Leaf(n.endBracket, n.indent, count + 1 + |inner|)] else [];
    [n.(lineNumber := count)] + inner + close
  }

  function ProcessChildren(n: Node, k: nat, count: nat): (r: seq<Node>)
    requires k <= |n.children|
    ensures forall j :: 0 <= j < |r| ==> r[j].lineNumber == count + j
    ensures |r| >= |n.children| - k
    decreases n, 0, |n.children| - k
  {
    if k == |n.children| then []
    else
      var head := ProcessNode(n.children[k], count);
      head + ProcessChildren(n, k + 1, count + |head|)
  }

  function ProcessList(tree: seq<Node>, count: nat): (r: seq<Node>)
    ensures forall j :: 0 <= j < |r| ==> r[j].lineNumber == count + j
    ensures |r| >= |tree|
    ensures |tree| > 0 ==> |r| > 0 && r[0] == tree[0].(lineNumber := count)
  {
    if |tree| == 0 then []
    else
      var head := ProcessNode(tree[0], count);
      head + ProcessList(tree[1..], count + |head|)
  }

  datatype Flat = Flat(nodes: seq<Node>, lineCount: nat)

  /** `flattenTree`: lines are numbered 0, 1, 2, ... in output order and the
      count is the number of lines. */
  function FlattenTree(tree: seq<Node>): (r: Flat)
    ensures r.lineCount == |r.nodes| >= |tree|
    ensures forall j :: 0 <= j < |r.nodes| ==> r.nodes[j].lineNumber == j
  {
    var nodes := ProcessList(tree, 0);
    Flat(nodes, |nodes|)
  }

  /** The quirk of the prototype: for a non-empty array or object the
      closing bracket is line 1, straight after the opening line 0, and the
      elements only follow it. */
  lemma ClosingFollowsOpening(v: Json.Value)
    requires !SingleLine(v)
    ensures var nodes := FlattenTree(Build(v, 0, 0)).nodes;
      |nodes| >= 3 && nodes[0].isContainer
      && nodes[1] == Leaf(if v.Array? then "]" else "}", 0, 1)
  {
    var tree := Build(v, 0, 0);
    assert |tree| >= 2;
    var head := ProcessNode(tree[0], 0);
    assert |head| == 2;
    assert ProcessList(tree, 0) == head + ProcessList(tree[1..], 2);
  }

  /* --------------------------------------------------------------- folding */

  /** `toggleFold`: flip the membership of one line number. */
  function ToggleFold(folded: set<nat>, line: nat): (r: set<nat>)
    ensures forall m :: m in r <==> (m in folded) != (m == line)
  {
    if line in folded then folded - {line} else folded + {line}
  }

  lemma ToggleTwice(folded: set<nat>, line: nat)
    ensures ToggleFold(ToggleFold(folded, line), line) == folded
  {
    var twice := ToggleFold(ToggleFold(folded, line), line);
    assert forall m :: m in twice <==> m in folded;
  }

  /** A line is hidden when some earlier folded line is indented less. */
  predicate Hidden(folded: set<nat>, nodes: seq<Node>, line: nat)
  {
    line < |nodes|
    && exists k :: 0 <= k < line && k in folded && nodes[line].indent > nodes[k].indent
  }

  /** `isLineVisible`: walk back from the line to line 0. */
  method IsLineVisible(folded: set<nat>, nodes: seq<Node>, line: nat) returns (visible: bool)
    ensures visible <==> !Hidden(folded, nodes, line)
    ensures line == 0 || folded == {} ==> visible
  {
    var current := line;
    while current > 0
      invariant 0 <= current <= line
      invariant forall k :: current <= k < line && k in folded && line < |nodes|
                  ==> nodes[line].indent <= nodes[k].indent
      decreases current
    {
      current := current - 1;
      if current in folded && line < |nodes| {
        if nodes[line].indent > nodes[current].indent {
          return false;
        }
      }
    }
    return true;
  }

  /** Folding a line hides every later line indented deeper than it, and
      unfolding the only fold shows everything again. */
  lemma FoldHidesDeeper(folded: set<nat>, nodes: seq<Node>, k: nat, line: nat)
    requires k < line < |nodes| && nodes[line].indent > nodes[k].indent && k !in folded
    ensures Hidden(ToggleFold(folded, k), nodes, line)
    ensures folded == {} ==> !Hidden(ToggleFold(ToggleFold(folded, k), k), nodes, line)
  {
    ToggleTwice(folded, k);
  }

  /* ------------------------------------------------------------- the tabs */

  datatype FoldTab = FoldTab(id: string, name: string, input: string, output: string,
                             fontSize: int, folded: set<nat>)

  datatype App = App(tabs: seq<FoldTab>, activeTabId: string)

  const MinFontSize: int := 10
  const MaxFontSize: int := 32

  /** `tabs.find(t => t.id === activeTabId) || tabs[0]`. */
  function ActiveTab(app: App): (r: Option<FoldTab>)
    ensures r.None? <==> |app.tabs| == 0
    ensures r.Some? ==> r.value in app.tabs
    ensures r.Some? && r.value.id != app.activeTabId ==>
              r.value == app.tabs[0] && forall i :: 0 <= i < |app.tabs| ==> app.tabs[i].id != app.activeTabId
  {
    var i := Lists.FirstIndex(app.tabs, (t: FoldTab) => t.id == app.activeTabId);
    if i >= 0 then Some(app.tabs[i])
    else if |app.tabs| == 0 then None
    else Some(app.tabs[0])
  }

  /** `updateActiveTab`: rewrite the tabs whose id is `activeTabId` (not the
      fallback tab). */
  function UpdateActive(app: App, f: FoldTab -> FoldTab): (r: App)
    ensures |r.tabs| == |app.tabs| && r.activeTabId == app.activeTabId
    ensures forall i :: 0 <= i < |app.tabs| ==>
              r.tabs[i] == if app.tabs[i].id == app.activeTabId then f(app.tabs[i]) else app.tabs[i]
  {
    app.(tabs := Lists.MapWhere(app.tabs, (t: FoldTab) => t.id == app.activeTabId, f))
  }

  function SetOutput(app: App, text: string): App
  {
    UpdateActive(app, (t: FoldTab) => t.(output := text))
  }

  /** `handleFormat` (indent 2) and `handleCompress` (indent 0) write only the
      output pane: `Error: ` and the parser's message on failure, `""` on
      blank input, the printed value otherwise. */
  function HandleReformat(app: App, engine: Json.Engine, indent: nat): (r: App)
    ensures r.activeTabId == app.activeTabId && |r.tabs| == |app.tabs|
    ensures ActiveTab(app).Some? ==>
              var input := ActiveTab(app).value.input;
              var out := if IsBlank(input) then ""
                         else match engine.parse(input)
                              case Thrown(m) => "Error: " + m
                              case Parsed(v) => engine.stringify(v, indent);
              forall i :: 0 <= i < |app.tabs| ==>
                r.tabs[i] == if app.tabs[i].id == app.activeTabId then app.tabs[i].(output := out)
                             else app.tabs[i]
  {
    match ActiveTab(app)
    case None => app
    case Some(t) =>
      TrimEmptyIffBlank(t.input);
      if Trim(t.input) == [] then SetOutput(app, "")
      else match engine.parse(t.input)
           case Thrown(m) => SetOutput(app, "Error: " + m)
           case Parsed(v) => SetOutput(app, engine.stringify(v, indent))
  }

  /** `toggleFold` on the active tab. */
  function HandleToggleFold(app: App, line: nat): (r: App)
    ensures |r.tabs| == |app.tabs|
    ensures ActiveTab(app).Some? ==>
              forall i :: 0 <= i < |app.tabs| ==>
                r.tabs[i] == if app.tabs[i].id == app.activeTabId
                             then app.tabs[i].(folded := ToggleFold(ActiveTab(app).value.folded, line))
                             else app.tabs[i]
  {
    match ActiveTab(app)
    case None => app
    case Some(t) => UpdateActive(app, (u: FoldTab) => u.(folded := ToggleFold(t.folded, line)))
  }

  /** `handleClear`: input, output and folds are reset, so every line of
      the active tab is visible again. */
  function HandleClear(app: App): (r: App)
    ensures |r.tabs| == |app.tabs| && r.activeTabId == app.activeTabId
    ensures forall i :: 0 <= i < |app.tabs| ==>
              r.tabs[i] == if app.tabs[i].id == app.activeTabId
                           then app.tabs[i].(input := "", output := "", folded := {})
                           else app.tabs[i]
    ensures forall i, nodes: seq<Node>, line: nat ::
              0 <= i < |app.tabs| && app.tabs[i].id == app.activeTabId ==> !Hidden(r.tabs[i].folded, nodes, line)
  {
    UpdateActive(app, (t: FoldTab) => t.(input := "", output := "", folded := {}))
  }

  /** `handleFontSizeChange`: sizes outside [10, 32] are ignored. */
  function HandleFontSizeChange(app: App, size: Option<int>): (r: App)
    ensures |r.tabs| == |app.tabs| && r.activeTabId == app.activeTabId
    ensures (size.None? || size.value < MinFontSize || size.value > MaxFontSize) ==> r == app
    ensures size.Some? && MinFontSize <= size.value <= MaxFontSize ==>
              forall i :: 0 <= i < |app.tabs| ==>
                r.tabs[i] == if app.tabs[i].id == app.activeTabId then app.tabs[i].(fontSize := size.value)
                             else app.tabs[i]
  {
    if size.Some? && MinFontSize <= size.value <= MaxFontSize then
      UpdateActive(app, (t: FoldTab) => t.(fontSize := size.value))
    else app
  }
}

=== FILE: generator.dfy ===
/**
 * The content logic of the generator screen (QRCodeGenerator.tsx): the
 * input is split into content lines, the mode is detected from their
 * number, the batch items are rebuilt from the lines when they differ,
 * style changes are routed by mode, and a decoded text is classified as a
 * link, an e-mail address, a phone number or plain text.  Fresh item ids
 * (`generateId`) come from a parameter.
 */
module Generator {
  import opened JsText
  import opened Optional
  import Lists
  import QrStore

  datatype Mode = Single | Batch

  /** `lines.length <= 1 ? 'single' : 'batch'`. */
  function DetectMode(lines: seq<string>): (m: Mode)
    ensures m == Single <==> |lines| <= 1
  {
    if |lines| <= 1 then Single else Batch
  }

  /** The screen's own state: the input box, the mode switches and the
      remembered previous input. */
  datatype View = View(
    input: string,
    autoMode: bool,
    detected: Mode,
    manual: Mode,
    prevInput: string,
    initialMount: bool,
    lines: seq<string>)

  /** `autoMode ? detectedMode : manualMode`. */
  function CurrentMode(v: View): Mode
  {
    if v.autoMode then v.detected else v.manual
  }

  function ItemContent(i: QrStore.Item): string { i.content }

  function Contents(items: seq<QrStore.Item>): seq<string>
  {
    Lists.Map(items, ItemContent)
  }

  /** `lines.forEach(line => addBatchItem(line))`, the `k`-th new item taking
      the id `freshId(next + k)`. */
  function AddAll(s: QrStore.State, lines: seq<string>, freshId: nat -> string, next: nat)
    : (r: QrStore.State)
    ensures |r.batch.data| == |s.batch.data| + |lines|
    ensures r.batch.data[..|s.batch.data|] == s.batch.data
    ensures forall j :: |s.batch.data| <= j < |r.batch.data| ==>
              r.batch.data[j]
              == QrStore.Item(freshId(next + (j - |s.batch.data|)), lines[j - |s.batch.data|],
                              None, None, QrStore.Pending, None)
    ensures QrStore.SameBatchSettings(s, r)
    decreases |lines|
  {
    if |lines| == 0 then s
    else
      var s1 := QrStore.AddBatchItem(s, freshId(next), lines[0]);
      var r := AddAll(s1, lines[1..], freshId, next + 1);
      assert forall j :: 1 <= j < |lines| ==> lines[j] == lines[1..][j - 1];
      r
  }

  /** Emptying the batch and adding every line leaves exactly the lines, as
      pending items, in order. */
  lemma RebuildContents(s: QrStore.State, lines: seq<string>, freshId: nat -> string)
    ensures var r := AddAll(QrStore.ClearBatchItems(s), lines, freshId, 0);
      Contents(r.batch.data) == lines
      && (forall j :: 0 <= j < |lines| ==> r.batch.data[j].status == QrStore.Pending)
      && QrStore.SameBatchSettings(s, r)
  {
    var c := QrStore.ClearBatchItems(s);
    assert |c.batch.data| == 0;
    AddAllToEmpty(c, lines, freshId);
  }

  lemma AddAllToEmpty(c: QrStore.State, lines: seq<string>, freshId: nat -> string)
    requires |c.batch.data| == 0
    ensures var r := AddAll(c, lines, freshId, 0);
      Contents(r.batch.data) == lines
      && (forall j :: 0 <= j < |lines| ==> r.batch.data[j].status == QrStore.Pending)
  {
    var r := AddAll(c, lines, freshId, 0);
    var cs := Contents(r.batch.data);
    forall j | 0 <= j < |lines|
      ensures cs[j] == lines[j] && r.batch.data[j].status == QrStore.Pending
    {
      assert r.batch.data[j]
             == QrStore.Item(freshId(0 + (j - 0)), lines[j - 0], None, None, QrStore.Pending, None);
    }
  }

  /** `clearBatchItems()` followed by adding every line: the batch holds
      exactly the lines, and the settings are kept. */
  function Rebuild(s: QrStore.State, lines: seq<string>, freshId: nat -> string)
    : (r: QrStore.State)
    ensures Contents(r.batch.data) == lines
    ensures QrStore.SameBatchSettings(s, r)
  {
    RebuildContents(s, lines, freshId);
    AddAll(QrStore.ClearBatchItems(s), lines, freshId, 0)
  }

  datatype Screen = Screen(view: View, store: QrStore.State)

  /** The effect that runs when the input changes: recompute the lines, and in
      automatic mode detect the mode and, on a real input change with more
      than one line, rebuild the batch when its contents differ.  Comparing
      the two `JSON.stringify` texts of string arrays is comparing the
      arrays. */
  function ParseInput(sc: Screen, freshId: nat -> string): (r: Screen)
    ensures r.view.lines == ContentLines(sc.view.input)
    ensures r.view.input == sc.view.input && r.view.autoMode == sc.view.autoMode
    ensures r.view.manual == sc.view.manual
    ensures !sc.view.autoMode ==> r.view.detected == sc.view.detected && r.store == sc.store
    ensures sc.view.autoMode ==> r.view.detected == DetectMode(r.view.lines)
    ensures sc.view.autoMode && |r.view.lines| > 1 ==>
              !r.view.initialMount && r.view.prevInput == sc.view.input
    ensures !(sc.view.autoMode && |r.view.lines| > 1) ==>
              r.view.initialMount == sc.view.initialMount && r.view.prevInput == sc.view.prevInput
    ensures QrStore.SameBatchSettings(sc.store, r.store)
    ensures r.store != sc.store ==>
              sc.view.autoMode && |r.view.lines| > 1
              && (sc.view.initialMount || sc.view.prevInput != sc.view.input)
              && Contents(sc.store.batch.data) != r.view.lines
    ensures sc.view.autoMode && |r.view.lines| > 1
            && (sc.view.initialMount || sc.view.prevInput != sc.view.input) ==>
              Contents(r.store.batch.data) == r.view.lines
  {
    var v := sc.view;
    var lines := ContentLines(v.input);
    if !v.autoMode then Screen(v.(lines := lines), sc.store)
    else if |lines| <= 1 then Screen(v.(lines := lines, detected := Single), sc.store)
    else if v.initialMount || v.prevInput != v.input then
      var v1 := v.(lines := lines, detected := Batch, initialMount := false, prevInput := v.input);
      if lines != Contents(sc.store.batch.data) then
        Screen(v1, Rebuild(sc.store, lines, freshId))
      else Screen(v1, sc.store)
    else Screen(v.(lines := lines, detected := Batch), sc.store)
  }

  /** Running the effect again on the same input changes nothing more: the
      remembered input now matches, so the batch is left alone. */
  lemma ParseInputSettles(sc: Screen, freshId: nat -> string)
    ensures ParseInput(ParseInput(sc, freshId), freshId) == ParseInput(sc, freshId)
  {
  }

  /** The effect that keeps the single code's content on the first line. */
  function SyncSingle(sc: Screen): (r: Screen)
    ensures r.view == sc.view
    ensures CurrentMode(sc.view) == Single && |sc.view.lines| > 0 ==>
              r.store == QrStore.SetSingleConfig(sc.store, QrStore.NoConfigChange.(content := Some(sc.view.lines[0])))
              && r.store.single.content == sc.view.lines[0]
    ensures !(CurrentMode(sc.view) == Single && |sc.view.lines| > 0) ==> r == sc
  {
    if CurrentMode(sc.view) == Single && |sc.view.lines| > 0 then
      sc.(store := QrStore.SetSingleConfig(sc.store, QrStore.NoConfigChange.(content := Some(sc.view.lines[0]))))
    else sc
  }

  /** `handleStyleChange`: in single mode the patch goes to the single
      configuration; in batch mode it is merged into the shared style, whose
      content is kept. */
  function HandleStyleChange(sc: Screen, style: QrStore.ConfigPatch): (r: Screen)
    ensures r.view == sc.view
    ensures CurrentMode(sc.view) == Single ==>
              r.store == sc.store.(single := QrStore.MergeConfig(sc.store.single, style))
    ensures CurrentMode(sc.view) == Batch ==>
              var g := sc.store.batch.globalStyle;
              r.store == sc.store.(batch := sc.store.batch.(globalStyle := QrStore.MergeConfig(g, style).(content := g.content)))
  {
    if CurrentMode(sc.view) == Single then
      sc.(store := QrStore.SetSingleConfig(sc.store, style))
    else
      var g := sc.store.batch.globalStyle;
      var patch := QrStore.BatchPatch(None, Some(QrStore.MergeConfig(g, style).(content := g.content)), None, None);
      sc.(store := QrStore.SetBatchConfig(sc.store, patch))
  }

  /** In batch mode a style change never touches the shared content, and a
      patch that sets no content changes the style exactly as a plain merge
      would. */
  lemma BatchStyleKeepsContent(sc: Screen, style: QrStore.ConfigPatch)
    requires CurrentMode(sc.view) == Batch
    ensures HandleStyleChange(sc, style).store.batch.globalStyle.content == sc.store.batch.globalStyle.content
    ensures style.content.None? ==>
              HandleStyleChange(sc, style).store.batch.globalStyle
              == QrStore.MergeConfig(sc.store.batch.globalStyle, style)
  {
  }

  /* ---------------------------------------------------------- classifiers */

  /** `isUrl`: every link starts with `h` or `w`. */
  predicate IsUrl(t: string)
    ensures IsUrl(t) ==> |t| >= 4 && (t[0] == 'h' || t[0] == 'w')
  {
    StartsWith(t, "http://") || StartsWith(t, "https://") || StartsWith(t, "www.")
  }

  /** `[^\s@]`. */
  predicate EmailChar(c: char)
  {
    !IsSpace(c) && c != '@'
  }

  /** The parts of `/^[^\s@]+@[^\s@]+\.[^\s@]+$/` for one choice of the `@`
      at `i` and the `.` at `j`: three non-empty runs of `[^\s@]`. */
  predicate EmailSplit(t: string, i: int, j: int)
  {
    0 < i && i + 1 < j && j + 1 < |t| && t[i] == '@' && t[j] == '.'
    && (forall k :: 0 <= k < |t| && k != i ==> EmailChar(t[k]))
  }

  /** The regular expression matches when some split fits. */
  ghost predicate EmailShape(t: string)
  {
    exists i, j :: EmailSplit(t, i, j)
  }

  /** `isEmail` decided directly: no white space, exactly one `@`, not at
      the start, and a `.` with at least one character on each side after
      it.  The direct check agrees with the regular expression. */
  predicate IsEmail(t: string)
    ensures IsEmail(t) <==> EmailShape(t)
  {
    var i := Lists.FirstIndex(t, (c: char) => c == '@');
    DirectIffShape(t, i);
    EmailDirect(t, i)
  }

  predicate EmailDirect(t: string, i: int)
  {
    0 < i
    && (forall k :: 0 <= k < |t| ==> !IsSpace(t[k]))
    && (forall k :: i < k < |t| ==> t[k] != '@')
    && (exists j :: i + 1 < j < |t| - 1 && t[j] == '.')
  }

  lemma DirectIffShape(t: string, i: int)
    requires i == Lists.FirstIndex(t, (c: char) => c == '@')
    ensures EmailDirect(t, i) <==> EmailShape(t)
  {
    if EmailDirect(t, i) {
      var j :| i + 1 < j < |t| - 1 && t[j] == '.';
      assert EmailSplit(t, i, j);
    }
    if EmailShape(t) {
      var a, j :| EmailSplit(t, a, j);
      assert i == a;
      assert i + 1 < j < |t| - 1 && t[j] == '.';
    }
  }

  /** An address holds exactly one `@` and no white space. */
  lemma EmailHasOneAt(t: string)
    requires IsEmail(t)
    ensures Count(t, '@') == 1
    ensures forall k :: 0 <= k < |t| ==> !IsSpace(t[k])
  {
    var i := Lists.FirstIndex(t, (c: char) => c == '@');
    CountOne(t, i, '@');
  }

  lemma {:induction false} CountOne(t: string, i: int, c: char)
    requires 0 <= i < |t| && t[i] == c
    requires forall k :: 0 <= k < |t| && k != i ==> t[k] != c
    ensures Count(t, c) == 1
  {
    if i == 0 {
      CountNone(t[1..], c);
    } else {
      CountOne(t[1..], i - 1, c);
    }
  }

  lemma {:induction false} CountNone(t: string, c: char)
    requires forall k :: 0 <= k < |t| ==> t[k] != c
    ensures Count(t, c) == 0
  {
    if |t| > 0 {
      CountNone(t[1..], c);
    }
  }

  /** `[\d\+\-\(\)\s]`. */
  predicate PhoneChar(c: char)
  {
    IsDigit(c) || c == '+' || c == '-' || c == '(' || c == ')' || IsSpace(c)
  }

  const MinPhoneLength: nat := 7

  /** `isPhone`: `/^[\d\+\-\(\)\s]{7,}$/`. */
  predicate IsPhone(t: string)
    ensures IsPhone(t) ==> !IsUrl(t) && !IsEmail(t)
  {
    |t| >= MinPhoneLength && forall k :: 0 <= k < |t| ==> PhoneChar(t[k])
  }

  datatype Kind = Url | Email | Phone | PlainText

  /** The order the result panel checks: link, then address, then phone,
      else plain text.  Phone numbers are checked first here, which is the
      same because they exclude the other two. */
  function Classify(t: string): (k: Kind)
    ensures k == Url <==> IsUrl(t)
    ensures k == Email <==> IsEmail(t) && !IsUrl(t)
    ensures k == Phone <==> IsPhone(t)
    ensures k == PlainText <==> !IsUrl(t) && !IsEmail(t) && !IsPhone(t)
  {
    if IsPhone(t) then Phone
    else if IsUrl(t) then Url
    else if IsEmail(t) then Email
    else PlainText
  }
}

=== FILE: js_text.dfy ===
/**
 * The JavaScript string primitives the application relies on, written out:
 * `trim`, `split` on one character, `join`, `startsWith`/`endsWith`,
 * `String(n)` for integers, `padStart`, `indexOf` and the string form of
 * `replace` (first occurrence only).  A JavaScript string is modelled as a
 * sequence of characters.
 */
module JsText {

  /** JavaScript WhiteSpace and LineTerminator code points: the set `trim`
      removes, `\s` matches and `Number(c)` reads as the empty numeral. */
  predicate IsSpace(c: char)
  {
    var n := c as int;
    n == 0x09 || n == 0x0A || n == 0x0B || n == 0x0C || n == 0x0D || n == 0x20
    || n == 0xA0 || n == 0x1680 || (0x2000 <= n <= 0x200A) || n == 0x2028
    || n == 0x2029 || n == 0x202F || n == 0x205F || n == 0x3000 || n == 0xFEFF
  }

  predicate IsDigit(c: char)
  {
    '0' <= c <= '9'
  }

  predicate IsAsciiAlnum(c: char)
  {
    ('a' <= c <= 'z') || ('A' <= c <= 'Z') || IsDigit(c)
  }

  /** Every character is white space (this includes the empty string). */
  predicate IsBlank(s: string)
  {
    forall i :: 0 <= i < |s| ==> IsSpace(s[i])
  }

  predicate AllDigits(s: string)
  {
    forall i :: 0 <= i < |s| ==> IsDigit(s[i])
  }

  /* ---------------------------------------------------------------- trim */

  function TrimStart(s: string): (r: string)
    ensures |r| <= |s| && r == s[|s| - |r|..]
    ensures IsBlank(s[..|s| - |r|])
    ensures r == [] || !IsSpace(r[0])
  {
    if |s| == 0 || !IsSpace(s[0]) then s
    else
      var r := TrimStart(s[1..]);
      assert s[1..][..|s| - 1 - |r|] == s[1..|s| - |r|];
      r
  }

  function TrimEnd(s: string): (r: string)
    ensures |r| <= |s| && r == s[..|r|]
    ensures IsBlank(s[|r|..])
    ensures r == [] || !IsSpace(r[|r| - 1])
  {
    if |s| == 0 || !IsSpace(s[|s| - 1]) then s
    else
      var r := TrimEnd(s[..|s| - 1]);
      r
  }

  /** `s.trim()`. */
  function Trim(s: string): (r: string)
    ensures r == [] || Trimmed(r)
  {
    TrimEnd(TrimStart(s))
  }

  /** `!s.trim()` holds exactly for blank strings. */
  lemma TrimEmptyIffBlank(s: string)
    ensures Trim(s) == [] <==> IsBlank(s)
  {
    var t := TrimStart(s);
    if t != [] {
      assert !IsSpace(t[0]);
      assert s[|s| - |t|] == t[0];
    }
  }

  /** The trimmed text is a contiguous piece of the input, with only white
      space cut away on either side. */
  lemma TrimIsInfix(s: string)
    ensures exists a, b :: 0 <= a <= b <= |s| && Trim(s) == s[a..b]
              && IsBlank(s[..a]) && IsBlank(s[b..])
  {
    var t := TrimStart(s);
    var a := |s| - |t|;
    var r := TrimEnd(t);
    assert r == t[..|r|] == s[a..a + |r|];
    assert s[a + |r|..] == t[|r|..];
    assert Trim(s) == s[a..a + |r|] && IsBlank(s[..a]) && IsBlank(s[a + |r|..]);
  }

  lemma TrimIdempotent(s: string)
    ensures Trim(Trim(s)) == Trim(s)
  {
    var r := Trim(s);
    if r != [] {
      assert TrimStart(r) == r;
      assert TrimEnd(r) == r;
    }
  }

  /* ----------------------------------------------------- split and join */

  function Count(s: string, c: char): (n: nat)
    ensures n <= |s|
  {
    if |s| == 0 then 0
    else (if s[0] == c then 1 else 0) + Count(s[1..], c)
  }

  /** `s.split(c)` for a one-character separator: never empty, and no piece
      contains the separator. */
  function Split(s: string, c: char): (r: seq<string>)
    ensures |r| >= 1
    ensures forall k :: 0 <= k < |r| ==> c !in r[k]
  {
    if |s| == 0 then [""]
    else
      var rest := Split(s[1..], c);
      if s[0] == c then [""] + rest
      else [[s[0]] + rest[0]] + rest[1..]
  }

  /** `pieces.join(sep)`. */
  function Join(pieces: seq<string>, sep: string): string
  {
    if |pieces| == 0 then ""
    else if |pieces| == 1 then pieces[0]
    else pieces[0] + sep + Join(pieces[1..], sep)
  }

  /** Splitting and joining with the same separator gives the text back. */
  lemma {:induction false} JoinSplit(s: string, c: char)
    ensures Join(Split(s, c), [c]) == s
  {
    if |s| > 0 {
      JoinSplit(s[1..], c);
      var rest := Split(s[1..], c);
      if s[0] != c {
        if |rest| > 1 {
          assert Join(rest, [c]) == rest[0] + [c] + Join(rest[1..], [c]);
        }
      }
    }
  }

  /** A split produces one more piece than there are separators. */
  lemma {:induction false} SplitCount(s: string, c: char)
    ensures |Split(s, c)| == Count(s, c) + 1
  {
    if |s| > 0 {
      SplitCount(s[1..], c);
    }
  }

  /** Joining pieces that do not contain the separator and splitting again
      gives the pieces back. */
  lemma {:induction false} SplitJoin(pieces: seq<string>, c: char)
    requires |pieces| >= 1
    requires forall k :: 0 <= k < |pieces| ==> c !in pieces[k]
    ensures Split(Join(pieces, [c]), c) == pieces
    decreases |pieces|, |pieces[0]|
  {
    var p := pieces[0];
    if |p| == 0 {
      if |pieces| > 1 {
        var tail := Join(pieces[1..], [c]);
        assert Join(pieces, [c]) == [c] + tail;
        assert ([c] + tail)[1..] == tail;
        SplitJoin(pieces[1..], c);
      }
    } else {
      var shorter := [p[1..]] + pieces[1..];
      assert shorter[1..] == pieces[1..];
      SplitJoin(shorter, c);
      var j := Join(pieces, [c]);
      assert j == [p[0]] + Join(shorter, [c]);
      assert j[1..] == Join(shorter, [c]);
      assert p[0] != c by { assert p[0] in pieces[0]; }
      assert [p[0]] + p[1..] == p;
    }
  }

  /** The last piece of a split is the text after the last separator. */
  lemma {:induction false} SplitLastIsTail(s: string, c: char)
    ensures var r := Split(s, c); var last := r[|r| - 1];
      |last| <= |s| && last == s[|s| - |last|..] && c !in last
      && (|last| < |s| ==> s[|s| - |last| - 1] == c)
      && (|r| == 1 ==> last == s)
      && (|r| > 1 ==> |last| < |s|)
  {
    if |s| > 0 {
      SplitLastIsTail(s[1..], c);
      var rest := Split(s[1..], c);
      var lr := rest[|rest| - 1];
      var r := Split(s, c);
      assert s[1..][|s| - 1 - |lr|..] == s[|s| - |lr|..];
      if s[0] == c {
        assert r == [""] + rest;
        assert r[|r| - 1] == lr;
      } else if |rest| == 1 {
        assert r == [[s[0]] + rest[0]];
        assert [s[0]] + s[1..] == s;
      } else {
        assert r == [[s[0]] + rest[0]] + rest[1..];
        assert r[|r| - 1] == lr;
      }
    }
  }

  /* ------------------------------------------------- prefixes, suffixes */

  predicate StartsWith(s: string, p: string)
  {
    |p| <= |s| && s[..|p|] == p
  }

  predicate EndsWith(s: string, p: string)
  {
    |p| <= |s| && s[|s| - |p|..] == p
  }

  lemma EndsWithAppend(s: string, p: string)
    ensures EndsWith(s + p, p)
  {
    assert (s + p)[|s|..] == p;
  }

  /* ------------------------------------------------- decimal numerals */

  function DigitChar(d: nat): (c: char)
    requires d < 10
    ensures IsDigit(c)
  {
    (('0' as int) + d) as char
  }

  function DigitValue(c: char): (d: nat)
    requires IsDigit(c)
    ensures d < 10
  {
    (c as int) - ('0' as int)
  }

  /** `String(n)` for a non-negative integer: its shortest decimal numeral. */
  function Decimal(n: nat): (r: string)
    ensures |r| >= 1 && AllDigits(r)
    ensures r[0] == '0' ==> n == 0 && |r| == 1
  {
    if n < 10 then [DigitChar(n)]
    else Decimal(n / 10) + [DigitChar(n % 10)]
  }

  /** `String(i)` for any integer: a minus sign before negative numerals. */
  function IntString(i: int): string
  {
    if i < 0 then "-" + Decimal(-i) else Decimal(i)
  }

  /** The value of a numeral, reading the digits left to right. */
  function DigitsValue(s: string): nat
    requires AllDigits(s)
  {
    if |s| == 0 then 0
    else DigitsValue(s[..|s| - 1]) * 10 + DigitValue(s[|s| - 1])
  }

  /** Reading back the numeral `String(n)` gives `n`. */
  lemma {:induction false} DecimalRoundTrip(n: nat)
    ensures DigitsValue(Decimal(n)) == n
  {
    if n >= 10 {
      DecimalRoundTrip(n / 10);
      var r := Decimal(n);
      assert r[..|r| - 1] == Decimal(n / 10);
    }
  }

  /** Leading zeros do not change the value of a numeral. */
  lemma {:induction false} LeadingZeros(z: string, s: string)
    requires forall i :: 0 <= i < |z| ==> z[i] == '0'
    requires AllDigits(s)
    ensures AllDigits(z + s) && DigitsValue(z + s) == DigitsValue(s)
    decreases |s| + |z|
  {
    if |s| == 0 {
      assert z + s == z;
      if |z| > 0 {
        LeadingZeros(z[..|z| - 1], s);
        assert z[..|z| - 1] + s == z[..|z| - 1];
      }
    } else {
      LeadingZeros(z, s[..|s| - 1]);
      assert (z + s)[..|z + s| - 1] == z + s[..|s| - 1];
    }
  }

  /** `s.padStart(width, fill)` with a one-character fill. */
  function PadStart(s: string, width: int, fill: char): (r: string)
    ensures |r| == if |s| >= width then |s| else width
    ensures EndsWith(r, s)
    ensures forall i :: 0 <= i < |r| - |s| ==> r[i] == fill
  {
    if |s| >= width then s
    else
      var r := Repeat(fill, width - |s|) + s;
      EndsWithAppend(Repeat(fill, width - |s|), s);
      r
  }

  function Repeat(c: char, n: nat): (r: string)
    ensures |r| == n && forall i :: 0 <= i < n ==> r[i] == c
  {
    if n == 0 then "" else [c] + Repeat(c, n - 1)
  }

  /* ------------------------------------------------ search and replace */

  predicate OccursAt(s: string, pat: string, i: int)
  {
    0 <= i && i + |pat| <= |s| && s[i..i + |pat|] == pat
  }

  predicate Occurs(s: string, pat: string)
  {
    exists i :: 0 <= i <= |s| && OccursAt(s, pat, i)
  }

  /** `s.indexOf(pat, from)`: the first occurrence at or after `from`, or -1. */
  function IndexFrom(s: string, pat: string, from: nat): (r: int)
    ensures r == -1 || (from <= r && OccursAt(s, pat, r))
    ensures forall k :: from <= k && (r == -1 || k < r) ==> !OccursAt(s, pat, k)
    decreases |s| - from
  {
    if from + |pat| > |s| then -1
    else if s[from..from + |pat|] == pat then from
    else IndexFrom(s, pat, from + 1)
  }

  function IndexOf(s: string, pat: string): (r: int)
    ensures r == -1 <==> !Occurs(s, pat)
    ensures r >= 0 ==> OccursAt(s, pat, r) && forall k :: 0 <= k < r ==> !OccursAt(s, pat, k)
  {
    IndexFrom(s, pat, 0)
  }

  /** `s.replace(pat, rep)` with a string pattern: only the first occurrence
      is replaced.  The replacement texts used by the application never hold
      a `$`, so JavaScript's `$`-substitutions do not arise. */
  function ReplaceFirst(s: string, pat: string, rep: string): (r: string)
    ensures !Occurs(s, pat) ==> r == s
    ensures Occurs(s, pat) ==> |r| == |s| - |pat| + |rep| && StartsWith(r[IndexOf(s, pat)..], rep)
  {
    var k := IndexOf(s, pat);
    if k < 0 then s else s[..k] + rep + s[k + |pat|..]
  }

  /** The replacement happens at the first occurrence, and everything before
      and after it is kept; without an occurrence the text is unchanged. */
  lemma ReplaceFirstSpec(s: string, pat: string, rep: string)
    ensures !Occurs(s, pat) ==> ReplaceFirst(s, pat, rep) == s
    ensures Occurs(s, pat) ==>
              (exists k :: OccursAt(s, pat, k)
                 && (forall j :: 0 <= j < k ==> !OccursAt(s, pat, j))
                 && ReplaceFirst(s, pat, rep) == s[..k] + rep + s[k + |pat|..])
  {
    if Occurs(s, pat) {
      var k := IndexOf(s, pat);
      assert OccursAt(s, pat, k) && forall j :: 0 <= j < k ==> !OccursAt(s, pat, j);
    }
  }

  /** A suffix free of the pattern's last character survives a replacement,
      because no occurrence can reach into it. */
  lemma {:induction false} ReplaceFirstKeepsSuffix(s: string, pat: string, rep: string, suf: string)
    requires |pat| > 0 && pat[|pat| - 1] !in suf
    requires EndsWith(s, suf)
    ensures EndsWith(ReplaceFirst(s, pat, rep), suf)
  {
    var k := IndexOf(s, pat);
    if k >= 0 {
      var e := k + |pat| - 1;
      var start := |s| - |suf|;
      assert s[e] == pat[|pat| - 1];
      assert forall j :: start <= j < |s| ==> s[j] == suf[j - start];
      assert e < start;
      var r := s[..k] + rep + s[k + |pat|..];
      assert r[|r| - |suf|..] == s[start..];
    }
  }

  /** A pattern ending in a character the appended text lacks occurs in
      `s + t` exactly when it occurs in `s`. */
  lemma OccursAppend(s: string, t: string, pat: string)
    requires |pat| > 0 && pat[|pat| - 1] !in t
    ensures Occurs(s + t, pat) <==> Occurs(s, pat)
  {
    if Occurs(s + t, pat) {
      var i :| 0 <= i <= |s + t| && OccursAt(s + t, pat, i);
      var e := i + |pat| - 1;
      assert (s + t)[e] == pat[|pat| - 1];
      assert forall j :: |s| <= j < |s + t| ==> (s + t)[j] in t;
      assert e < |s|;
      assert (s + t)[i..i + |pat|] == s[i..i + |pat|];
      assert OccursAt(s, pat, i);
    }
    if Occurs(s, pat) {
      var i :| 0 <= i <= |s| && OccursAt(s, pat, i);
      assert i + |pat| <= |s|;
      assert (s + t)[i..i + |pat|] == s[i..i + |pat|];
      assert OccursAt(s + t, pat, i);
    }
  }

  /* ---------------------------------------------------------- lines */

  /** Non-empty, with no white space at either end. */
  predicate Trimmed(s: string)
  {
    s != [] && !IsSpace(s[0]) && !IsSpace(s[|s| - 1])
  }

  /** The non-empty trimmed lines of a text, in order:
      `text.split('\n').map(l => l.trim()).filter(l => l.length > 0)`. */
  function ContentLines(text: string): seq<string>
  {
    KeepNonEmptyTrimmed(Split(text, '\n'))
  }

  function KeepNonEmptyTrimmed(raw: seq<string>): (r: seq<string>)
    ensures |r| <= |raw|
  {
    if |raw| == 0 then []
    else
      var t := Trim(raw[0]);
      var rest := KeepNonEmptyTrimmed(raw[1..]);
      if t == [] then rest
      else
        [t] + rest
  }
}

=== FILE: json_formatter.dfy ===
/**
 * The JSON formatter view (JsonFormatter.tsx): the parse boundary
 * `tryParseJson`, which tells "nothing typed yet" apart from a parse error
 * and turns a `position N` in the parser's message into a line and column,
 * and the view's handlers, each a transition of the JSON store.
 */
module JsonFormatter {
  import opened Optional
  import opened JsText
  import Json
  import JsonStore
  import Lists

  /** `{ success: true, data }` or `{ success: false, error }`; an empty
      error is the "waiting for input" state. */
  datatype ParseResult = Success(data: Json.Value) | Failure(error: string)

  /** The status line under the output pane. */
  datatype Status = ValidJson | FormatError | Waiting

  const PositionWord: string := "position "
  const MinFontSize: int := 10
  const MaxFontSize: int := 24

  /* ------------------------------------------- position -> line, column */

  /** `/position (\d+)/` matches at index i. */
  predicate PositionAt(msg: string, i: nat)
  {
    i + |PositionWord| < |msg| && msg[i..i + |PositionWord|] == PositionWord
    && IsDigit(msg[i + |PositionWord|])
  }

  /** The leftmost match of `/position (\d+)/` at or after `from`. */
  function FindPosition(msg: string, from: nat): (r: Option<nat>)
    ensures r.Some? ==> from <= r.value && PositionAt(msg, r.value)
    ensures forall i :: from <= i && (r.None? || i < r.value) ==> !PositionAt(msg, i)
    decreases |msg| - from
  {
    if from + |PositionWord| >= |msg| then None
    else if PositionAt(msg, from) then Some(from)
    else FindPosition(msg, from + 1)
  }

  /** The maximal run of digits starting at `i`: the regex's greedy `\d+`. */
  function DigitRun(msg: string, i: nat): (r: string)
    requires i <= |msg|
    ensures AllDigits(r) && i + |r| <= |msg| && r == msg[i..i + |r|]
    ensures i + |r| == |msg| || !IsDigit(msg[i + |r|])
    decreases |msg| - i
  {
    if i < |msg| && IsDigit(msg[i]) then
      var rest := DigitRun(msg, i + 1);
      assert msg[i..i + 1 + |rest|] == [msg[i]] + msg[i + 1..i + 1 + |rest|];
      [msg[i]] + rest
    else []
  }

  /** `parseInt(match[1], 10)`, when the message names a position. */
  function ReportedPosition(msg: string): Option<nat>
  {
    match FindPosition(msg, 0)
    case None => None
    case Some(i) => Some(DigitsValue(DigitRun(msg, i + |PositionWord|)))
  }

  /** `input.substring(0, position)`: the position is clamped to the input. */
  function PrefixUpTo(input: string, position: nat): (r: string)
    ensures |r| <= |input| && r == input[..|r|]
    ensures |r| == position || |r| == |input|
  {
    if position <= |input| then input[..position] else input
  }

  /** The 1-based line of the error: the number of pieces `split('\n')` cuts
      the prefix into. */
  function ErrorLine(prefix: string): nat
  {
    |Split(prefix, '\n')|
  }

  /** The 1-based column: one more than the length of the last piece. */
  function ErrorColumn(prefix: string): nat
  {
    var pieces := Split(prefix, '\n');
    |pieces[|pieces| - 1]| + 1
  }

  /** The line is one plus the number of newlines before the position, and
      the column is one plus the number of characters after the last of them. */
  lemma {:induction false} LineColumnMeaning(prefix: string)
    ensures ErrorLine(prefix) == Count(prefix, '\n') + 1
    ensures 1 <= ErrorColumn(prefix) <= |prefix| + 1
    ensures '\n' !in prefix[|prefix| + 1 - ErrorColumn(prefix)..]
    ensures ErrorColumn(prefix) <= |prefix| ==> prefix[|prefix| - ErrorColumn(prefix)] == '\n'
  {
    SplitCount(prefix, '\n');
    SplitLastIsTail(prefix, '\n');
  }

  /** ` (行 L, 列 C)`. */
  function PositionNote(line: nat, column: nat): string
  {
    " (行 " + Decimal(line) + ", 列 " + Decimal(column) + ")"
  }

  /** The message with ` (行 L, 列 C)` appended when it names a position. */
  function Annotate(msg: string, input: string): (r: string)
    ensures StartsWith(r, msg)
    ensures ReportedPosition(msg).None? <==> r == msg
  {
    match ReportedPosition(msg)
    case None => msg
    case Some(n) =>
      var prefix := PrefixUpTo(input, n);
      msg + PositionNote(ErrorLine(prefix), ErrorColumn(prefix))
  }

  /** `tryParseJson`. */
  function TryParseJson(input: string, engine: Json.Engine): (r: ParseResult)
    ensures IsBlank(input) ==> r == Failure("")
    ensures !IsBlank(input) ==>
              match engine.parse(input)
              case Parsed(v) => r == Success(v)
              case Thrown(m) => r == Failure(Annotate(m, input)) && StartsWith(r.error, m)
  {
    TrimEmptyIffBlank(input);
    if Trim(input) == [] then Failure("")
    else
      match engine.parse(input)
      case Parsed(v) => Success(v)
      case Thrown(m) =>
        var e := Annotate(m, input);
        assert e[..|m|] == m;
        Failure(e)
  }

  /** `position <digit>` starts at `i` and nowhere before. */
  predicate LeftmostPositionAt(msg: string, i: nat)
  {
    PositionAt(msg, i) && forall j: nat :: j < i ==> !PositionAt(msg, j)
  }

  /** A message without `position <digits>` is surfaced unchanged; one with it
      gains the line and column of the clamped position, where the position
      is the value of the whole digit run after the leftmost `position `. */
  lemma AnnotateSpec(msg: string, input: string)
    ensures (forall i: nat :: !PositionAt(msg, i)) ==> Annotate(msg, input) == msg
    ensures forall i: nat :: LeftmostPositionAt(msg, i) ==>
              var prefix := PrefixUpTo(input, DigitsValue(DigitRun(msg, i + |PositionWord|)));
              Annotate(msg, input)
              == msg + PositionNote(Count(prefix, '\n') + 1, ErrorColumn(prefix))
  {
    if forall i: nat :: !PositionAt(msg, i) {
      AnnotateWithoutPosition(msg, input);
    }
    forall i: nat | LeftmostPositionAt(msg, i) {
      AnnotateAt(msg, input, i);
    }
  }

  lemma AnnotateWithoutPosition(msg: string, input: string)
    requires forall i: nat :: !PositionAt(msg, i)
    ensures Annotate(msg, input) == msg
  {
    assert FindPosition(msg, 0).None?;
  }

  lemma AnnotateAt(msg: string, input: string, i: nat)
    requires LeftmostPositionAt(msg, i)
    ensures var prefix := PrefixUpTo(input, DigitsValue(DigitRun(msg, i + |PositionWord|)));
            Annotate(msg, input)
            == msg + PositionNote(Count(prefix, '\n') + 1, ErrorColumn(prefix))
  {
    var found := FindPosition(msg, 0);
    assert found == Some(i);
    var prefix := PrefixUpTo(input, DigitsValue(DigitRun(msg, i + |PositionWord|)));
    LineColumnMeaning(prefix);
    assert ReportedPosition(msg) == Some(DigitsValue(DigitRun(msg, i + |PositionWord|)));
  }

  function StatusOf(r: ParseResult): (st: Status)
    ensures st == ValidJson <==> r.Success?
    ensures st == Waiting <==> r == Failure("")
  {
    match r
    case Success(_) => ValidJson
    case Failure(e) => if e == "" then Waiting else FormatError
  }

  /** "Waiting for input" shows exactly for blank input, as long as the parser
      never throws with an empty message. */
  lemma WaitingIffBlank(input: string, engine: Json.Engine)
    requires forall m :: engine.parse(input) == Json.Thrown(m) ==> m != ""
    ensures StatusOf(TryParseJson(input, engine)) == Waiting <==> IsBlank(input)
  {
  }

  /* ------------------------------------------------------------ handlers */

  /** `tabs.find(t => t.id === activeTabId) || tabs[0]`. */
  function ActiveTab(s: JsonStore.Store): (r: Option<JsonStore.Tab>)
    ensures r.None? <==> |s.tabs| == 0
    ensures r.Some? ==> r.value in s.tabs
    ensures (exists i :: 0 <= i < |s.tabs| && Some(s.tabs[i].id) == s.activeTabId)
            ==> r.Some? && Some(r.value.id) == s.activeTabId
    ensures (forall i :: 0 <= i < |s.tabs| ==> Some(s.tabs[i].id) != s.activeTabId)
            ==> r == (if |s.tabs| == 0 then None else Some(s.tabs[0]))
  {
    var i := Lists.FirstIndex(s.tabs, (t: JsonStore.Tab) => Some(t.id) == s.activeTabId);
    if i >= 0 then Some(s.tabs[i])
    else if |s.tabs| == 0 then None
    else Some(s.tabs[0])
  }

  function InputPatch(text: string): JsonStore.TabPatch
  {
    JsonStore.NoChange.(input := Some(text))
  }

  /** Set the active tab's input; without any tab the source's
      `activeTab.id` throws inside the handler and nothing changes. */
  function SetActiveInput(s: JsonStore.Store, text: string, now: int): JsonStore.Store
  {
    match ActiveTab(s)
    case None => s
    case Some(t) => JsonStore.UpdateTab(s, t.id, InputPatch(text), now)
  }

  /** `handleFormat` (indent 2) and `handleCompress` (indent 0): blank input
      is reset to `""`, a parse error leaves everything as it was. */
  function Reformat(s: JsonStore.Store, engine: Json.Engine, indent: nat, now: int): (r: JsonStore.Store)
    ensures ActiveTab(s).None? ==> r == s
    ensures ActiveTab(s).Some? && IsBlank(ActiveTab(s).value.input)
            ==> r == JsonStore.UpdateTab(s, ActiveTab(s).value.id, InputPatch(""), now)
    ensures (ActiveTab(s).Some? && !IsBlank(ActiveTab(s).value.input)
             && engine.parse(ActiveTab(s).value.input).Thrown?) ==> r == s
    ensures (ActiveTab(s).Some? && !IsBlank(ActiveTab(s).value.input)
             && engine.parse(ActiveTab(s).value.input).Parsed?) ==>
              var t := ActiveTab(s).value;
              var text := engine.stringify(engine.parse(t.input).value, indent);
              r == JsonStore.UpdateTab(s, t.id, InputPatch(text), now)
              && ActiveTab(r) == Some(t.(input := text, updatedAt := now))
  {
    match ActiveTab(s)
    case None => s
    case Some(t) =>
      TrimEmptyIffBlank(t.input);
      if Trim(t.input) == [] then SetActiveInput(s, "", now)
      else
        match engine.parse(t.input)
        case Parsed(v) =>
          ActiveAfterUpdate(s, InputPatch(engine.stringify(v, indent)), now);
          SetActiveInput(s, engine.stringify(v, indent), now)
        case Thrown(_) => s
  }

  function HandleFormat(s: JsonStore.Store, engine: Json.Engine, now: int): (r: JsonStore.Store)
    ensures ActiveTab(s).None? ==> r == s
    ensures ActiveTab(s).Some? && IsBlank(ActiveTab(s).value.input)
            ==> r == JsonStore.UpdateTab(s, ActiveTab(s).value.id, InputPatch(""), now)
    ensures (ActiveTab(s).Some? && !IsBlank(ActiveTab(s).value.input)
             && engine.parse(ActiveTab(s).value.input).Parsed?) ==>
              var t := ActiveTab(s).value;
              var text := engine.stringify(engine.parse(t.input).value, 2);
              r == JsonStore.UpdateTab(s, t.id, InputPatch(text), now)
              && ActiveTab(r) == Some(t.(input := text, updatedAt := now))
    ensures (ActiveTab(s).Some? && !IsBlank(ActiveTab(s).value.input)
             && engine.parse(ActiveTab(s).value.input).Thrown?) ==> r == s
  {
    Reformat(s, engine, 2, now)
  }

  function HandleCompress(s: JsonStore.Store, engine: Json.Engine, now: int): (r: JsonStore.Store)
    ensures ActiveTab(s).None? ==> r == s
    ensures ActiveTab(s).Some? && IsBlank(ActiveTab(s).value.input)
            ==> r == JsonStore.UpdateTab(s, ActiveTab(s).value.id, InputPatch(""), now)
    ensures (ActiveTab(s).Some? && !IsBlank(ActiveTab(s).value.input)
             && engine.parse(ActiveTab(s).value.input).Parsed?) ==>
              var t := ActiveTab(s).value;
              var text := engine.stringify(engine.parse(t.input).value, 0);
              r == JsonStore.UpdateTab(s, t.id, InputPatch(text), now)
              && ActiveTab(r) == Some(t.(input := text, updatedAt := now))
    ensures (ActiveTab(s).Some? && !IsBlank(ActiveTab(s).value.input)
             && engine.parse(ActiveTab(s).value.input).Thrown?) ==> r == s
  {
    Reformat(s, engine, 0, now)
  }

  /** `handleClear`. */
  function HandleClear(s: JsonStore.Store, now: int): (r: JsonStore.Store)
    ensures ActiveTab(s).None? ==> r == s
    ensures ActiveTab(s).Some? ==>
              r == JsonStore.UpdateTab(s, ActiveTab(s).value.id, InputPatch(""), now)
              && ActiveTab(r) == Some(ActiveTab(s).value.(input := "", updatedAt := now))
  {
    if ActiveTab(s).Some? then
      ActiveAfterUpdate(s, InputPatch(""), now);
      SetActiveInput(s, "", now)
    else s
  }

  /** `handleFontSizeChange`: `size` is `parseInt` of the field (None for NaN);
      only sizes in [10, 24] reach the active tab. */
  function HandleFontSizeChange(s: JsonStore.Store, size: Option<int>, now: int): (r: JsonStore.Store)
    ensures (size.None? || size.value < MinFontSize || size.value > MaxFontSize) ==> r == s
    ensures ActiveTab(s).None? ==> r == s
    ensures size.Some? && MinFontSize <= size.value <= MaxFontSize && ActiveTab(s).Some?
            ==> r == JsonStore.UpdateTab(s, ActiveTab(s).value.id, JsonStore.NoChange.(fontSize := size), now)
                && ActiveTab(r) == Some(ActiveTab(s).value.(fontSize := size.value, updatedAt := now))
  {
    if size.Some? && MinFontSize <= size.value <= MaxFontSize && ActiveTab(s).Some? then
      var t := ActiveTab(s).value;
      var r := JsonStore.UpdateTab(s, t.id, JsonStore.NoChange.(fontSize := size), now);
      ActiveAfterUpdate(s, JsonStore.NoChange.(fontSize := size), now);
      r
    else s
  }

  datatype PasteOutcome = DefaultPaste | Handled(store: JsonStore.Store)

  /** `handlePaste`: valid JSON is replaced by its pretty form; anything else
      is left to the browser's own paste. */
  function HandlePaste(s: JsonStore.Store, pasted: string, engine: Json.Engine, now: int): (r: PasteOutcome)
    ensures IsBlank(pasted) ==> r == DefaultPaste
    ensures !IsBlank(pasted) ==> (r.Handled? <==> engine.parse(pasted).Parsed?)
    ensures r.Handled? && ActiveTab(s).Some? ==>
              r.store == JsonStore.UpdateTab(s, ActiveTab(s).value.id,
                                             InputPatch(engine.stringify(engine.parse(pasted).value, 2)), now)
              && ActiveTab(r.store)
              == Some(ActiveTab(s).value.(input := engine.stringify(engine.parse(pasted).value, 2),
                                          updatedAt := now))
    ensures r.Handled? && ActiveTab(s).None? ==> r.store == s
  {
    TrimEmptyIffBlank(pasted);
    if Trim(pasted) == [] then DefaultPaste
    else
      match engine.parse(pasted)
      case Parsed(v) =>
        (match ActiveTab(s)
         case None => Handled(s)
         case Some(_) =>
           ActiveAfterUpdate(s, InputPatch(engine.stringify(v, 2)), now);
           Handled(SetActiveInput(s, engine.stringify(v, 2), now)))
      case Thrown(_) => DefaultPaste
  }

  /** Patching the active tab without touching ids leaves it the active tab. */
  lemma ActiveAfterUpdate(s: JsonStore.Store, p: JsonStore.TabPatch, now: int)
    requires ActiveTab(s).Some? && p.id == None
    ensures var t := ActiveTab(s).value;
      ActiveTab(JsonStore.UpdateTab(s, t.id, p, now)) == Some(JsonStore.ApplyPatch(t, p, now))
  {
    var t := ActiveTab(s).value;
    var r := JsonStore.UpdateTab(s, t.id, p, now);
    var sel := (u: JsonStore.Tab) => Some(u.id) == s.activeTabId;
    assert forall i :: 0 <= i < |s.tabs| ==> r.tabs[i].id == s.tabs[i].id;
    Lists.FirstIndexAgrees(s.tabs, sel, r.tabs, sel);
  }

  /** An engine whose printer, on any value its parser produced, writes a
      non-blank text that parses back to that value, as
      `JSON.parse(JSON.stringify(JSON.parse(t), null, n))` does.  Values the
      parser never returns (duplicate keys, non-canonical numbers) are not
      constrained. */
  ghost predicate Lawful(engine: Json.Engine)
  {
    forall t, n :: engine.parse(t).Parsed? ==>
      !IsBlank(engine.stringify(engine.parse(t).value, n))
      && engine.parse(engine.stringify(engine.parse(t).value, n)) == engine.parse(t)
  }

  /** With a lawful engine, formatting (or compressing) twice at the same
      moment is the same as doing it once. */
  lemma ReformatIdempotent(s: JsonStore.Store, engine: Json.Engine, indent: nat, now: int)
    requires Lawful(engine)
    ensures Reformat(Reformat(s, engine, indent, now), engine, indent, now)
            == Reformat(s, engine, indent, now)
  {
    if ActiveTab(s).Some? {
      var t := ActiveTab(s).value;
      TrimEmptyIffBlank(t.input);
      if IsBlank(t.input) {
        ActiveAfterUpdate(s, InputPatch(""), now);
        JsonStore.UpdateTabIdempotent(s, t.id, InputPatch(""), now);
      } else if engine.parse(t.input).Parsed? {
        var v := engine.parse(t.input).value;
        var text := engine.stringify(v, indent);
        var r1 := Reformat(s, engine, indent, now);
        assert r1 == JsonStore.UpdateTab(s, t.id, InputPatch(text), now);
        assert ActiveTab(r1) == Some(t.(input := text, updatedAt := now));
        assert !IsBlank(text) && engine.parse(text) == Json.Parsed(v);
        assert Reformat(r1, engine, indent, now) == JsonStore.UpdateTab(r1, t.id, InputPatch(text), now);
        JsonStore.UpdateTabIdempotent(s, t.id, InputPatch(text), now);
      }
    }
  }
}

=== FILE: json_renderer.dfy ===
/**
 * The syntax highlighter of the JSON view (JsonRenderer.tsx): a hand-written
 * lexer over the two-space pretty print of a value that cuts the text into
 * coloured pieces.  The lexer is modelled step by step: `Step` is one turn of
 * the source's `while` loop, `Lex` the whole loop.
 *
 * Two readings of the string branch exist side by side.  `AsWritten` follows
 * the source: a string ends at the first quote whose predecessor is not a
 * backslash, and it is a key exactly when the lexer's `expectKey` flag is
 * set.  The view (`Tokens`, `Render`, `LexLoop`) lexes with `AsWritten`.
 * `Corrected` skips escape pairs and calls a string a key when a colon
 * follows it: it is the intended behaviour against which the two defects of
 * the source's string branch are stated.
 */
module JsonRenderer {
  import opened JsText
  import opened Optional
  import Json

  datatype Reading = AsWritten | Corrected

  datatype Token =
    | Newline
    | Spaces(text: string)
    | Keyword(word: string)
    | Number(text: string)
    | Punct(c: char)
    | Str(isKey: bool, body: string, closed: bool)
    | Skip(c: char)

  /** One turn of the loop: the token, where the next turn starts and the
      new value of `expectKey`. */
  datatype Lexeme = Lexeme(token: Token, next: nat, expectKey: bool)

  /** `!isNaN(Number(c))` for a single character: a digit, or any character
      `Number` trims away (which leaves `""`, read as 0). */
  predicate NumberStart(c: char)
  {
    c == '-' || IsDigit(c) || IsSpace(c)
  }

  /** The characters the number loop keeps consuming. */
  predicate NumberChar(c: char)
  {
    NumberStart(c) || c == '.' || c == 'e' || c == 'E' || c == '+'
  }

  predicate IsBlankChar(c: char) { c == ' ' }

  /** Whitespace between JSON tokens, section 2 of RFC 8259. */
  predicate IsJsonSpace(c: char)
  {
    c == ' ' || c == '\t' || c == '\n' || c == '\r'
  }

  /** The punctuation the lexer copies through. */
  predicate IsPunct(c: char)
  {
    c == '{' || c == '}' || c == '[' || c == ']' || c == ':' || c == ','
  }

  /** The punctuation after which the lexer expects a key. */
  predicate OpensKey(c: char)
  {
    c == '{' || c == '[' || c == ','
  }

  /** Some branch of the lexer loop other than the final `i++` applies. */
  predicate Recognised(s: string, i: nat)
    requires i < |s|
  {
    s[i] == '\n' || s[i] == ' ' || s[i] == '"' || IsPunct(s[i]) || NumberStart(s[i])
    || WordAt(s, i, "true") || WordAt(s, i, "false") || WordAt(s, i, "null")
  }

  /** `s.substring(i, i + |w|) === w`. */
  predicate WordAt(s: string, i: nat, w: string)
  {
    i + |w| <= |s| && s[i..i + |w|] == w
  }

  /** The end of the maximal run of characters satisfying `p` from `i`. */
  function RunEnd(s: string, i: nat, p: char -> bool): (e: nat)
    requires i <= |s|
    ensures i <= e <= |s|
    ensures forall k :: i <= k < e ==> p(s[k])
    ensures e == |s| || !p(s[e])
    decreases |s| - i
  {
    if i < |s| && p(s[i]) then RunEnd(s, i + 1, p) else i
  }

  /* ------------------------------------------------------ string scanning */

  /** The source's scan: stop at the first quote not preceded by a backslash. */
  function ScanAsWritten(s: string, j: nat): (e: nat)
    requires 1 <= j <= |s|
    ensures j <= e <= |s|
    ensures e < |s| ==> s[e] == '"' && s[e - 1] != '\\'
    ensures forall k :: j <= k < e ==> !(s[k] == '"' && s[k - 1] != '\\')
    decreases |s| - j
  {
    if j < |s| && !(s[j] == '"' && s[j - 1] != '\\') then ScanAsWritten(s, j + 1) else j
  }

  /** The corrected scan: a backslash escapes the character after it. */
  function ScanString(s: string, j: nat): (e: nat)
    requires j <= |s|
    ensures j <= e <= |s|
    ensures e < |s| ==> s[e] == '"'
    decreases |s| - j
  {
    if j >= |s| then |s|
    else if s[j] == '"' then j
    else if s[j] == '\\' then ScanString(s, if j + 2 <= |s| then j + 2 else |s|)
    else ScanString(s, j + 1)
  }

  /** The body of a JSON string literal: plain characters other than the
      quote and the backslash, and backslash escape pairs. */
  predicate EscapedBody(b: string)
    decreases |b|
  {
    |b| == 0
    || (b[0] != '"' && b[0] != '\\' && EscapedBody(b[1..]))
    || (|b| >= 2 && b[0] == '\\' && EscapedBody(b[2..]))
  }

  /** How the printer escapes one character of a string. */
  function EscapeChar(c: char): string
  {
    if c == '"' || c == '\\' then ['\\', c] else [c]
  }

  function Escape(str: string): (r: string)
    ensures |r| >= |str|
  {
    if |str| == 0 then "" else EscapeChar(str[0]) + Escape(str[1..])
  }

  lemma {:induction false} EscapeIsEscapedBody(str: string)
    ensures EscapedBody(Escape(str))
  {
    if |str| > 0 {
      EscapeIsEscapedBody(str[1..]);
      var r := Escape(str);
      assert r[|EscapeChar(str[0])|..] == Escape(str[1..]);
    }
  }

  /** The corrected scan stops exactly at the quote that closes an escaped
      body, whatever follows. */
  lemma {:induction false} ScanClosesAtQuote(s: string, j: nat, b: string)
    requires j + |b| < |s| && s[j..j + |b|] == b && s[j + |b|] == '"'
    requires EscapedBody(b)
    ensures ScanString(s, j) == j + |b|
    decreases |b|
  {
    if |b| > 0 {
      if b[0] != '"' && b[0] != '\\' && EscapedBody(b[1..]) {
        assert s[j] == b[0];
        assert s[j + 1..j + 1 + |b[1..]|] == b[1..];
        ScanClosesAtQuote(s, j + 1, b[1..]);
      } else {
        assert s[j] == '\\';
        assert s[j + 2..j + 2 + |b[2..]|] == b[2..];
        ScanClosesAtQuote(s, j + 2, b[2..]);
      }
    }
  }

  /** Where an escaped backslash is followed by a quote, the source's scan
      runs past the quote and the corrected scan stops at it. */
  lemma ScansAtEscapedBackslash(s: string, n: nat)
    requires 1 <= n && n + 2 < |s|
    requires s[n] == '\\' && s[n + 1] == '\\' && s[n + 2] == '"'
    ensures ScanAsWritten(s, n) > n + 2
    ensures ScanString(s, n) == n + 2
  {
    assert ScanString(s, n) == ScanString(s, n + 2);
  }

  /** The printed string `"\\"` (one escaped backslash) is not closed by the
      source's scan at its closing quote: the scan runs on into whatever
      follows, while the corrected scan closes it. */
  lemma EscapedBackslashMisread(pre: string, rest: string)
    requires |pre| >= 1
    ensures var s := pre + "\\\\\"" + rest;
      ScanAsWritten(s, |pre|) > |pre| + 2 && ScanString(s, |pre|) == |pre| + 2
  {
    var lit := "\\\\\"";
    var s := pre + lit + rest;
    var n := |pre|;
    assert s[n] == lit[0] && s[n + 1] == lit[1] && s[n + 2] == lit[2];
    ScansAtEscapedBackslash(s, n);
  }

  /** Corrected key test: after the closing quote at `k - 1`, the next
      non-whitespace character is a colon. */
  predicate IsKeyAt(s: string, k: nat)
  {
    k < |s| && var e := RunEnd(s, k, IsJsonSpace); e < |s| && s[e] == ':'
  }

  /* ----------------------------------------------------------- the lexer */

  /** The text of the input a token stands for. */
  function SourceOf(t: Token): string
  {
    match t
    case Newline => "\n"
    case Spaces(text) => text
    case Keyword(w) => w
    case Number(text) => text
    case Punct(c) => [c]
    case Str(_, body, closed) => "\"" + body + (if closed then "\"" else "")
    case Skip(c) => [c]
  }

  /** What the token puts on screen: skipped characters vanish and a string
      is always shown with both quotes. */
  function Shown(t: Token): string
  {
    match t
    case Skip(_) => ""
    case Str(_, body, _) => "\"" + body + "\""
    case _ => SourceOf(t)
  }

  /** The string branch: the token runs from the opening quote at `i` to the
      closing quote, or to the end of the text when none closes it. */
  function StringLexeme(s: string, i: nat, expectKey: bool, reading: Reading): (x: Lexeme)
    requires i < |s| && s[i] == '"'
    ensures i < x.next <= |s| && x.token.Str? && x.expectKey == expectKey
    ensures SourceOf(x.token) == s[i..x.next]
  {
    var e := if reading == AsWritten then ScanAsWritten(s, i + 1) else ScanString(s, i + 1);
    var key := if reading == AsWritten then expectKey else IsKeyAt(s, e + 1);
    var closed := e < |s|;
    var next := if closed then e + 1 else |s|;
    assert s[i..next] == [s[i]] + s[i + 1..e] + s[e..next];
    Lexeme(Str(key, s[i + 1..e], closed), next, expectKey)
  }

  /** In the source's reading a string runs to the first quote not preceded
      by a backslash, or to the end of the text, and is a key exactly when
      `expectKey` is set; in the corrected reading it runs to the quote that
      closes its escaped body and is a key when a colon follows. */
  lemma StringBranch(s: string, i: nat, expectKey: bool, reading: Reading)
    requires i < |s| && s[i] == '"'
    ensures var x := StringLexeme(s, i, expectKey, reading);
      var e := if reading == AsWritten then ScanAsWritten(s, i + 1) else ScanString(s, i + 1);
      && x.token.isKey == (if reading == AsWritten then expectKey else IsKeyAt(s, e + 1))
      && x.token.body == s[i + 1..e] && x.token.closed == (e < |s|)
      && x.next == (if e < |s| then e + 1 else |s|)
  {
  }

  /** A run branch: spaces, or the characters of a number. */
  function RunLexeme(s: string, i: nat, expectKey: bool, number: bool): (x: Lexeme)
    requires i < |s| && (if number then NumberChar(s[i]) else s[i] == ' ')
    ensures i < x.next <= |s| && x.expectKey == expectKey
    ensures x.token == (if number then Number(s[i..x.next]) else Spaces(s[i..x.next]))
    ensures x.next == |s| || !(if number then NumberChar(s[x.next]) else s[x.next] == ' ')
  {
    if number then
      var e := RunEnd(s, i, NumberChar);
      Lexeme(Number(s[i..e]), e, expectKey)
    else
      var e := RunEnd(s, i, IsBlankChar);
      Lexeme(Spaces(s[i..e]), e, expectKey)
  }

  /** One turn of the lexer loop at index `i`. */
  function Step(s: string, i: nat, expectKey: bool, reading: Reading): (x: Lexeme)
    requires i < |s|
    ensures i < x.next <= |s|
    ensures SourceOf(x.token) == s[i..x.next]
    ensures x.token.Spaces? <==> s[i] == ' '
    ensures x.token.Newline? <==> s[i] == '\n'
    ensures x.token.Spaces? ==> x.next == |s| || s[x.next] != ' '
    ensures x.token.Number? ==> NumberStart(s[i]) && (x.next == |s| || !NumberChar(s[x.next]))
    ensures x.token.Str? <==> s[i] == '"'
    ensures !x.token.Punct? && !x.token.Newline? ==> x.expectKey == expectKey
  {
    var c := s[i];
    if c == '\n' then Lexeme(Newline, i + 1, false)
    else if c == ' ' then RunLexeme(s, i, expectKey, false)
    else if c == 't' && WordAt(s, i, "true") then Lexeme(Keyword("true"), i + 4, expectKey)
    else if c == 'f' && WordAt(s, i, "false") then Lexeme(Keyword("false"), i + 5, expectKey)
    else if c == 'n' && WordAt(s, i, "null") then Lexeme(Keyword("null"), i + 4, expectKey)
    else if NumberStart(c) then RunLexeme(s, i, expectKey, true)
    else if c == '{' || c == '[' || c == ',' then Lexeme(Punct(c), i + 1, true)
    else if c == '}' || c == ']' || c == ':' then Lexeme(Punct(c), i + 1, false)
    else if c == '"' then StringLexeme(s, i, expectKey, reading)
    else Lexeme(Skip(c), i + 1, expectKey)
  }

  /** Which branch a character takes, and what it does to `expectKey`:
      `{ [ ,` set it, `} ] :` and a line break clear it, everything else
      keeps it; the source's strings are keys exactly when it is set;
      keywords are taken only when the whole word is there; any other
      character is dropped. */
  lemma StepTransitions(s: string, i: nat, expectKey: bool, reading: Reading)
    requires i < |s|
    ensures var x := Step(s, i, expectKey, reading);
      && (x.token.Str? && reading == AsWritten ==> x.token.isKey == expectKey)
      && (x.token == Keyword("true") <==> WordAt(s, i, "true"))
      && (x.token == Keyword("false") <==> WordAt(s, i, "false"))
      && (x.token == Keyword("null") <==> WordAt(s, i, "null"))
      && (x.token.Keyword? ==> x.next == i + |x.token.word|)
      && (x.token.Number? <==> NumberStart(s[i]) && s[i] != ' ' && s[i] != '\n')
      && (x.token.Punct? <==> IsPunct(s[i]))
      && (x.token.Punct? ==> x.token.c == s[i] && x.expectKey == OpensKey(s[i]))
      && (x.token.Newline? ==> !x.expectKey)
      && (x.token.Skip? <==> !Recognised(s, i))
      && (x.token.Skip? ==> x.token.c == s[i] && x.next == i + 1)
  {
    var x := Step(s, i, expectKey, reading);
    var c := s[i];
    if WordAt(s, i, "true") { assert c == s[i..i + 4][0] == 't'; }
    if WordAt(s, i, "false") { assert c == s[i..i + 5][0] == 'f'; }
    if WordAt(s, i, "null") { assert c == s[i..i + 4][0] == 'n'; }
  }

  /** The lexer loop from index `i`. */
  function Lex(s: string, i: nat, expectKey: bool, reading: Reading): (r: seq<Token>)
    requires i <= |s|
    ensures |r| <= |s| - i
    ensures i < |s| ==> |r| > 0 && r[0] == Step(s, i, expectKey, reading).token
    decreases |s| - i
  {
    if i >= |s| then []
    else
      var x := Step(s, i, expectKey, reading);
      [x.token] + Lex(s, x.next, x.expectKey, reading)
  }

  /** The tokens the view renders for a printed value: the source's loop,
      started with `expectKey` false.  They cover the text exactly. */
  function Tokens(s: string): (r: seq<Token>)
    ensures SourceText(r) == s
  {
    LexCoversInput(s, 0, false, AsWritten);
    Lex(s, 0, false, AsWritten)
  }

  /** What the view shows for `data`: the word `undefined`, or the tokens of
      the two-space pretty print. */
  datatype View = UndefinedView | TokenView(tokens: seq<Token>)

  function Render(data: Option<Json.Value>, engine: Json.Engine): (r: View)
    ensures data.None? <==> r == UndefinedView
    ensures data.Some? ==> r.TokenView? && SourceText(r.tokens) == engine.stringify(data.value, 2)
  {
    match data
    case None => UndefinedView
    case Some(v) => TokenView(Tokens(engine.stringify(v, 2)))
  }

  function SourceText(ts: seq<Token>): string
  {
    if |ts| == 0 then "" else SourceOf(ts[0]) + SourceText(ts[1..])
  }

  function ShownText(ts: seq<Token>): string
  {
    if |ts| == 0 then "" else Shown(ts[0]) + ShownText(ts[1..])
  }

  /* -------------------------------------------------------------- lemmas */

  /** The tokens partition the input: nothing is lost or duplicated. */
  lemma {:induction false} LexCoversInput(s: string, i: nat, expectKey: bool, reading: Reading)
    requires i <= |s|
    ensures SourceText(Lex(s, i, expectKey, reading)) == s[i..]
    decreases |s| - i
  {
    if i < |s| {
      var x := Step(s, i, expectKey, reading);
      LexCoversInput(s, x.next, x.expectKey, reading);
      LexUnfold(s, i, expectKey, reading);
      SourceTextCons(x.token, Lex(s, x.next, x.expectKey, reading));
      assert s[i..] == s[i..x.next] + s[x.next..];
    }
  }

  lemma LexUnfold(s: string, i: nat, expectKey: bool, reading: Reading)
    requires i < |s|
    ensures var x := Step(s, i, expectKey, reading);
      Lex(s, i, expectKey, reading) == [x.token] + Lex(s, x.next, x.expectKey, reading)
  {
  }

  lemma SourceTextCons(t: Token, rest: seq<Token>)
    ensures SourceText([t] + rest) == SourceOf(t) + SourceText(rest)
  {
    assert ([t] + rest)[1..] == rest;
  }

  /** Without skipped characters and unterminated strings, the screen shows
      the input exactly. */
  lemma {:induction false} ShownIsSource(ts: seq<Token>)
    requires forall k :: 0 <= k < |ts| ==> !ts[k].Skip? && (ts[k].Str? ==> ts[k].closed)
    ensures ShownText(ts) == SourceText(ts)
  {
    if |ts| > 0 {
      ShownIsSource(ts[1..]);
    }
  }

  /** A run of spaces is one token, and a number swallows the spaces and
      line breaks after it, so neither is ever followed by layout of its
      own kind. */
  lemma {:induction false} LayoutAfterRuns(s: string, i: nat, expectKey: bool, reading: Reading)
    requires i <= |s|
    ensures var r := Lex(s, i, expectKey, reading);
      forall k :: 0 <= k < |r| - 1 ==>
        (r[k].Spaces? ==> !r[k + 1].Spaces?)
        && (r[k].Number? ==> !r[k + 1].Number? && !r[k + 1].Spaces? && !r[k + 1].Newline?)
    decreases |s| - i
  {
    if i < |s| {
      var x := Step(s, i, expectKey, reading);
      LayoutAfterRuns(s, x.next, x.expectKey, reading);
      var r := Lex(s, i, expectKey, reading);
      assert r[1..] == Lex(s, x.next, x.expectKey, reading);
      forall k | 0 <= k < |r| - 1
        ensures (r[k].Spaces? ==> !r[k + 1].Spaces?)
          && (r[k].Number? ==> !r[k + 1].Number? && !r[k + 1].Spaces? && !r[k + 1].Newline?)
      {
        if k > 0 {
          assert r[k] == r[1..][k - 1] && r[k + 1] == r[1..][k];
        } else {
          assert x.next < |s|;
        }
      }
    }
  }

  /** A closing quote followed by optional whitespace and a colon makes the
      corrected lexer mark the string as a key; any other character after
      the whitespace makes it a value. */
  lemma KeyBeforeColon(s: string, i: nat, b: string, expectKey: bool)
    requires i + 1 + |b| < |s| && s[i] == '"'
    requires s[i + 1..i + 1 + |b|] == b && s[i + 1 + |b|] == '"' && EscapedBody(b)
    ensures var e := RunEnd(s, i + 2 + |b|, IsJsonSpace);
      Step(s, i, expectKey, Corrected).token == Str(e < |s| && s[e] == ':', b, true)
  {
    ScanClosesAtQuote(s, i + 1, b);
  }

  /** A key that opens a line after `{` is read as a key by the corrected
      lexer and as a value by the source's. */
  lemma KeyAfterLineBreak(s: string, reading: Reading)
    requires |s| > 7 && s[0] == '{' && s[1] == '\n' && s[2] == ' ' && s[3] == ' '
    requires s[4] == '"' && s[5] == 'a' && s[6] == '"' && s[7] == ':'
    ensures |Lex(s, 0, false, reading)| > 3
    ensures Lex(s, 0, false, reading)[3] == Str(reading == Corrected, "a", true)
  {
    var x0 := Step(s, 0, false, reading);
    assert x0 == Lexeme(Punct('{'), 1, true);
    var x1 := Step(s, 1, true, reading);
    assert x1 == Lexeme(Newline, 2, false);
    assert RunEnd(s, 2, IsBlankChar) == 4 by {
      assert RunEnd(s, 2, IsBlankChar) == RunEnd(s, 3, IsBlankChar) == RunEnd(s, 4, IsBlankChar);
    }
    assert s[2..4] == "  ";
    var x2 := Step(s, 2, false, reading);
    assert x2 == Lexeme(Spaces("  "), 4, false);
    assert ScanAsWritten(s, 5) == 6 by {
      assert ScanAsWritten(s, 5) == ScanAsWritten(s, 6);
    }
    assert ScanString(s, 5) == 6 by {
      assert ScanString(s, 5) == ScanString(s, 6);
    }
    assert IsKeyAt(s, 7) by {
      assert RunEnd(s, 7, IsJsonSpace) == 7;
    }
    assert s[5..6] == "a";
    var x3 := Step(s, 4, false, reading);
    assert x3.token == Str(reading == Corrected, "a", true);
    var r := Lex(s, 0, false, reading);
    var r1 := Lex(s, 1, true, reading);
    var r2 := Lex(s, 2, false, reading);
    var r4 := Lex(s, 4, false, reading);
    assert r == [x0.token] + r1;
    assert r1 == [x1.token] + r2;
    assert r2 == [x2.token] + r4;
    assert r4[0] == x3.token;
  }

  /** In the source's reading every key of a pretty-printed object follows a
      line break, which clears `expectKey`: the key of `{"a": 1}` printed
      with two-space indent is coloured as a value. */
  lemma KeyShownAsValueAsWritten()
    ensures var s := "{\n  \"a\": 1\n}";
      |Lex(s, 0, false, AsWritten)| > 3 && |Lex(s, 0, false, Corrected)| > 3
      && Lex(s, 0, false, AsWritten)[3] == Str(false, "a", true)
      && Lex(s, 0, false, Corrected)[3] == Str(true, "a", true)
  {
    var s := "{\n  \"a\": 1\n}";
    KeyAfterLineBreak(s, AsWritten);
    KeyAfterLineBreak(s, Corrected);
  }

  /** One turn of the source's loop, together with the unfolding of `Lex`. */
  function LoopTurn(s: string, i: nat, expectKey: bool): (x: Lexeme)
    requires i < |s|
    ensures i < x.next <= |s|
    ensures Lex(s, i, expectKey, AsWritten) == [x.token] + Lex(s, x.next, x.expectKey, AsWritten)
  {
    LexUnfold(s, i, expectKey, AsWritten);
    Step(s, i, expectKey, AsWritten)
  }

  /** The rendering loop of JsonRenderer.tsx computes `Tokens`. */
  method LexLoop(s: string) returns (parts: seq<Token>)
    ensures parts == Tokens(s)
    ensures SourceText(parts) == s
  {
    parts := [];
    var i := 0;
    var expectKey := false;
    while i < |s|
      invariant 0 <= i <= |s|
      invariant parts + Lex(s, i, expectKey, AsWritten) == Tokens(s)
      decreases |s| - i
    {
      var x := LoopTurn(s, i, expectKey);
      parts := parts + [x.token];
      i := x.next;
      expectKey := x.expectKey;
    }
  }
}

=== FILE: json_store.dfy ===
/**
 * The persisted store of the JSON tool (useJsonStore): an ordered list of
 * tabs, the id of the active tab and a cache of parsed values stamped with
 * the time they were stored.  Every action is a pure state transition; the
 * fresh id (`createId`, which draws on `Math.random`) and the clock reading
 * (`Date.now`) are arguments.
 */
module JsonStore {
  import opened Optional
  import opened JsText
  import Lists
  import Json

  /** Cache entries older than thirty minutes, in milliseconds, expire. */
  const CacheDuration: int := 30 * 60 * 1000
  const DefaultFontSize: int := 13
  const TabNamePrefix: string := "标签 "

  datatype Tab = Tab(id: string, name: string, input: string, fontSize: int, updatedAt: int)

  datatype CacheEntry = CacheEntry(data: Json.Value, timestamp: int)

  datatype Store = Store(tabs: seq<Tab>, activeTabId: Option<string>, cache: map<string, CacheEntry>)

  /** `Partial<JsonTab>`: the fields an update supplies. */
  datatype TabPatch = TabPatch(
    id: Option<string>,
    name: Option<string>,
    input: Option<string>,
    fontSize: Option<int>,
    updatedAt: Option<int>)

  const NoChange: TabPatch := TabPatch(None, None, None, None, None)

  function TabId(t: Tab): string { t.id }

  /** The name of the n-th tab: `标签 n`. */
  function TabName(n: nat): string
  {
    TabNamePrefix + Decimal(n)
  }

  /** The state a fresh installation starts in. */
  function Initial(id: string, now: int): (s: Store)
    ensures s.tabs == [Tab(id, TabName(1), "", DefaultFontSize, now)]
    ensures s.activeTabId == None && s.cache == map[]
    ensures Valid(s) && HasTab(s, id)
  {
    var s := Store([Tab(id, TabName(1), "", DefaultFontSize, now)], None, map[]);
    assert s.tabs[0].id == id;
    s
  }

  /** Every tab id is unique and at least one tab exists. */
  predicate Valid(s: Store)
  {
    |s.tabs| >= 1 && Lists.DistinctKeys(s.tabs, TabId)
  }

  predicate HasTab(s: Store, id: string)
  {
    exists i :: 0 <= i < |s.tabs| && s.tabs[i].id == id
  }

  /** `tabs[0]?.fontSize || 13`: a missing or zero size falls back to 13. */
  function InheritedFontSize(tabs: seq<Tab>): int
  {
    if |tabs| > 0 && tabs[0].fontSize != 0 then tabs[0].fontSize else DefaultFontSize
  }

  /** `addTab`: append one empty tab and make it active. */
  function AddTab(s: Store, freshId: string, now: int): (r: Store)
    ensures |r.tabs| == |s.tabs| + 1 && r.tabs[..|s.tabs|] == s.tabs
    ensures r.tabs[|s.tabs|]
            == Tab(freshId, TabName(|s.tabs| + 1), "", InheritedFontSize(s.tabs), now)
    ensures r.activeTabId == Some(freshId) && r.cache == s.cache
  {
    var t := Tab(freshId, TabName(|s.tabs| + 1), "", InheritedFontSize(s.tabs), now);
    Store(s.tabs + [t], Some(freshId), s.cache)
  }

  /** `closeTab`: refused while at most one tab is open; otherwise drop the
      tabs with that id and its cache entry, and activate the first tab left
      (`newTabs[0]?.id || null`, so an empty id also reads as none). */
  function CloseTab(s: Store, id: string): (r: Store)
    ensures |s.tabs| <= 1 ==> r == s
    ensures |s.tabs| > 1 ==>
              (forall t :: t in r.tabs <==> t in s.tabs && t.id != id)
              && r.cache.Keys == s.cache.Keys - {id}
              && (forall k :: k in r.cache ==> r.cache[k] == s.cache[k])
              && (r.activeTabId != None <==> |r.tabs| > 0 && r.tabs[0].id != "")
              && (r.activeTabId != None ==> r.activeTabId == Some(r.tabs[0].id))
  {
    if |s.tabs| <= 1 then s
    else
      var kept := Lists.Filter(s.tabs, (t: Tab) => t.id != id);
      var active := if |kept| > 0 && kept[0].id != "" then Some(kept[0].id) else None;
      Store(kept, active, s.cache - {id})
  }

  /** `setActiveTab`. */
  function SetActiveTab(s: Store, id: string): (r: Store)
    ensures r.activeTabId == Some(id) && r.tabs == s.tabs && r.cache == s.cache
  {
    s.(activeTabId := Some(id))
  }

  /** `{ ...t, ...updates, updatedAt: Date.now() }`. */
  function ApplyPatch(t: Tab, p: TabPatch, now: int): (r: Tab)
    ensures r.id == p.id.GetOr(t.id) && r.name == p.name.GetOr(t.name)
    ensures r.input == p.input.GetOr(t.input) && r.fontSize == p.fontSize.GetOr(t.fontSize)
    ensures r.updatedAt == now
  {
    Tab(p.id.GetOr(t.id), p.name.GetOr(t.name), p.input.GetOr(t.input),
        p.fontSize.GetOr(t.fontSize), now)
  }

  /** `updateTab`: patch every tab carrying the id, keep the others. */
  function UpdateTab(s: Store, id: string, p: TabPatch, now: int): (r: Store)
    ensures |r.tabs| == |s.tabs|
    ensures forall i :: 0 <= i < |s.tabs| ==>
              r.tabs[i] == if s.tabs[i].id == id then ApplyPatch(s.tabs[i], p, now) else s.tabs[i]
    ensures r.activeTabId == s.activeTabId && r.cache == s.cache
  {
    s.(tabs := Lists.MapWhere(s.tabs, (t: Tab) => t.id == id, (t: Tab) => ApplyPatch(t, p, now)))
  }

  /** `clearCache`. */
  function ClearCache(s: Store, id: string): (r: Store)
    ensures r.cache.Keys == s.cache.Keys - {id}
    ensures forall k :: k in r.cache ==> r.cache[k] == s.cache[k]
    ensures r.tabs == s.tabs && r.activeTabId == s.activeTabId
  {
    s.(cache := s.cache - {id})
  }

  /** `clearAllCache`. */
  function ClearAllCache(s: Store): (r: Store)
    ensures |r.cache| == 0 && r.tabs == s.tabs && r.activeTabId == s.activeTabId
  {
    s.(cache := map[])
  }

  predicate Fresh(e: CacheEntry, now: int)
  {
    now - e.timestamp < CacheDuration
  }

  /** `cleanupExpiredCache`: keep the entries younger than thirty minutes. */
  function CleanupExpiredCache(s: Store, now: int): (r: Store)
    ensures forall k :: k in r.cache <==> k in s.cache && Fresh(s.cache[k], now)
    ensures forall k :: k in r.cache ==> r.cache[k] == s.cache[k]
    ensures r.tabs == s.tabs && r.activeTabId == s.activeTabId
  {
    s.(cache := map k | k in s.cache && Fresh(s.cache[k], now) :: s.cache[k])
  }

  /* ------------------------------------------------------------ lemmas */

  /** A later cleanup subsumes an earlier one; in particular two cleanups at
      the same moment are one. */
  lemma CleanupLaterSubsumes(s: Store, t1: int, t2: int)
    requires t1 <= t2
    ensures CleanupExpiredCache(CleanupExpiredCache(s, t1), t2) == CleanupExpiredCache(s, t2)
  {
    var a := CleanupExpiredCache(CleanupExpiredCache(s, t1), t2).cache;
    var b := CleanupExpiredCache(s, t2).cache;
    assert a.Keys == b.Keys;
  }

  lemma CleanupIdempotent(s: Store, now: int)
    ensures CleanupExpiredCache(CleanupExpiredCache(s, now), now) == CleanupExpiredCache(s, now)
  {
    CleanupLaterSubsumes(s, now, now);
  }

  /** Adding a tab under a fresh id keeps the store valid. */
  lemma AddTabValid(s: Store, freshId: string, now: int)
    requires Valid(s) && !HasTab(s, freshId)
    ensures Valid(AddTab(s, freshId, now)) && HasTab(AddTab(s, freshId, now), freshId)
  {
    var r := AddTab(s, freshId, now);
    assert r.tabs[|s.tabs|].id == freshId;
  }

  /** Closing never leaves a valid store without tabs: with distinct ids the
      filter drops at most one of the two or more tabs. */
  lemma CloseTabValid(s: Store, id: string)
    requires Valid(s)
    ensures Valid(CloseTab(s, id))
    ensures |s.tabs| > 1 ==> !HasTab(CloseTab(s, id), id)
    ensures |s.tabs| > 1 && HasTab(s, id) ==> |CloseTab(s, id).tabs| == |s.tabs| - 1
  {
    if |s.tabs| > 1 {
      var keep := (t: Tab) => t.id != id;
      Lists.FilterLength(s.tabs, keep);
      Lists.RemoveOneKey(s.tabs, TabId, id, keep);
      Lists.FilterDistinct(s.tabs, TabId, keep);
    }
  }

  /** Closing a tab that was just added under a fresh id restores the tab
      list, and the first tab becomes active. */
  lemma CloseUndoesAdd(s: Store, freshId: string, now: int)
    requires Valid(s) && !HasTab(s, freshId)
    ensures CloseTab(AddTab(s, freshId, now), freshId).tabs == s.tabs
  {
    var a := AddTab(s, freshId, now);
    var keep := (t: Tab) => t.id != freshId;
    Lists.FilterAppend(s.tabs, [a.tabs[|s.tabs|]], keep);
    Lists.FilterAll(s.tabs, keep);
    assert a.tabs == s.tabs + [a.tabs[|s.tabs|]];
  }

  /** Updating twice with the same patch at the same moment is updating once:
      the patched tabs either still carry the id and are patched to the same
      values, or no longer carry it. */
  lemma UpdateTabIdempotent(s: Store, id: string, p: TabPatch, now: int)
    ensures UpdateTab(UpdateTab(s, id, p, now), id, p, now) == UpdateTab(s, id, p, now)
  {
    var once := UpdateTab(s, id, p, now);
    var twice := UpdateTab(once, id, p, now);
    assert twice.tabs == once.tabs;
  }

  /** An update without an id keeps ids, so it keeps a store valid. */
  lemma UpdateTabValid(s: Store, id: string, p: TabPatch, now: int)
    requires Valid(s) && p.id == None
    ensures Valid(UpdateTab(s, id, p, now))
  {
    var r := UpdateTab(s, id, p, now);
    assert forall i :: 0 <= i < |s.tabs| ==> r.tabs[i].id == s.tabs[i].id;
  }
}

=== FILE: json_value.dfy ===
/**
 * Parsed JSON values and the two foreign engines every JSON view calls:
 * `JSON.parse` (which either returns a value or throws with a message) and
 * `JSON.stringify(value, null, indent)`.  The engines are not modelled; they
 * are passed around as an `Engine` record of uninterpreted functions.
 */
module Json {

  /** A parsed value.  A number carries the text `String(n)` gives for it; an
      object lists its entries in the order `Object.keys` reports them. */
  datatype Value =
    | Null
    | Bool(b: bool)
    | Number(text: string)
    | Str(s: string)
    | Array(items: seq<Value>)
    | Object(entries: seq<(string, Value)>)

  /** The outcome of `JSON.parse`: a value, or the message of the thrown error. */
  datatype Parsed = Parsed(value: Value) | Thrown(message: string)

  /** `parse(text)` models `JSON.parse(text)`; `stringify(v, n)` models
      `JSON.stringify(v, null, n)`, where `n == 0` is the compact form. */
  datatype Engine = Engine(parse: string -> Parsed, stringify: (Value, nat) -> string)
}

=== FILE: lists.dfy ===
/**
 * `Array.prototype.filter` and `Array.prototype.map` as the stores use them:
 * dropping the records that carry one id, and rewriting the records that
 * carry one id while leaving the others alone.
 */
module Lists {

  /** `s.filter(keep)`. */
  function Filter<T>(s: seq<T>, keep: T -> bool): (r: seq<T>)
    ensures |r| <= |s|
    ensures forall i :: 0 <= i < |r| ==> r[i] in s && keep(r[i])
    ensures forall i :: 0 <= i < |s| && keep(s[i]) ==> s[i] in r
  {
    if |s| == 0 then []
    else (if keep(s[0]) then [s[0]] else []) + Filter(s[1..], keep)
  }

  /** Filtering distributes over concatenation, so it keeps the relative
      order of the survivors. */
  lemma {:induction false} FilterAppend<T>(a: seq<T>, b: seq<T>, keep: T -> bool)
    ensures Filter(a + b, keep) == Filter(a, keep) + Filter(b, keep)
  {
    if |a| > 0 {
      FilterAppend(a[1..], b, keep);
      assert (a + b)[1..] == a[1..] + b;
      assert (a + b)[0] == a[0];
      var h: seq<T> := if keep(a[0]) then [a[0]] else [];
      assert Filter(a + b, keep) == h + Filter(a[1..] + b, keep);
      assert Filter(a, keep) == h + Filter(a[1..], keep);
    } else {
      assert a + b == b;
    }
  }

  /** Nothing is dropped when every element is kept. */
  lemma {:induction false} FilterAll<T>(s: seq<T>, keep: T -> bool)
    requires forall i :: 0 <= i < |s| ==> keep(s[i])
    ensures Filter(s, keep) == s
  {
    if |s| > 0 {
      FilterAll(s[1..], keep);
    }
  }

  /** The number of elements a filter drops. */
  function Dropped<T>(s: seq<T>, keep: T -> bool): nat
  {
    if |s| == 0 then 0 else (if keep(s[0]) then 0 else 1) + Dropped(s[1..], keep)
  }

  lemma {:induction false} FilterLength<T>(s: seq<T>, keep: T -> bool)
    ensures |Filter(s, keep)| + Dropped(s, keep) == |s|
  {
    if |s| > 0 {
      FilterLength(s[1..], keep);
    }
  }

  /** Keys are pairwise distinct. */
  predicate DistinctKeys<T>(s: seq<T>, key: T -> string)
  {
    forall i, j :: 0 <= i < j < |s| ==> key(s[i]) != key(s[j])
  }

  /** Removing one key from a list with distinct keys drops exactly the one
      element carrying it, or nothing when no element carries it. */
  lemma {:induction false} RemoveOneKey<T>(s: seq<T>, key: T -> string, id: string, keep: T -> bool)
    requires DistinctKeys(s, key)
    requires forall i :: 0 <= i < |s| ==> keep(s[i]) == (key(s[i]) != id)
    ensures Dropped(s, keep) == if exists i :: 0 <= i < |s| && key(s[i]) == id then 1 else 0
  {
    if |s| > 0 {
      RemoveOneKey(s[1..], key, id, keep);
      if key(s[0]) == id {
        assert forall i :: 1 <= i < |s| ==> key(s[i]) != id;
        assert !exists i :: 0 <= i < |s[1..]| && key(s[1..][i]) == id;
      } else {
        if exists i :: 0 <= i < |s| && key(s[i]) == id {
          var i :| 0 <= i < |s| && key(s[i]) == id;
          assert key(s[1..][i - 1]) == id;
        }
      }
    }
  }

  /** Filtering keeps distinct keys distinct. */
  lemma {:induction false} FilterDistinct<T>(s: seq<T>, key: T -> string, keep: T -> bool)
    requires DistinctKeys(s, key)
    ensures DistinctKeys(Filter(s, keep), key)
  {
    if |s| > 0 {
      FilterDistinct(s[1..], key, keep);
      var rest := Filter(s[1..], keep);
      if keep(s[0]) {
        forall j | 0 <= j < |rest|
          ensures key(s[0]) != key(rest[j])
        {
          assert rest[j] in s[1..];
        }
      }
    }
  }

  /** `s.findIndex(p)`: the first index whose element satisfies `p`, or -1. */
  function FirstIndex<T>(s: seq<T>, p: T -> bool): (r: int)
    ensures -1 <= r < |s|
    ensures r >= 0 ==> p(s[r]) && forall j :: 0 <= j < r ==> !p(s[j])
    ensures r == -1 <==> forall j :: 0 <= j < |s| ==> !p(s[j])
  {
    if |s| == 0 then -1
    else if p(s[0]) then 0
    else var r := FirstIndex(s[1..], p); if r == -1 then -1 else r + 1
  }

  /** Two lists whose elements agree on the tests, position by position, have
      the same first match. */
  lemma FirstIndexAgrees<T, U>(s: seq<T>, p: T -> bool, u: seq<U>, q: U -> bool)
    requires |s| == |u| && forall i :: 0 <= i < |s| ==> p(s[i]) == q(u[i])
    ensures FirstIndex(s, p) == FirstIndex(u, q)
  {
    var a := FirstIndex(s, p);
    var b := FirstIndex(u, q);
    if a >= 0 && b >= 0 {
      assert !(a < b) && !(b < a);
    }
  }

  /** `s.map(x => sel(x) ? f(x) : x)`. */
  function MapWhere<T>(s: seq<T>, sel: T -> bool, f: T -> T): (r: seq<T>)
    ensures |r| == |s|
    ensures forall i :: 0 <= i < |s| ==> r[i] == if sel(s[i]) then f(s[i]) else s[i]
  {
    if |s| == 0 then []
    else [if sel(s[0]) then f(s[0]) else s[0]] + MapWhere(s[1..], sel, f)
  }

  /** `s.map(f)`. */
  function Map<T, U>(s: seq<T>, f: T -> U): (r: seq<U>)
    ensures |r| == |s| && forall i :: 0 <= i < |s| ==> r[i] == f(s[i])
  {
    if |s| == 0 then [] else [f(s[0])] + Map(s[1..], f)
  }
}

=== FILE: optional.dfy ===
/** A JavaScript value that may be `undefined` or `null`. */
module Optional {

  datatype Option<T> = None | Some(value: T) {

    /** `x ?? d`: the value when present, otherwise the default. */
    function GetOr(d: T): T
    {
      match this
      case Some(v) => v
      case None => d
    }
  }
}

=== FILE: qr_lib.dfy ===
/**
 * The QR code helpers of qrcode.ts: option defaults, the choice between a
 * plain code and a code with a logo, the mapping from a store configuration
 * to encoder options, and the sequential batch loop.  The encoder
 * (`QRCode.toDataURL`) and the canvas compositor (`embedLogo`) are
 * parameters; either may reject (the encoder for content beyond the code's
 * capacity, the compositor when an image fails to load), which they report
 * as `None`.
 */
module QrLib {
  import opened Optional
  import QrStore

  datatype Colors = Colors(dark: Option<string>, light: Option<string>)

  /** `GenerateOptions`: every key may be missing. */
  datatype Options = Options(
    width: Option<int>,
    margin: Option<int>,
    level: Option<QrStore.Level>,
    color: Option<Colors>,
    logo: Option<string>,
    logoWidth: Option<real>,
    logoHeight: Option<real>)

  const NoOptions: Options := Options(None, None, None, None, None, None, None)

  const DefaultWidth: int := 256
  const DefaultMargin: int := 2
  const DefaultColors: Colors := Colors(Some("#000000"), Some("#ffffff"))

  /** What the encoder is given. */
  datatype EncodeOptions = EncodeOptions(width: int, margin: int, level: QrStore.Level, color: Colors)

  /** `QRCode.toDataURL`: a data URL, or `None` when the promise rejects. */
  type Encoder = (string, EncodeOptions) -> Option<string>

  /** `embedLogo(qrDataUrl, logoUrl, logoWidth, qrWidth)`: a data URL, or
      `None` when one of the two images fails to load. */
  type Compositor = (string, string, Option<real>, int) -> Option<string>

  /** The destructuring defaults of `generateQRCode`: a missing key takes its
      default, a present one is kept as it is. */
  function Resolve(o: Options): (r: EncodeOptions)
    ensures o.width.Some? ==> r.width == o.width.value
    ensures o.width.None? ==> r.width == DefaultWidth
    ensures o.margin.Some? ==> r.margin == o.margin.value
    ensures o.margin.None? ==> r.margin == DefaultMargin
    ensures o.level.Some? ==> r.level == o.level.value
    ensures o.level.None? ==> r.level == QrStore.M
    ensures o.color.Some? ==> r.color == o.color.value
    ensures o.color.None? ==> r.color == DefaultColors
  {
    EncodeOptions(o.width.GetOr(DefaultWidth), o.margin.GetOr(DefaultMargin),
                  o.level.GetOr(QrStore.M), o.color.GetOr(DefaultColors))
  }

  /** `!logo`: a missing logo and the empty string both mean none. */
  predicate HasLogo(o: Options)
  {
    o.logo.Some? && o.logo.value != ""
  }

  /** What `generateQRCode` does: one encoder call, followed by the logo
      compositor when there is a logo. */
  datatype Plan =
    | Plain(content: string, opts: EncodeOptions)
    | WithLogo(content: string, opts: EncodeOptions, logo: string, logoWidth: Option<real>, size: int)

  const LogoScale: int := 4

  function PlanOf(content: string, o: Options): (p: Plan)
    ensures p.content == content
    ensures p.Plain? <==> !HasLogo(o)
    ensures p.Plain? ==> p.opts == Resolve(o)
    ensures p.WithLogo? ==>
              p.opts == Resolve(o).(width := LogoScale * Resolve(o).width)
              && p.logo == o.logo.value && p.logoWidth == o.logoWidth
  {
    var opts := Resolve(o);
    if !HasLogo(o) then Plain(content, opts)
    else WithLogo(content, opts.(width := LogoScale * opts.width), o.logo.value, o.logoWidth, opts.width)
  }

  /** The width of the image a plan delivers. */
  function FinalWidth(p: Plan): int
  {
    match p
    case Plain(_, opts) => opts.width
    case WithLogo(_, _, _, _, size) => size
  }

  /** Either way the delivered image has the requested width; with a logo the
      code is drawn at four times that width first, and nothing else about
      the encoder options changes. */
  lemma PlanKeepsWidth(content: string, o: Options)
    ensures FinalWidth(PlanOf(content, o)) == Resolve(o).width
    ensures var p := PlanOf(content, o);
      p.opts.margin == Resolve(o).margin && p.opts.level == Resolve(o).level
      && p.opts.color == Resolve(o).color
      && p.opts.width == (if HasLogo(o) then LogoScale * Resolve(o).width else Resolve(o).width)
  {
  }

  /** Carry a plan out with the given encoder and compositor; a rejection
      of either step rejects the whole. */
  function Run(p: Plan, encode: Encoder, embed: Compositor): Option<string>
  {
    match p
    case Plain(content, opts) => encode(content, opts)
    case WithLogo(content, opts, logo, logoWidth, size) =>
      match encode(content, opts)
      case None => None
      case Some(big) => embed(big, logo, logoWidth, size)
  }

  /** `generateQRCode`: it has no `catch`, so a rejection of the encoder or
      of the compositor is its own rejection. */
  function GenerateQRCode(content: string, o: Options, encode: Encoder, embed: Compositor): (r: Option<string>)
    ensures !HasLogo(o) ==> r == encode(content, Resolve(o))
    ensures HasLogo(o) ==>
              var opts := Resolve(o);
              var big := encode(content, opts.(width := LogoScale * opts.width));
              (big.None? ==> r.None?)
              && (big.Some? ==> r == embed(big.value, o.logo.value, o.logoWidth, opts.width))
  {
    Run(PlanOf(content, o), encode, embed)
  }

  /** Without a logo the result is the encoder's, at the requested options,
      and it fails exactly when the encoder does. */
  lemma PlainIsEncoderOutput(content: string, o: Options, encode: Encoder, embed: Compositor)
    requires !HasLogo(o)
    ensures GenerateQRCode(content, o, encode, embed) == encode(content, Resolve(o))
    ensures GenerateQRCode(content, o, encode, embed).None? <==> encode(content, Resolve(o)).None?
  {
  }

  function Flatten<T>(o: Option<Option<T>>): Option<T>
  {
    if o.Some? then o.value else None
  }

  /** `configToOptions`: the colour object is always present, holding the two
      configured colours (possibly missing ones). */
  function ConfigToOptions(c: QrStore.ConfigPatch): (r: Options)
    ensures r.width == c.width && r.margin == c.margin && r.level == c.level
    ensures r.color == Some(Colors(c.foregroundColor, c.backgroundColor))
    ensures r.logo == Flatten(c.logo) && r.logoWidth == Flatten(c.logoWidth)
    ensures r.logoHeight == Flatten(c.logoHeight)
  {
    Options(c.width, c.margin, c.level, Some(Colors(c.foregroundColor, c.backgroundColor)),
            Flatten(c.logo), Flatten(c.logoWidth), Flatten(c.logoHeight))
  }

  /** For a whole configuration none of the defaults apply: the encoder sees
      exactly the configured width, margin, level and colours. */
  lemma WholeConfigOptions(c: QrStore.Config)
    ensures Resolve(ConfigToOptions(QrStore.AsPatch(c)))
            == EncodeOptions(c.width, c.margin, c.level, Colors(Some(c.foregroundColor), Some(c.backgroundColor)))
    ensures ConfigToOptions(QrStore.AsPatch(c)).logo == c.logo
  {
  }

  /** With no options at all the defaults are width 256, margin 2, level M,
      black on white, and no logo. */
  lemma EmptyOptionsDefaults(content: string)
    ensures PlanOf(content, NoOptions) == Plain(content, EncodeOptions(256, 2, QrStore.M, Colors(Some("#000000"), Some("#ffffff"))))
  {
  }

  /** One entry of the batch: the content and its optional options. */
  datatype Request = Request(content: string, options: Option<Options>)

  function Generate(r: Request, encode: Encoder, embed: Compositor): Option<string>
  {
    GenerateQRCode(r.content, r.options.GetOr(NoOptions), encode, embed)
  }

  /** `generateBatchQRCode`: the requests are encoded in order, and after
      each success the progress `(i + 1, n)` is reported.  The loop has no
      `catch`: the first rejection ends it and rejects the batch
      (`failed`), with `results` holding the codes made before it. */
  method GenerateBatch(items: seq<Request>, encode: Encoder, embed: Compositor)
    returns (results: seq<string>, progress: seq<(nat, nat)>, failed: bool)
    ensures failed <==> exists i :: 0 <= i < |items| && Generate(items[i], encode, embed).None?
    ensures |results| == |progress| <= |items|
    ensures forall i :: 0 <= i < |results| ==> Generate(items[i], encode, embed) == Some(results[i])
    ensures forall i :: 0 <= i < |progress| ==> progress[i] == (i + 1, |items|)
    ensures failed ==> |results| < |items| && Generate(items[|results|], encode, embed).None?
    ensures !failed ==> |results| == |items|
    ensures !failed && |items| > 0 ==> progress[|items| - 1] == (|items|, |items|)
  {
    results := [];
    progress := [];
    failed := false;
    var i := 0;
    while i < |items| && !failed
      invariant 0 <= i <= |items| && |results| == |progress|
      invariant !failed ==> |results| == i
      invariant failed ==> |results| == i - 1 && Generate(items[i - 1], encode, embed).None?
      invariant forall j :: 0 <= j < |results| ==> Generate(items[j], encode, embed) == Some(results[j])
      invariant forall j :: 0 <= j < |progress| ==> progress[j] == (j + 1, |items|)
      decreases |items| - i, if failed then 0 else 1
    {
      var url := Generate(items[i], encode, embed);
      if url.None? {
        failed := true;
      } else {
        results := results + [url.value];
        progress := progress + [(i + 1, |items|)];
      }
      i := i + 1;
    }
  }
}

=== FILE: qr_store.dfy ===
/**
 * The QR code store (useQRCodeStore.ts): the configuration of the single
 * code, the batch (its items, the shared style, the export format and the
 * file name pattern) and the generation progress.  Every action is a pure
 * transition; the random item id (`generateId`) is an argument.
 */
module QrStore {
  import opened Optional
  import Lists

  datatype Level = L | M | Q | H
  datatype Style = Square | Dot | Rounded
  datatype Status = Pending | Generating | Completed | Failed
  datatype ImageFormat = Png | Jpeg

  /** `QRCodeConfig`; the optional logo fields are `Option`s. */
  datatype Config = Config(
    content: string,
    width: int,
    margin: int,
    level: Level,
    foregroundColor: string,
    backgroundColor: string,
    logo: Option<string>,
    logoWidth: Option<real>,
    logoHeight: Option<real>,
    style: Style)

  /** `Partial<QRCodeConfig>`: a field is `Some` when the key is present.  For
      the optional fields a present key may still carry `undefined`. */
  datatype ConfigPatch = ConfigPatch(
    content: Option<string>,
    width: Option<int>,
    margin: Option<int>,
    level: Option<Level>,
    foregroundColor: Option<string>,
    backgroundColor: Option<string>,
    logo: Option<Option<string>>,
    logoWidth: Option<Option<real>>,
    logoHeight: Option<Option<real>>,
    style: Option<Style>)

  const NoConfigChange: ConfigPatch := ConfigPatch(None, None, None, None, None, None, None, None, None, None)

  datatype Item = Item(
    id: string,
    content: string,
    customStyle: Option<ConfigPatch>,
    filename: Option<string>,
    status: Status,
    error: Option<string>)

  datatype ItemPatch = ItemPatch(
    id: Option<string>,
    content: Option<string>,
    customStyle: Option<Option<ConfigPatch>>,
    filename: Option<Option<string>>,
    status: Option<Status>,
    error: Option<Option<string>>)

  datatype BatchConfig = BatchConfig(
    data: seq<Item>,
    globalStyle: Config,
    exportFormat: ImageFormat,
    filenamePattern: string)

  datatype BatchPatch = BatchPatch(
    data: Option<seq<Item>>,
    globalStyle: Option<Config>,
    exportFormat: Option<ImageFormat>,
    filenamePattern: Option<string>)

  datatype State = State(single: Config, batch: BatchConfig, generating: bool, progress: int)

  const DefaultPattern: string := "qr_{index}"

  const DefaultConfig: Config :=
    Config("https://example.com", 400, 2, M, "#000000", "#ffffff", None, None, None, Square)

  const DefaultBatch: BatchConfig := BatchConfig([], DefaultConfig, Png, DefaultPattern)

  /** The state the store starts in. */
  const Initial: State := State(DefaultConfig, DefaultBatch, false, 0)

  /* ---------------------------------------------------------------- merges */

  /** `{ ...c, ...p }`. */
  function MergeConfig(c: Config, p: ConfigPatch): (r: Config)
    ensures p == NoConfigChange ==> r == c
    ensures r.content == p.content.GetOr(c.content) && r.width == p.width.GetOr(c.width)
    ensures r.margin == p.margin.GetOr(c.margin) && r.level == p.level.GetOr(c.level)
    ensures r.foregroundColor == p.foregroundColor.GetOr(c.foregroundColor)
    ensures r.backgroundColor == p.backgroundColor.GetOr(c.backgroundColor)
    ensures r.logo == p.logo.GetOr(c.logo) && r.logoWidth == p.logoWidth.GetOr(c.logoWidth)
    ensures r.logoHeight == p.logoHeight.GetOr(c.logoHeight) && r.style == p.style.GetOr(c.style)
  {
    Config(p.content.GetOr(c.content), p.width.GetOr(c.width), p.margin.GetOr(c.margin),
           p.level.GetOr(c.level), p.foregroundColor.GetOr(c.foregroundColor),
           p.backgroundColor.GetOr(c.backgroundColor), p.logo.GetOr(c.logo),
           p.logoWidth.GetOr(c.logoWidth), p.logoHeight.GetOr(c.logoHeight), p.style.GetOr(c.style))
  }

  /** A patch that supplies every field of `c`. */
  function AsPatch(c: Config): ConfigPatch
  {
    ConfigPatch(Some(c.content), Some(c.width), Some(c.margin), Some(c.level),
                Some(c.foregroundColor), Some(c.backgroundColor), Some(c.logo),
                Some(c.logoWidth), Some(c.logoHeight), Some(c.style))
  }

  /** Merging a whole configuration replaces everything: the result does not
      depend on what was there. */
  lemma MergeWholeConfig(c: Config, d: Config)
    ensures MergeConfig(d, AsPatch(c)) == c
  {
  }

  /** The later of two optional values: `{ ...a, ...b }` on one key. */
  function Later<T>(a: Option<T>, b: Option<T>): Option<T>
  {
    if b.Some? then b else a
  }

  /** Spreading `p` then `q` into one patch. */
  function CombineConfig(p: ConfigPatch, q: ConfigPatch): ConfigPatch
  {
    ConfigPatch(Later(p.content, q.content), Later(p.width, q.width), Later(p.margin, q.margin),
                Later(p.level, q.level), Later(p.foregroundColor, q.foregroundColor),
                Later(p.backgroundColor, q.backgroundColor), Later(p.logo, q.logo),
                Later(p.logoWidth, q.logoWidth), Later(p.logoHeight, q.logoHeight),
                Later(p.style, q.style))
  }

  /** Two merges in a row are one merge of the combined patch; in particular
      merging the same patch twice is merging it once. */
  lemma MergeConfigCompose(c: Config, p: ConfigPatch, q: ConfigPatch)
    ensures MergeConfig(MergeConfig(c, p), q) == MergeConfig(c, CombineConfig(p, q))
    ensures MergeConfig(MergeConfig(c, p), p) == MergeConfig(c, p)
  {
  }

  /** `{ ...state.batchConfig, ...config }`. */
  function MergeBatch(b: BatchConfig, p: BatchPatch): (r: BatchConfig)
    ensures r.data == p.data.GetOr(b.data) && r.globalStyle == p.globalStyle.GetOr(b.globalStyle)
    ensures r.exportFormat == p.exportFormat.GetOr(b.exportFormat)
    ensures r.filenamePattern == p.filenamePattern.GetOr(b.filenamePattern)
  {
    BatchConfig(p.data.GetOr(b.data), p.globalStyle.GetOr(b.globalStyle),
                p.exportFormat.GetOr(b.exportFormat), p.filenamePattern.GetOr(b.filenamePattern))
  }

  /** `setSingleConfig`. */
  function SetSingleConfig(s: State, p: ConfigPatch): (r: State)
    ensures r.single == MergeConfig(s.single, p)
    ensures r.batch == s.batch && r.generating == s.generating && r.progress == s.progress
  {
    s.(single := MergeConfig(s.single, p))
  }

  /** `setBatchConfig`: a shallow merge, so a supplied `globalStyle` replaces
      the whole style. */
  function SetBatchConfig(s: State, p: BatchPatch): (r: State)
    ensures r.batch == MergeBatch(s.batch, p)
    ensures r.single == s.single && r.generating == s.generating && r.progress == s.progress
  {
    s.(batch := MergeBatch(s.batch, p))
  }

  /* ----------------------------------------------------------- batch items */

  function ItemId(i: Item): string { i.id }

  predicate HasItem(s: State, id: string)
  {
    exists i :: 0 <= i < |s.batch.data| && s.batch.data[i].id == id
  }

  /** The other parts of the batch configuration are untouched. */
  predicate SameBatchSettings(s: State, r: State)
  {
    r.batch.globalStyle == s.batch.globalStyle && r.batch.exportFormat == s.batch.exportFormat
    && r.batch.filenamePattern == s.batch.filenamePattern
    && r.single == s.single && r.generating == s.generating && r.progress == s.progress
  }

  /** `addBatchItem`: append one pending item. */
  function AddBatchItem(s: State, freshId: string, content: string): (r: State)
    ensures r.batch.data == s.batch.data + [Item(freshId, content, None, None, Pending, None)]
    ensures SameBatchSettings(s, r)
  {
    s.(batch := s.batch.(data := s.batch.data + [Item(freshId, content, None, None, Pending, None)]))
  }

  /** `removeBatchItem`: keep the items carrying another id, in order. */
  function RemoveBatchItem(s: State, id: string): (r: State)
    ensures forall x :: x in r.batch.data <==> x in s.batch.data && x.id != id
    ensures !HasItem(r, id)
    ensures SameBatchSettings(s, r)
  {
    s.(batch := s.batch.(data := Lists.Filter(s.batch.data, (x: Item) => x.id != id)))
  }

  /** `{ ...i, ...item }`. */
  function ApplyItemPatch(x: Item, p: ItemPatch): (r: Item)
    ensures r.id == p.id.GetOr(x.id) && r.content == p.content.GetOr(x.content)
    ensures r.customStyle == p.customStyle.GetOr(x.customStyle)
    ensures r.filename == p.filename.GetOr(x.filename)
    ensures r.status == p.status.GetOr(x.status) && r.error == p.error.GetOr(x.error)
  {
    Item(p.id.GetOr(x.id), p.content.GetOr(x.content), p.customStyle.GetOr(x.customStyle),
         p.filename.GetOr(x.filename), p.status.GetOr(x.status), p.error.GetOr(x.error))
  }

  /** `updateBatchItem`: patch the items carrying the id, keep the others. */
  function UpdateBatchItem(s: State, id: string, p: ItemPatch): (r: State)
    ensures |r.batch.data| == |s.batch.data|
    ensures forall i :: 0 <= i < |s.batch.data| ==>
              r.batch.data[i] == if s.batch.data[i].id == id then ApplyItemPatch(s.batch.data[i], p)
                                 else s.batch.data[i]
    ensures SameBatchSettings(s, r)
  {
    s.(batch := s.batch.(data := Lists.MapWhere(s.batch.data, (x: Item) => x.id == id,
                                                (x: Item) => ApplyItemPatch(x, p))))
  }

  /** `clearBatchItems`. */
  function ClearBatchItems(s: State): (r: State)
    ensures r.batch.data == [] && SameBatchSettings(s, r)
  {
    s.(batch := s.batch.(data := []))
  }

  /** `setBatchData`. */
  function SetBatchData(s: State, data: seq<Item>): (r: State)
    ensures r.batch.data == data && SameBatchSettings(s, r)
  {
    s.(batch := s.batch.(data := data))
  }

  /** `setGenerating`. */
  function SetGenerating(s: State, generating: bool): (r: State)
    ensures r.generating == generating && r.single == s.single && r.batch == s.batch
    ensures r.progress == s.progress
  {
    s.(generating := generating)
  }

  /** `setProgress`. */
  function SetProgress(s: State, progress: int): (r: State)
    ensures r.progress == progress && r.single == s.single && r.batch == s.batch
    ensures r.generating == s.generating
  {
    s.(progress := progress)
  }

  /* -------------------------------------------------------------- lemmas */

  /** Removing an item that was just added under a fresh id restores the
      list. */
  lemma RemoveUndoesAdd(s: State, freshId: string, content: string)
    requires !HasItem(s, freshId)
    ensures RemoveBatchItem(AddBatchItem(s, freshId, content), freshId) == s
  {
    var keep := (x: Item) => x.id != freshId;
    var item := Item(freshId, content, None, None, Pending, None);
    Lists.FilterAppend(s.batch.data, [item], keep);
    Lists.FilterAll(s.batch.data, keep);
  }

  /** Removing after an update that keeps ids is removing alone: the update
      only touched the items that go. */
  lemma RemoveAfterUpdate(s: State, id: string, p: ItemPatch)
    requires p.id == None
    ensures RemoveBatchItem(UpdateBatchItem(s, id, p), id) == RemoveBatchItem(s, id)
  {
    FilterUpdated(s.batch.data, UpdateBatchItem(s, id, p).batch.data, id, p);
  }

  lemma {:induction false} FilterUpdated(data: seq<Item>, updated: seq<Item>, id: string, p: ItemPatch)
    requires p.id == None && |updated| == |data|
    requires forall i :: 0 <= i < |data| ==>
      updated[i] == if data[i].id == id then ApplyItemPatch(data[i], p) else data[i]
    ensures Lists.Filter(updated, (x: Item) => x.id != id) == Lists.Filter(data, (x: Item) => x.id != id)
  {
    if |data| > 0 {
      FilterUpdated(data[1..], updated[1..], id, p);
    }
  }

  /** The number of items stays put under update and drops by one when an
      item with a unique id is removed. */
  lemma RemoveCount(s: State, id: string)
    requires Lists.DistinctKeys(s.batch.data, ItemId) && HasItem(s, id)
    ensures |RemoveBatchItem(s, id).batch.data| == |s.batch.data| - 1
  {
    var keep := (x: Item) => x.id != id;
    Lists.FilterLength(s.batch.data, keep);
    Lists.RemoveOneKey(s.batch.data, ItemId, id, keep);
  }
}

=== FILE: tab_prototype.dfy ===
/**
 * The tabbed formatter of the `write-json-formatter.js` prototype: four
 * guarded transforms over `JSON.parse`/`JSON.stringify`, an output pane per
 * tab, and its own add/close rules.  Unlike the store, closing a tab here
 * moves the selection only when the closed tab was the selected one.
 */
module TabPrototype {
  import opened Optional
  import opened JsText
  import Json
  import Lists

  datatype Outcome = Ok(data: string) | Fail(error: string)

  const EmptyInput: string := "Empty input"
  const ErrorPrefix: string := "Error: "
  const TabNamePrefix: string := "标签 "
  const InitialFontSize: int := 14
  const MinFontSize: int := 10
  const MaxFontSize: int := 32

  /** The shared shape of the four transforms: refuse blank input, otherwise
      print the parsed value with the given indent or report the parser's
      message. */
  function Transform(input: string, engine: Json.Engine, indent: nat): (r: Outcome)
    ensures IsBlank(input) ==> r == Fail(EmptyInput)
    ensures !IsBlank(input) ==>
              match engine.parse(input)
              case Parsed(v) => r == Ok(engine.stringify(v, indent))
              case Thrown(m) => r == Fail(m)
  {
    TrimEmptyIffBlank(input);
    if Trim(input) == [] then Fail(EmptyInput)
    else match engine.parse(input)
         case Parsed(v) => Ok(engine.stringify(v, indent))
         case Thrown(m) => Fail(m)
  }

  /** `formatJson`. */
  function FormatJson(input: string, engine: Json.Engine): (r: Outcome)
    ensures r.Ok? <==> !IsBlank(input) && engine.parse(input).Parsed?
    ensures r.Ok? ==> r.data == engine.stringify(engine.parse(input).value, 2)
    ensures r.Fail? ==> r.error == (if IsBlank(input) then EmptyInput else engine.parse(input).message)
  {
    Transform(input, engine, 2)
  }

  /** `compressJson`. */
  function CompressJson(input: string, engine: Json.Engine): (r: Outcome)
    ensures r.Ok? <==> !IsBlank(input) && engine.parse(input).Parsed?
    ensures r.Ok? ==> r.data == engine.stringify(engine.parse(input).value, 0)
    ensures r.Fail? ==> r.error == (if IsBlank(input) then EmptyInput else engine.parse(input).message)
  {
    Transform(input, engine, 0)
  }

  /** `escapeJson`: `JSON.stringify(JSON.parse(input))`. */
  function EscapeJson(input: string, engine: Json.Engine): (r: Outcome)
    ensures r == CompressJson(input, engine)
  {
    TrimEmptyIffBlank(input);
    if Trim(input) == [] then Fail(EmptyInput)
    else match engine.parse(input)
         case Parsed(v) => Ok(engine.stringify(v, 0))
         case Thrown(m) => Fail(m)
  }

  /** `unescapeJson`: the same steps as `compressJson`. */
  function UnescapeJson(input: string, engine: Json.Engine): (r: Outcome)
    ensures r == CompressJson(input, engine)
  {
    TrimEmptyIffBlank(input);
    if Trim(input) == [] then Fail(EmptyInput)
    else
      var parsed := engine.parse(input);
      match parsed
      case Parsed(v) => Ok(engine.stringify(v, 0))
      case Thrown(m) => Fail(m)
  }

  /** What a handler writes to the output pane. */
  function OutputOf(r: Outcome): string
  {
    match r
    case Ok(data) => data
    case Fail(error) => ErrorPrefix + error
  }

  /* ------------------------------------------------------------- the tabs */

  datatype PTab = PTab(id: string, name: string, input: string, output: string, fontSize: int)

  datatype Proto = Proto(tabs: seq<PTab>, activeTabId: string)

  function TabId(t: PTab): string { t.id }

  function Initial(id: string): (p: Proto)
    ensures Inv(p)
    ensures p.tabs == [PTab(id, TabNamePrefix + "1", "", "", InitialFontSize)] && p.activeTabId == id
    ensures ActiveTab(p) == Some(p.tabs[0])
  {
    var p := Proto([PTab(id, TabNamePrefix + "1", "", "", InitialFontSize)], id);
    assert p.tabs[0].id == id;
    p
  }

  /** At least one tab, distinct ids, and the selected id names a tab. */
  predicate Inv(p: Proto)
  {
    |p.tabs| >= 1 && Lists.DistinctKeys(p.tabs, TabId)
    && exists i :: 0 <= i < |p.tabs| && p.tabs[i].id == p.activeTabId
  }

  /** `tabs.find(t => t.id === activeTabId) || tabs[0]`. */
  function ActiveTab(p: Proto): (r: Option<PTab>)
    ensures r.None? <==> |p.tabs| == 0
    ensures r.Some? ==> r.value in p.tabs
    ensures r.Some? && r.value.id != p.activeTabId ==>
              r.value == p.tabs[0] && forall i :: 0 <= i < |p.tabs| ==> p.tabs[i].id != p.activeTabId
  {
    var i := Lists.FirstIndex(p.tabs, (t: PTab) => t.id == p.activeTabId);
    if i >= 0 then Some(p.tabs[i])
    else if |p.tabs| == 0 then None
    else Some(p.tabs[0])
  }

  /** `updateActiveTab`. */
  function UpdateActive(p: Proto, f: PTab -> PTab): (r: Proto)
    ensures |r.tabs| == |p.tabs| && r.activeTabId == p.activeTabId
    ensures forall i :: 0 <= i < |p.tabs| ==>
              r.tabs[i] == if p.tabs[i].id == p.activeTabId then f(p.tabs[i]) else p.tabs[i]
  {
    p.(tabs := Lists.MapWhere(p.tabs, (t: PTab) => t.id == p.activeTabId, f))
  }

  datatype Action = Format | Compress | Escape | Unescape

  function Run(a: Action, input: string, engine: Json.Engine): Outcome
  {
    match a
    case Format => FormatJson(input, engine)
    case Compress => CompressJson(input, engine)
    case Escape => EscapeJson(input, engine)
    case Unescape => UnescapeJson(input, engine)
  }

  /** `handleFormat`, `handleCompress`, `handleEscape`, `handleUnescape`:
      only the output of the selected tab changes. */
  function Handle(p: Proto, a: Action, engine: Json.Engine): (r: Proto)
    ensures |r.tabs| == |p.tabs| && r.activeTabId == p.activeTabId
    ensures ActiveTab(p).Some? ==>
              var out := OutputOf(Run(a, ActiveTab(p).value.input, engine));
              forall i :: 0 <= i < |p.tabs| ==>
                r.tabs[i] == if p.tabs[i].id == p.activeTabId then p.tabs[i].(output := out)
                             else p.tabs[i]
    ensures ActiveTab(p).Some? && IsBlank(ActiveTab(p).value.input) ==>
              forall i :: 0 <= i < |p.tabs| && p.tabs[i].id == p.activeTabId ==>
                r.tabs[i].output == ErrorPrefix + EmptyInput
  {
    match ActiveTab(p)
    case None => p
    case Some(t) =>
      var out := OutputOf(Run(a, t.input, engine));
      UpdateActive(p, (u: PTab) => u.(output := out))
  }

  /** `handleClear`. */
  function HandleClear(p: Proto): (r: Proto)
    ensures |r.tabs| == |p.tabs| && r.activeTabId == p.activeTabId
    ensures forall i :: 0 <= i < |p.tabs| ==>
              r.tabs[i] == if p.tabs[i].id == p.activeTabId then p.tabs[i].(input := "", output := "")
                           else p.tabs[i]
  {
    UpdateActive(p, (t: PTab) => t.(input := "", output := ""))
  }

  /** `handleFontSizeChange`: sizes outside [10, 32] are ignored. */
  function HandleFontSizeChange(p: Proto, size: Option<int>): (r: Proto)
    ensures (size.None? || size.value < MinFontSize || size.value > MaxFontSize) ==> r == p
    ensures |r.tabs| == |p.tabs| && r.activeTabId == p.activeTabId
    ensures size.Some? && MinFontSize <= size.value <= MaxFontSize ==>
              forall i :: 0 <= i < |p.tabs| ==>
                r.tabs[i] == if p.tabs[i].id == p.activeTabId then p.tabs[i].(fontSize := size.value)
                             else p.tabs[i]
  {
    if size.Some? && MinFontSize <= size.value <= MaxFontSize then
      UpdateActive(p, (t: PTab) => t.(fontSize := size.value))
    else p
  }

  /** `addTab`: append an empty tab named after the new count, with the
      selected tab's font size, and select it. */
  function AddTab(p: Proto, freshId: string): (r: Proto)
    ensures |p.tabs| == 0 ==> r == p
    ensures |p.tabs| > 0 ==>
              r.tabs == p.tabs + [PTab(freshId, TabNamePrefix + Decimal(|p.tabs| + 1), "", "",
                                       ActiveTab(p).value.fontSize)]
              && r.activeTabId == freshId
  {
    match ActiveTab(p)
    case None => p
    case Some(t) =>
      Proto(p.tabs + [PTab(freshId, TabNamePrefix + Decimal(|p.tabs| + 1), "", "", t.fontSize)], freshId)
  }

  /** `closeTab`: refused while at most one tab is open; otherwise drop the
      tab, and select the first tab left only if the closed one was
      selected. */
  function CloseTab(p: Proto, id: string): (r: Proto)
    ensures |p.tabs| <= 1 ==> r == p
    ensures |p.tabs| > 1 ==>
              (forall t :: t in r.tabs <==> t in p.tabs && t.id != id)
              && (p.activeTabId != id ==> r.activeTabId == p.activeTabId)
              && (p.activeTabId == id && |r.tabs| > 0 ==> r.activeTabId == r.tabs[0].id)
  {
    if |p.tabs| <= 1 then p
    else
      var kept := Lists.Filter(p.tabs, (t: PTab) => t.id != id);
      if p.activeTabId == id && |kept| > 0 then Proto(kept, kept[0].id)
      else Proto(kept, p.activeTabId)
  }

  /* -------------------------------------------------------------- lemmas */

  /** Adding under a fresh id keeps the invariant. */
  lemma AddTabInv(p: Proto, freshId: string)
    requires Inv(p) && forall i :: 0 <= i < |p.tabs| ==> p.tabs[i].id != freshId
    ensures Inv(AddTab(p, freshId))
  {
    var r := AddTab(p, freshId);
    assert r.tabs[|p.tabs|].id == freshId;
  }

  /** Closing keeps the invariant: ids are distinct, so at most one of the two
      or more tabs goes, and the selection always names a remaining tab. */
  lemma CloseTabInv(p: Proto, id: string)
    requires Inv(p)
    ensures Inv(CloseTab(p, id))
  {
    if |p.tabs| > 1 {
      var keep := (t: PTab) => t.id != id;
      var kept := Lists.Filter(p.tabs, keep);
      Lists.FilterLength(p.tabs, keep);
      Lists.RemoveOneKey(p.tabs, TabId, id, keep);
      Lists.FilterDistinct(p.tabs, TabId, keep);
      var r := CloseTab(p, id);
      if p.activeTabId != id {
        var i :| 0 <= i < |p.tabs| && p.tabs[i].id == p.activeTabId;
        assert p.tabs[i] in kept;
        var j :| 0 <= j < |kept| && kept[j] == p.tabs[i];
        assert r.tabs[j].id == r.activeTabId;
      } else {
        assert r.tabs[0].id == r.activeTabId;
      }
    }
  }

  /** A step that keeps every id in place and the selection keeps the
      invariant. */
  lemma SameIdsKeepInv(p: Proto, r: Proto)
    requires Inv(p) && |r.tabs| == |p.tabs| && r.activeTabId == p.activeTabId
    requires forall i :: 0 <= i < |p.tabs| ==> r.tabs[i].id == p.tabs[i].id
    ensures Inv(r)
  {
    var i :| 0 <= i < |p.tabs| && p.tabs[i].id == p.activeTabId;
    assert r.tabs[i].id == r.activeTabId;
  }

  /** The handlers keep the invariant: they never touch ids or the selection. */
  lemma HandleKeepsInv(p: Proto, a: Action, engine: Json.Engine)
    requires Inv(p)
    ensures Inv(Handle(p, a, engine))
  {
    var r := Handle(p, a, engine);
    assert forall i :: 0 <= i < |p.tabs| ==> r.tabs[i].id == p.tabs[i].id;
    SameIdsKeepInv(p, r);
  }

  lemma ClearAndFontSizeKeepInv(p: Proto, size: Option<int>)
    requires Inv(p)
    ensures Inv(HandleClear(p)) && Inv(HandleFontSizeChange(p, size))
  {
    SameIdsKeepInv(p, HandleClear(p));
    SameIdsKeepInv(p, HandleFontSizeChange(p, size));
  }
}
